=== FILE: README.md ===
# Stock metadata generator: a Dafny model of its core

The application takes images, videos and vector files from a drag-and-drop
panel. It asks a Gemini model for marketplace metadata for each file: title,
description, keywords and category. In prompt mode it asks instead for a
description that can serve as an image-generation prompt. It then exports
the results as a CSV file laid out for one of several stock sites.

This project models the logic behind that workflow and proves what it
guarantees:

- **The generation run** (`startGeneration` in App.tsx), modelled in
  `Generation`, `GenerationFacts` and `GenerationRuns`:
  - Refusing to start.
  - Cutting the ready files into batches.
  - The per-minute, round-robin rate limiter over the API keys.
  - Accounting every answer: the result list, the success count and the
    retry queue.
  - The retry pass.
  - Stopping through Clear All.
  - The completion state.
- **Single-file regeneration** and **Clear All**.
- **The model-call layer** (services/geminiService.ts):
  - The prompt built from the settings.
  - The retry loop with exponential backoff.
  - The clean-up of a metadata answer: the sentence-case title with the
    title options, and the cleaned, completed, de-duplicated and truncated
    keyword list.
- **The upload panel**:
  - Which dropped files are accepted.
  - De-duplication of repeated drops.
  - Preparing files.
  - The state of the Generate button.
  - The gallery overflow.
  - Removing a file.
  - The CSV export, shared with the completion dialog.
- **The API-key dialog**: saving, deleting, masking and revealing keys,
  committing the model choice, and the colour-shading helper.
- **The results panel**: card fallbacks, word and keyword counts, the copied
  keyword text, newest-first order and deletion.

The model works on immutable data with pure functions. The only method is the retry loop of the model call. The browser's
contributions are parameters of the model. Those are the clock, the model's
answers, the moment Clear All is pressed, the random file ids and the
outcome of preparing a file (`Generation.Env`, `Gemini.Attempt`,
`UploadPanel.Preparation`).

Modules:

- `Types` and `Wrappers`: shared data and `Option`.
- `Text` and `Lists`: string and sequence helpers with their own
  contracts.
- `RateLimiter`, `Batching`, `Generation`, `GenerationFacts` and
  `GenerationRuns`: the generation run.
- `Gemini`: the model-call layer.
- `CsvCodec` and `CsvExport`: the CSV file.
- `StagedList` and `UploadPanel`: the upload panel.
- `ApiKeys` and `Color`: the key dialog.
- `ResultsPanel`: the results panel.

Two parts of the model do not follow the code literally:

- `Color` writes out JavaScript's `parseInt(…, 16)`, the 32-bit `>>` and
  `&`, `toString(16)` and `padStart`.
- The two CSV exporters share one builder. `CsvCodec` gives the file an
  independent reader, so the export is proved to read back as the intended
  table.

## Model

| member | source | states |
|---|---|---|
| Generation.ClearAll | App.tsx:121-129 | Clear All empties both lists, resets progress to idle and leaves no run active or paused; the completion dialog is untouched |
| Generation.Clear | App.tsx:121-129 | Clear All reaching a run in progress empties its lists, resets its progress and raises the stop flag, and leaves the key counts, the dispatch count, the success count and the retry queue as they were |
| Generation.StartGeneration | App.tsx:131-306 | a run is refused exactly when there is no first key or no ready file; a run that finishes shows either 'Stopped.' or 'Complete.', no longer paused, and a completed one opens the completion dialog with the number of ready files as its total and no run active; what each case leaves behind is stated by GenerationRuns.StartRefusal, CompletedRun, FinishedRun, PausedRun and HangIffOversized |
| Generation.Step | App.tsx:173-278 | one batch never changes the number of keys the limiter tracks and keeps its cursor on a key |
| Generation.RunBatches | App.tsx:173-192 | the batch loop keeps the limiter well formed over the same keys |
| Generation.PrimaryPass | App.tsx:136-154 | the primary pass runs over the ready files with one counter per key |
| Generation.RetryPass | App.tsx:284-289 | the retry pass keeps the limiter well formed over the same keys |
| Generation.Regenerate | App.tsx:308-338 | only the chosen result can change; it is replaced by the old record merged with the new answer and the current mode exactly when there is a first key, the index is in range, the record has a payload and the call succeeds; otherwise the list is unchanged |
| Batching.EffectiveBatchSize | App.tsx:172 | a zero batch-size setting falls back to the default of 3; any other setting is used as is |
| Batching.BatchesFlatten | App.tsx:173-192 | the batches concatenated in order give back exactly the file list |
| Batching.BatchesCount | App.tsx:173 | the loop makes ceil(n / batch size) batches |
| Batching.BatchesAreSlices | App.tsx:192 | batch k is the slice from k times the batch size, cut at the end of the list |
| RateLimiter.Start | App.tsx:152-154 | a run starts with every key's count at zero, the cursor on key 0 and the window opened at the start time |
| RateLimiter.RefreshWindow | App.tsx:198-201 | once more than 60 seconds have passed since the window opened, every count is zeroed and the window reopens now; otherwise nothing changes |
| RateLimiter.RotInjective | App.tsx:202-210 | within one turn of the scan, no key is visited twice |
| RateLimiter.RotCovers | App.tsx:202-210 | within one turn of the scan, every key is visited |
| RateLimiter.ScanLoopFirstFit | App.tsx:202-210 | from any point of the scan, it stops at the first key in round-robin order that can take the batch, or comes back to where it started when none can |
| RateLimiter.ScanIsFirstFit | App.tsx:202-210 | the key found can carry the batch and every key skipped before it cannot; the scan finds nothing exactly when no key has room |
| RateLimiter.ReserveEffect | App.tsx:229-231 | the chosen key's count grows by the batch size, all other counts stay, and the cursor moves to the next key |
| RateLimiter.WakeTime | App.tsx:212-227 | the countdown wait ends no earlier than 61 seconds after the window opened |
| RateLimiter.AssignChoosesKey | App.tsx:195-231 | without a wait the batch goes to the first key with room after the window check; after a wait the window has rolled over and the batch goes to the cursor's key, the only key with a non-zero count |
| RateLimiter.AssignMovesCursor | App.tsx:231 | after an assignment the cursor sits on the key after the assigned one |
| RateLimiter.AssignKeepsBudget | App.tsx:202-231 | no key ever carries more than 15 requests in a window, and a batch is assigned exactly when it has at most 15 files |
| RateLimiter.AfterWaitAssignsCursorKey | App.tsx:198-210 | once the wait is over, the next round takes the key under the cursor without skipping any |
| StagedList.ReadyFiles | App.tsx:136 | the files to process are staged files in the ready state, and every ready staged file is among them |
| StagedList.ReadyFilesAppend | App.tsx:136 | the ready files of a concatenation are the ready files of each part, one after the other, so the filter keeps the staged order and the number of copies |
| StagedList.ReadyFilesOne | App.tsx:136 | an empty list has no ready file, and one file is kept exactly when it is ready |
| StagedList.NoReadyFiles | App.tsx:136-137 | no file is ready exactly when no staged file has the ready status |
| StagedList.RemoveAfterSetStatus | App.tsx:250 | marking a file as processing and then removing it removes it as if unmarked |
| StagedList.RemoveCommutesWithSetStatus | App.tsx:250-263 | removing one file and changing another's status commute |
| StagedList.OthersAfterRemove | App.tsx:250 | removing one of a run's files leaves every file outside the run in place and order |
| StagedList.MarkAllKeepsOthers | App.tsx:157-159 | marking a batch as processing leaves the other staged files as they were |
| StagedList.RemoveCommutesWithMarkAll | App.tsx:157-159 | removing a file commutes with marking a batch that does not contain it |
| GenerationFacts.SuccessesAndFailures | App.tsx:241-265 | every file of a pass either succeeds or fails; each success yields one record |
| GenerationFacts.TallyPrimary | App.tsx:241-276 | in the primary pass every file counts once as processed; successes add their records and the success count; failures join the retry queue in order |
| GenerationFacts.TallyRetry | App.tsx:252-259 | in the retry pass every file adds exactly one record, its answer or an error record; the processed count and the queue are untouched |
| GenerationFacts.AnswerRecordsAt | App.tsx:241-259 | the records of the retry pass match its files one for one: the answer merged with the file's name, thumbnail and payload, or "Error" with "Failed: " and the message |
| GenerationFacts.TallyFilesAppend | App.tsx:236-277 | accounting two lists of files one after the other is accounting their concatenation |
| GenerationFacts.MarkThenAccount | App.tsx:157-159 | marking a batch as processing before its answers are accounted makes no difference to the final staged list |
| GenerationFacts.StepWithoutClear | App.tsx:229-277 | a dispatched batch that Clear All does not interrupt accounts every answer in batch order and counts its files as dispatched |
| GenerationFacts.StepProgress | App.tsx:268-276 | after each batch of the primary pass the progress shows files processed out of the total and the successes so far |
| GenerationFacts.PassFollowsBatches | App.tsx:173-278 | an uninterrupted pass that ends has accounted its batches one after another |
| GenerationFacts.TallyBatchesFlat | App.tsx:173-277 | accounting batch by batch equals accounting the whole file list, whatever the batch boundaries |
| GenerationFacts.PassMatchesReference | App.tsx:173-278 | an uninterrupted pass gives the same tally and staged list as the batch-free reference over all its files |
| GenerationFacts.PassProgress | App.tsx:268-276 | after an uninterrupted primary pass, the progress reports the processed count against the total and the successes |
| GenerationFacts.FailuresKeepNoDup | App.tsx:260-265 | the retry queue never lists a file twice |
| GenerationFacts.StagedFilesKeepsOthers | App.tsx:236-277 | a pass touches only the staged entries of its own files |
| GenerationFacts.PrimaryStaged | App.tsx:250-263 | in the primary pass, a success removes the file for good and a failure leaves it marked as failed |
| GenerationFacts.RetryStaged | App.tsx:250-259 | the retry pass removes every file it processes, success or not |
| GenerationRuns.StepNext | App.tsx:195-231 | an unparked batch is dispatched exactly when it has at most 15 files; a larger batch waits forever |
| GenerationRuns.StepKeepsBudget | App.tsx:195-231 | a batch never takes a key over its per-minute budget |
| GenerationRuns.StepStopsCleared | App.tsx:174-237 | a batch that ends stopped has left the state Clear All produces |
| GenerationRuns.StepStopsOnlyOnClear | App.tsx:174-237 | a batch stops the run only when Clear All arrives in flight or while parked |
| GenerationRuns.RunBatchesKeepsBudget | App.tsx:173-231 | no key goes over its budget anywhere in a pass |
| GenerationRuns.RunBatchesStopsCleared | App.tsx:174-237 | a pass that ends stopped leaves the cleared state behind |
| GenerationRuns.RunBatchesEnds | App.tsx:173-278 | an unparked pass whose batches all fit a key's budget always ends |
| GenerationRuns.RunBatchesStopsOnlyOnClear | App.tsx:174-237 | a pass that no Clear All reaches is never stopped |
| GenerationRuns.StepDispatches | App.tsx:192-237 | an unparked batch that fits a key is dispatched in full, and it stops the run exactly when Clear All arrives while it is in flight |
| GenerationRuns.ClearedBatchIsLastDispatched | App.tsx:173-237 | when Clear All reaches batch j in flight, the pass ends stopped without dispatching any file after batch j; with no earlier clear, exactly the files of batches 0..j were dispatched |
| GenerationRuns.StoppedRetryDispatchesNothing | App.tsx:284-288 | after a stop, or a Clear All during the pause between the passes, the retry pass dispatches nothing and, with files queued, ends stopped |
| GenerationRuns.ClearedRunDispatchesNoMore | App.tsx:173-292 | a Clear All that reaches primary batch j in flight ends the run with 'Stopped.' and cleared lists; no file after batch j is dispatched in either pass |
| GenerationRuns.BatchesFit | constants.ts:4-5 | with a batch size of at most 15, or at most 15 files, every batch fits one key's budget |
| GenerationRuns.PrimaryPassAccounting | App.tsx:131-281 | an uninterrupted, unparked primary pass with fitting batches processes every ready file once; it queues exactly the failures, appends the success records in order and shows all files processed |
| GenerationRuns.RetryPassAccounting | App.tsx:284-289 | an uninterrupted retry pass gives each queued file exactly one record and removes it from the staged list |
| GenerationRuns.CompletedAppCounts | App.tsx:297-305 | at completion each ready file has exactly one new record, and the success count is at most the total |
| GenerationRuns.CompletedRun | App.tsx:131-306 | an unparked, uninterrupted run with fitting batches finishes with the ready files gone, every other staged file kept in order, the success records then one record per retried file appended, the status "Complete", and the completion dialog open with the success count over both passes |
| GenerationRuns.StartAfterPasses | App.tsx:291-305 | once both passes are done and not stopped, the run publishes the completion state |
| GenerationRuns.BothPassesStaged | App.tsx:250-289 | after both passes every processed file has left the staged list and nothing else has changed |
| GenerationRuns.StepClearedStops | App.tsx:237 | a batch that Clear All reaches in flight stops the run |
| GenerationRuns.UnstoppedPassSawNoClear | App.tsx:174-237 | a pass that ends unstopped met no Clear All while a batch was in flight |
| GenerationRuns.UnstoppedPrimaryRetry | App.tsx:260-265 | a primary pass that ends unstopped has queued exactly its failures |
| GenerationRuns.RetryPassEnds | App.tsx:284-289 | an unparked retry pass with fitting batches ends |
| GenerationRuns.OversizedPrimaryStalls | App.tsx:195-228 | with a batch size over 15 and more than 15 ready files, the first batch never finds a key |
| GenerationRuns.FittingPassesEnd | App.tsx:281-289 | both passes of an unparked run with fitting batches end |
| GenerationRuns.HangIffOversized | App.tsx:172-228 | an unparked run hangs exactly when the batch size exceeds 15 and more than 15 files are ready |
| GenerationRuns.RetryPassStopsCleared | App.tsx:284-295 | a retry pass that ends stopped leaves the cleared state |
| GenerationRuns.FinishedRun | App.tsx:291-305 | a finished run either completes, or ends after Clear All with both lists empty and the status "Stopped." |
| GenerationRuns.OnlyClearStops | App.tsx:291-305 | without Clear All, a run that finishes completes |
| GenerationRuns.PausedRun | App.tsx:176-190 | a run started while paused hangs at its first batch unless Clear All arrives, and then ends stopped and cleared |
| GenerationRuns.RunKeepsBudget | App.tsx:195-231 | neither pass lets any key exceed 15 requests in a window |
| GenerationRuns.StartRefusal | App.tsx:132-140 | the run refuses without a first key, with nothing uploaded, or with files none of which is ready, each with its own notice, and in no other case |
| Gemini.Delay | services/geminiService.ts:71-72 | every retry delay lies between one second and the 30-second cap |
| Gemini.DelayClosedForm | services/geminiService.ts:131 | delay i is one second times 2^i, capped at 30 seconds |
| Gemini.DelayNonDecreasing | services/geminiService.ts:131 | the delays never shrink |
| Gemini.DelayCapped | services/geminiService.ts:131 | from the sixth failure on, every delay is the cap |
| Gemini.TitleOptionsOrder | services/geminiService.ts:107-111 | a title option is listed exactly when its switch is on, in the fixed order transparent, white, vector, illustration |
| Gemini.ToggleText | services/geminiService.ts:112 | the option suffix is empty exactly when no option is on |
| Gemini.ToggleTextSplitsBack | services/geminiService.ts:112 | for a non-empty list of options free of ", ", the suffix is a space followed by the options joined with ", ", and splitting it there gives the options back |
| Gemini.OptionTextNoSeparator | services/geminiService.ts:108-111 | none of the four option texts contains ", " |
| Gemini.TitleOptionsSplitBack | services/geminiService.ts:107-112 | the suffix built from the switched-on options is empty when none is on, and otherwise a space followed by text that splits at ", " into exactly those options |
| Gemini.BaseTitleSentenceCase | services/geminiService.ts:105 | the base title has the length of the answer's title and equals it up to case, with only the first letter possibly capitalised |
| Gemini.Normalize | services/geminiService.ts:103-125 | a prompt-mode answer is returned as parsed; a metadata answer keeps its description and category, its title becomes the sentence-cased title followed by the option suffix, and its keywords are the cleaned keywords with the options added |
| Gemini.NormalizedTitle | services/geminiService.ts:105-114 | a metadata title starts with the sentence-cased answer title; it is exactly that when no option is on, and otherwise continues with a space and text that splits at ", " into the switched-on options |
| Gemini.CleanKeywordsAreClean | services/geminiService.ts:116 | every cleaned keyword is non-empty, trimmed and lower-case, and every keyword that is not blank survives in that form |
| Gemini.AddMissingContents | services/geminiService.ts:117-120 | after completion the list holds exactly the answer's keywords and the option keywords |
| Gemini.OptionsAreClean | services/geminiService.ts:117 | the lower-cased option texts are clean keywords |
| Gemini.KeywordsMeetSpec | services/geminiService.ts:116-122 | the final keyword list is exactly the first min(count, total) entries of the completed list, which holds every cleaned keyword and every lower-cased option; it has no duplicates, and it is empty only when the count is 0 or there is nothing to keep |
| Gemini.NormalizedKeywords | services/geminiService.ts:116-122 | the keywords of every metadata answer meet that specification, and when the count allows, every cleaned keyword and every switched-on option is in the output |
| Gemini.CallWithBackoff | services/geminiService.ts:60-133 | a missing payload fails at once; otherwise the call returns the first parsed answer, normalised, after one retry per earlier failure, and the i-th retry waits delay i |
| Gemini.CreatePrompt | services/geminiService.ts:23-57 | the prompt is the custom instruction, trimmed and framed, when its switch is on and it is not blank; otherwise it is the mode's default prompt |
| Gemini.MetadataDefaultIgnoresSettings | services/geminiService.ts:46-56 | without a custom instruction, the metadata prompt is the same whatever the other settings |
| Gemini.DefaultDescriptionPromptInjective | services/geminiService.ts:38-45 | the default description prompt determines the requested word count and the three switches |
| CsvCodec.EscapeCsv | components/UploadPanel.tsx:167 | an escaped field starts and ends with a double quote |
| CsvCodec.ReadQuotedDoubled | components/UploadPanel.tsx:167 | reading a quoted field undoes the doubling of quotes and gives back the exact text |
| CsvCodec.ReadFieldEscaped | components/UploadPanel.tsx:167 | an escaped field reads back as its value, whatever characters it holds |
| CsvCodec.ReadCell | components/UploadPanel.tsx:167 | a quoted cell, or a plain header cell, reads back as its value |
| CsvCodec.ReadLine | components/UploadPanel.tsx:296 | a comma-joined line of cells reads back as one record of their values |
| CsvCodec.ReadLines | components/UploadPanel.tsx:296 | lines joined by line feeds read back as their records, in order |
| CsvCodec.ReadTable | components/UploadPanel.tsx:296 | a header line, a line feed and the rows read back as the header followed by the records |
| CsvExport.SiteOf | components/UploadPanel.tsx:199-294 | only the seven known site keys select their own layout; anything else gets the General layout |
| CsvExport.MetadataValues | components/UploadPanel.tsx:199-294 | every layout writes one value per header |
| CsvExport.LastDot | components/UploadPanel.tsx:172 | the position found is the last dot of the name, or there is no dot |
| CsvExport.RenameExtensionSpec | components/UploadPanel.tsx:168-178 | with a real extension, the name is cut at its last dot (kept whole without one) and gets a dot and the extension; "default" or none keeps the name |
| CsvExport.RenameExtensionIdempotent | components/UploadPanel.tsx:168-178 | renaming twice to the same extension gives the same name as once |
| CsvExport.OfMode | components/UploadPanel.tsx:181-199 | a record is exported exactly when it has the file's mode |
| CsvExport.OfModeAppend | components/UploadPanel.tsx:181-199 | the records of a concatenation are exported part after part, so the rows keep the results' order and the number of copies |
| CsvExport.OfModeOne | components/UploadPanel.tsx:181-199 | an empty list exports nothing, and one record is exported exactly when it has the mode |
| CsvExport.HeadersArePlain | components/UploadPanel.tsx:199-294 | every site's header line has cells that need no quoting |
| CsvExport.CsvContentReadsBack | components/UploadPanel.tsx:181-297 | the file text reads back as the header and one record per exported result, an undefined value reading as empty; prompt files number their rows from 1 |
| CsvExport.CsvContentBlank | components/UploadPanel.tsx:295-303 | the text is blank exactly when the mode is metadata and no record is in metadata mode |
| CsvExport.ExportToCsv | components/UploadPanel.tsx:161-316 | the panel warns when there are no results, warns when nothing of the mode is there, and otherwise downloads a file that reads back as the expected table, named after the site and the mode |
| CsvExport.HandleDownloadCsv | components/modals/CompletionModal.tsx:39-190 | the dialog does nothing exactly when there are no results or nothing of the mode is there |
| CsvExport.ExportersAgree | components/modals/CompletionModal.tsx:39-190 | the panel and the dialog download in the same cases, the same file under the same name |
| UploadPanel.MatchesFamilyIsJoin | components/UploadPanel.tsx:95 | a family match means the type is the family, a slash and one of the subtypes |
| UploadPanel.AcceptedTypes | components/UploadPanel.tsx:95 | the type pattern accepts exactly the eight advertised types |
| UploadPanel.HandleFiles | components/UploadPanel.tsx:89-116 | a drop appends its new entries after the staged ones |
| UploadPanel.NewEntriesFresh | components/UploadPanel.tsx:96-104 | every new entry belongs to an accepted, not yet staged dropped file, starts compressing with the placeholder image and no payload |
| UploadPanel.NewEntriesComplete | components/UploadPanel.tsx:95-104 | every accepted, not yet staged dropped file gets its entry |
| UploadPanel.RedropAddsNothing | components/UploadPanel.tsx:96 | dropping the same files again adds nothing |
| UploadPanel.UnsupportedSpec | components/UploadPanel.tsx:106-108 | every file of an unsupported type is named in a warning, and none when all are supported |
| UploadPanel.PrepareId | components/UploadPanel.tsx:122-142 | only the entry with the prepared id changes |
| UploadPanel.PrepareAllSpec | components/UploadPanel.tsx:122-142 | after preparation every new entry carries its own outcome and every other entry is unchanged |
| UploadPanel.PrepareOutcome | components/UploadPanel.tsx:133-137 | an entry becomes ready with its payload exactly when both preparation steps succeed, and is marked as failed otherwise |
| UploadPanel.GenerateEnabled | components/UploadPanel.tsx:81-82 | Generate is enabled exactly when no run is active and every one of at least one staged file is ready; then the run takes all of them |
| UploadPanel.EnabledStartIsNotRefused | components/UploadPanel.tsx:82 | with the button enabled and a first key, starting a run is never refused |
| UploadPanel.GallerySpec | components/UploadPanel.tsx:85-87 | the gallery shows at most 21 tiles including the overflow tile; the files shown come first and, with the overflow count, account for every staged file |
| UploadPanel.RemoveStagedFileSpec | components/UploadPanel.tsx:157-159 | removal drops exactly the entries with that id and keeps everything else in order |
| ApiKeys.SaveNewKey | components/modals/ApiKeyModal.tsx:28-42 | a blank input is refused, a key already saved is refused, and otherwise the trimmed key is appended |
| ApiKeys.SaveKeepsWellFormed | components/modals/ApiKeyModal.tsx:28-42 | saving never stores a blank key or a key twice |
| ApiKeys.SavedKeyIsTrimmed | components/modals/ApiKeyModal.tsx:37 | the stored key has no white space at either end |
| ApiKeys.SaveTwiceIsDuplicate | components/modals/ApiKeyModal.tsx:33-36 | saving the same input a second time is refused as a duplicate |
| ApiKeys.DeleteKeySpec | components/modals/ApiKeyModal.tsx:53-58 | deleting removes exactly the key at the index, keeps the others in order and keeps the list well formed |
| ApiKeys.OpenMasksAll | components/modals/ApiKeyModal.tsx:20-23 | when the dialog opens every key is masked |
| ApiKeys.ToggleKeyVisibility | components/modals/ApiKeyModal.tsx:60-62 | toggling flips the visibility of that position only |
| ApiKeys.ToggleTwice | components/modals/ApiKeyModal.tsx:60-62 | toggling twice restores every key's visibility |
| ApiKeys.DisplayKey | components/modals/ApiKeyModal.tsx:113 | a visible key is shown in full; a masked one as thirty bullets and the key's last six characters |
| ApiKeys.MaskedKeysShareDisplay | components/modals/ApiKeyModal.tsx:113 | masked keys with the same last six characters look the same |
| ApiKeys.HandleClose | components/modals/ApiKeyModal.tsx:44-51 | closing makes the dialog's choice the model and saves it exactly when it changed |
| ApiKeys.OnOpen | components/modals/ApiKeyModal.tsx:19-24 | opening the dialog starts the local choice from the application's model and masks every key |
| ApiKeys.ReopenSavesNothing | components/modals/ApiKeyModal.tsx:19-51 | after any close, reopening and closing right away saves nothing and keeps the committed model |
| ApiKeys.DeleteShown | components/modals/ApiKeyModal.tsx:53-58 | the delete as written keeps the visibility map keyed by the old positions |
| ApiKeys.DeleteRevealsNeighbour | components/modals/ApiKeyModal.tsx:53-113 | deleting a shown first key shows the next key in full although it was never revealed |
| ApiKeys.DeleteShownShiftedKeepsVisibility | components/modals/ApiKeyModal.tsx:53-113 | with the visibility map shifted along with the list, every remaining key is shown exactly when it was before |
| Color.HexRun | App.tsx:94 | the hex run is the longest prefix of hex digits |
| Color.ParseHexInt | App.tsx:94 | the parse fails exactly when no hex digit starts the text |
| Color.ToInt32 | App.tsx:95-101 | the 32-bit conversion is congruent to its input modulo 2^32 and in signed range |
| Color.Clamp | App.tsx:96-103 | each channel is clamped into 0..255 and kept when already there |
| Color.Combine | App.tsx:104 | the three channels combine into a number below 2^24 |
| Color.Hex6 | App.tsx:104 | the output digits are six lower-case hex digits |
| Color.HexDigitsRoundTrip | App.tsx:104 | the six digits written read back as the number |
| Color.ChannelsOfCombine | App.tsx:95-104 | splitting a combined colour gives back its three channels |
| Color.LightenDarkenColor | App.tsx:88-105 | the output keeps the leading "#" exactly when the input had one and has six lower-case hex digits |
| Color.LightenDarkenChannels | App.tsx:88-105 | each channel of the output is the input's channel shifted by the amount and clamped |
| Color.LightenDarkenZero | App.tsx:88-105 | shading a six-digit colour by 0 gives it back in lower case |
| Color.LightenDarkenNormalForm | App.tsx:88-105 | shading an output by 0 leaves it unchanged |
| ResultsPanel.OrElse | components/ResultsPanel.tsx:30-34 | a missing or empty text falls back, any other text is kept |
| ResultsPanel.CardTextOf | components/ResultsPanel.tsx:30-34 | a card never shows an empty description or category, and never an empty title in metadata mode, where a missing or empty title shows as "No title"; present fields are shown as they are |
| ResultsPanel.PromptTitle | components/ResultsPanel.tsx:33 | a prompt card shows a title only when it has one |
| ResultsPanel.WordCountSpec | components/ResultsPanel.tsx:79 | the word count is the number of places where a word starts, each word counted a non-empty run without white space |
| ResultsPanel.MissingDescriptionCount | components/ResultsPanel.tsx:30-79 | a card without a description counts two words |
| Text.JoinSplitsBack | components/ResultsPanel.tsx:32 | splitting a non-empty list joined with ", " at ", " gives back the list, when no part contains the separator |
| ResultsPanel.KeywordCountMatchesCopy | components/ResultsPanel.tsx:32-102 | the copied keyword text splits back into the card's keywords, so the keyword count shown equals the number of keywords in the copied text |
| ResultsPanel.Cards | components/ResultsPanel.tsx:142-144 | every card shows the result at the index it acts on |
| ResultsPanel.CardsNewestFirst | components/ResultsPanel.tsx:142-144 | the cards show the results in reverse order, newest first, each result exactly once |
| ResultsPanel.AppendedResultFirst | components/ResultsPanel.tsx:142-144 | a newly appended result appears on the first card, the others keep their order |
| ResultsPanel.DeleteResultSpec | components/ResultsPanel.tsx:131-133 | deleting removes only the result at the index; an index out of range changes nothing |
| ResultsPanel.DeleteFromCard | components/ResultsPanel.tsx:131-144 | a card's delete button removes that card and no other; the rest keep their order |
| Text.Trim | services/geminiService.ts:116 | trimming removes exactly the white space at both ends and is empty exactly for blank text |
| Text.DedupIsFirstOccurrences | services/geminiService.ts:122 | de-duplication keeps the first occurrence of each keyword, in order |
| Text.Words | components/ResultsPanel.tsx:79 | every word is a non-empty run without white space |
| Text.NatToString | components/UploadPanel.tsx:183-193 | the row number is written in decimal without leading zeros |
| Text.ParseNatToString | components/UploadPanel.tsx:183-193 | the decimal text of a row number reads back as that number |
| Lists.Take | services/geminiService.ts:122 | slicing to a count keeps the first elements, or all when there are fewer |
| Lists.FilterOutIndexRemovesAt | components/ResultsPanel.tsx:132 | filtering out an index removes exactly that element, and nothing when the index is out of range |

## Left out

- Browser effects are not modelled: `localStorage`, toasts, DOM and Blob downloads, the clipboard, timers and React rendering. The outcome datatypes name the toast or download each branch leads to.
- The network and the model's behaviour are parameters (`Env.outcome`, `Gemini.Attempt`). JSON parsing and the response schemas are left out because the model cannot see them.
- Generation.Env: any file may be `Rejected`. This over-approximates the source, where a file fails only when the call throws before its retry loop, which happens for a missing payload (services/geminiService.ts:68); every later error is retried without end. Every lemma quantifies over all outcomes, so each holds for the source's narrower set too.
- Generation.Publish: no contract of its own. It copies the run's lists, progress and activity flag into the component state; what it publishes is stated by GenerationRuns.CompletedRun, FinishedRun and PausedRun.
- Concurrency is not modelled. `Promise.all` over a batch is taken as resolving all its files; their answers are accounted in batch order, as the source does after awaiting.
- Interleaved user actions are not modelled. A run (Generation.PrimaryPass, Generation.RetryPass and Generation.Publish) and a regeneration (Generation.Regenerate) are modelled as if no other user action happens between their start and their end. The exception is Clear All, which the run observes. In the source, while a run is in flight, the user can still drop files, remove staged files, and delete or regenerate results (components/UploadPanel.tsx:341-352, components/ResultsPanel.tsx:43-51). A parked run also re-enables Generate (App.tsx:177). The source merges such actions through functional state updates, and the model's runs overwrite the lists with their own. A delete during a regeneration's await would make the source merge the answer into the record that moved into that index (App.tsx:331); the model's single results list cannot show that.
- The real clock is a parameter (`Env.clock`, `Clock.wake`). The countdown text while every key is rate-limited, the 2-second pause before the retry pass and the backoff sleeps are left out.
- The floating-point percentage of the progress display is left out. Progress keeps its status, current file and total.
- Pausing is modelled as the flag captured when the run starts. A pause pressed during a run does not reach the running loop in the source either, and the loop parks until Clear All.
- The thumbnail and payload preparation (services/fileProcessor.ts) is left out. Its result for each file is a parameter, `UploadPanel.Preparation`.
- File ids are natural numbers supplied by the caller, not random strings.
- UploadPanel.PrepareAllSpec: assumes the new entries carry distinct ids, which random ids make overwhelmingly likely but do not guarantee.
- White space and case are ASCII only. JavaScript's `trim`, `toLowerCase`, `toUpperCase` and `\s` also cover Unicode spaces and letters.
- Color.ColorNumber: `parseInt` is taken as exact. A JavaScript number loses precision above 2^53, which only matters for inputs far longer than a colour.
- Color.Combine: the bitwise OR of the three channels is written as their sum at the byte positions. The two agree because the channels are clamped into disjoint bytes.
- CSV records are joined with a line feed, as the source does. `CsvCodec.ReadCsv` is a reader for exactly the dialect the exporters write, not a general RFC 4180 parser.
- Text.JoinSplitsBack: requires parts free of ", ". A keyword that contains the separator splits into several pieces in the source too.
- ResultsPanel.KeywordCountMatchesCopy: requires at least one keyword and keywords free of ", ", for the same reason; splitting an empty text gives one empty piece, not none.
- Gemini.ToggleTextSplitsBack: requires options free of ", ". The four option texts meet it, which Gemini.OptionTextNoSeparator states.
- The ControlPanel, Header, Footer, Login and Tutorial components are not part of this model; nor are settings persistence and the theme colours.
- Generation.Step: its own contract states only that the limiter stays well formed. What a batch does is stated by GenerationFacts.StepWithoutClear, GenerationFacts.StepProgress, GenerationRuns.StepNext and the other GenerationRuns.Step lemmas.
- Generation.RunBatches: its own contract states only that the limiter stays well formed. The pass's effect is stated by GenerationFacts.PassMatchesReference and the GenerationRuns.RunBatches lemmas.
- Generation.PrimaryPass: its own contract states only the limiter's shape. Its accounting is GenerationRuns.PrimaryPassAccounting.
- Generation.RetryPass: its own contract states only the limiter's shape. Its accounting is GenerationRuns.RetryPassAccounting.
- UploadPanel.HandleFiles: its own contract states only that new entries are appended. Which entries they are is stated by UploadPanel.NewEntriesFresh, UploadPanel.NewEntriesComplete and UploadPanel.UnsupportedSpec.
- CsvExport.HandleDownloadCsv: its own contract states only when the dialog stays silent. CsvExport.ExportersAgree states that its download is the panel's.
- Gemini.Normalize: its own contract gives the title and keywords in terms of the helpers. What they mean is stated by Gemini.NormalizedTitle, Gemini.BaseTitleSentenceCase and Gemini.NormalizedKeywords.
- GenerationRuns.PrimaryPassAccounting: assumes the ready files carry distinct ids. The id of a dropped file is built from the clock and a random number (components/UploadPanel.tsx:97), so two files sharing one is practically impossible; if they did, the source's by-id updates would touch both entries at once.
- GenerationRuns.CompletedRun: assumes the ready files carry distinct ids, for the same reason as GenerationRuns.PrimaryPassAccounting.
- Gemini.CallWithBackoff: the loop runs over a finite list of attempts, so an endless string of failures is reported as still retrying rather than as non-termination.

## Findings

| source | as written | input that shows it | evidently intended | confidence | as-written member | corrected member |
|---|---|---|---|---|---|---|
| components/modals/ApiKeyModal.tsx:53-113 | deleting a key filters the list but keeps the visibility map keyed by list position, so every later key inherits the visibility of the key before it | keys ["key-one-AAAAAA", "key-two-BBBBBB"], key 0 revealed, delete key 0: "key-two-BBBBBB" is shown in full although it was never revealed | each remaining key keeps its own visibility | medium; not executed | ApiKeys.DeleteRevealsNeighbour | ApiKeys.DeleteShownShiftedKeepsVisibility |

=== FILE: api_keys.dfy ===
/** The API-key dialog (components/modals/ApiKeyModal.tsx): saving and
    deleting keys, showing or masking each key, and committing the model
    selection when the dialog closes. Persistence to `localStorage` and the
    toasts are left to the caller; the outcomes below say which toast the
    dialog shows. */
module ApiKeys {

  import opened Lists
  import opened Text

  // ---------------------------------------------------------------------
  // The key list

  /** A key list as the dialog keeps it: no key is blank and no key is
      listed twice. */
  predicate WellFormedKeys(keys: seq<string>) {
    && NoDup(keys)
    && forall i :: 0 <= i < |keys| ==> !AllWhite(keys[i])
  }

  /** What `handleSaveNewKey` does with the text in the input box. */
  datatype SaveOutcome =
    | EmptyKey                       // "Please enter an API key."
    | DuplicateKey                   // "API Key already exists."
    | Saved(keys: seq<string>)       // "API Key saved successfully."; the input is cleared

  /** `handleSaveNewKey`: the trimmed input is rejected when it is empty or
      already in the list, and otherwise appended at the end. */
  function SaveNewKey(keys: seq<string>, input: string): (r: SaveOutcome)
    ensures r.EmptyKey? <==> AllWhite(input)
    ensures r.DuplicateKey? <==> !AllWhite(input) && Trim(input) in keys
    ensures r.Saved? ==> |r.keys| == |keys| + 1 && r.keys[..|keys|] == keys
    ensures r.Saved? ==> r.keys[|keys|] == Trim(input) != ""
  {
    var key := Trim(input);
    if key == "" then EmptyKey
    else if key in keys then DuplicateKey
    else Saved(keys + [key])
  }

  /** Saving keeps the list well formed. */
  lemma SaveKeepsWellFormed(keys: seq<string>, input: string)
    requires WellFormedKeys(keys)
    requires SaveNewKey(keys, input).Saved?
    ensures WellFormedKeys(SaveNewKey(keys, input).keys)
  {
    var r := SaveNewKey(keys, input).keys;
    var key := Trim(input);
    assert r == keys + [key];
    forall i, j | 0 <= i < j < |r| ensures r[i] != r[j] {
      if j == |keys| {
        assert r[i] == keys[i];
      }
    }
    forall i | 0 <= i < |r| ensures !AllWhite(r[i]) {
      if i == |keys| {
        assert r[i] == key && |key| > 0 && !IsWhite(key[0]);
      }
    }
  }

  /** The saved key carries no white space at either end: saving it again
      would store the same text. */
  lemma SavedKeyIsTrimmed(keys: seq<string>, input: string)
    requires SaveNewKey(keys, input).Saved?
    ensures var key := SaveNewKey(keys, input).keys[|keys|];
            Trim(key) == key && !IsWhite(key[0]) && !IsWhite(key[|key| - 1])
  {
    TrimOfTrimmed(Trim(input));
  }

  /** Pressing Save twice with the same input: the second press finds the
      key already saved. */
  lemma SaveTwiceIsDuplicate(keys: seq<string>, input: string)
    requires SaveNewKey(keys, input).Saved?
    ensures SaveNewKey(SaveNewKey(keys, input).keys, input).DuplicateKey?
  {
    var r := SaveNewKey(keys, input).keys;
    assert r[|keys|] == Trim(input);
  }

  /** `handleDelete`: `apiKeys.filter((_, i) => i !== index)`. */
  function DeleteKey(keys: seq<string>, index: int): seq<string> {
    FilterOutIndex(keys, index)
  }

  /** Deleting removes exactly the key at `index`, the others keep their
      order, and the list stays well formed. */
  lemma DeleteKeySpec(keys: seq<string>, index: int)
    ensures 0 <= index < |keys| ==> DeleteKey(keys, index) == keys[..index] + keys[index + 1..]
    ensures !(0 <= index < |keys|) ==> DeleteKey(keys, index) == keys
    ensures WellFormedKeys(keys) ==> WellFormedKeys(DeleteKey(keys, index))
  {
    FilterOutIndexRemovesAt(keys, index);
    if WellFormedKeys(keys) && 0 <= index < |keys| {
      var r := DeleteKey(keys, index);
      forall i | 0 <= i < |r| ensures r[i] == keys[if i < index then i else i + 1] {
      }
    }
  }

  // ---------------------------------------------------------------------
  // Showing and masking keys

  /** `visibleKeys`: which list positions are shown in full. A position that
      was never toggled is absent and counts as hidden. */
  type Visibility = map<int, bool>

  predicate Visible(v: Visibility, i: int) {
    i in v && v[i]
  }

  /** The visibility map when the dialog opens: every key is masked. */
  const ALL_MASKED: Visibility := map[]

  lemma OpenMasksAll(i: int)
    ensures !Visible(ALL_MASKED, i)
  {
  }

  /** `toggleKeyVisibility`: `{ ...prev, [index]: !prev[index] }`. */
  function ToggleKeyVisibility(v: Visibility, index: int): (r: Visibility)
    ensures forall j :: Visible(r, j) <==> if j == index then !Visible(v, index) else Visible(v, j)
  {
    v[index := !Visible(v, index)]
  }

  /** Toggling the same key twice shows every key as before. */
  lemma ToggleTwice(v: Visibility, index: int, j: int)
    ensures Visible(ToggleKeyVisibility(ToggleKeyVisibility(v, index), index), j) == Visible(v, j)
  {
  }

  /** The bullet character of the masked display. */
  const BULLET: char := '\U{2022}'

  /** `n` copies of `c`. */
  function Repeat(c: char, n: nat): (r: string)
    ensures |r| == n && forall i :: 0 <= i < n ==> r[i] == c
  {
    if n == 0 then "" else [c] + Repeat(c, n - 1)
  }

  /** The thirty bullets in front of a masked key. */
  const BULLETS: string := Repeat(BULLET, 30)

  /** `key.slice(-6)`: the last six characters, or the whole key when it is
      shorter. */
  function LastSix(key: string): string {
    if |key| <= 6 then key else key[|key| - 6..]
  }

  /** The text shown for the key at a position: the key itself when it is
      visible, otherwise thirty bullets and the key's last six characters. */
  function DisplayKey(key: string, visible: bool): (r: string)
    ensures visible ==> r == key
    ensures !visible ==> |r| == 30 + (if |key| < 6 then |key| else 6)
    ensures !visible ==> forall i :: 0 <= i < 30 ==> r[i] == BULLET
    ensures !visible ==> key == key[..|key| - (|r| - 30)] + r[30..]
  {
    if visible then key else BULLETS + LastSix(key)
  }

  /** A masked key gives away at most six of its characters, and exactly the
      last ones: the shown tail determines nothing of the key before it. */
  lemma MaskedKeysShareDisplay(a: string, b: string)
    requires |a| >= 6 && |b| >= 6 && a[|a| - 6..] == b[|b| - 6..]
    ensures DisplayKey(a, false) == DisplayKey(b, false)
  {
  }

  // ---------------------------------------------------------------------
  // Closing the dialog

  /** The model selection after `handleClose`, and whether it was saved
      ("Model selection saved."). */
  datatype CloseOutcome = CloseOutcome(selectedModel: string, saved: bool)

  /** `handleClose`: the dialog's local choice becomes the application's
      model, and it is saved only when it differs from the current one. */
  function HandleClose(localModel: string, selectedModel: string): (r: CloseOutcome)
    ensures r.selectedModel == localModel
    ensures r.saved <==> localModel != selectedModel
  {
    if localModel != selectedModel then CloseOutcome(localModel, true)
    else CloseOutcome(selectedModel, false)
  }

  /** The dialog's own state: the model picked in it and which keys are shown. */
  datatype DialogState = DialogState(localModel: string, visible: Visibility)

  /** The effect run when the dialog opens: the local choice starts from the
      application's model and every key is masked. */
  function OnOpen(selectedModel: string): (d: DialogState)
    ensures d.localModel == selectedModel
    ensures forall i :: !Visible(d.visible, i)
  {
    DialogState(selectedModel, ALL_MASKED)
  }

  /** After any close, opening the dialog again and closing it right away
      saves nothing and keeps the model the first close committed. */
  lemma ReopenSavesNothing(localModel: string, selectedModel: string)
    ensures var m := HandleClose(localModel, selectedModel).selectedModel;
            var again := HandleClose(OnOpen(m).localModel, m);
            !again.saved && again.selectedModel == m
  {
  }

  // ---------------------------------------------------------------------
  // Deleting a key while keys are shown

  /** `handleDelete` as written: the key list loses the entry, but
      `visibleKeys` is left keyed by the old positions. */
  function DeleteShown(keys: seq<string>, v: Visibility, index: int): (r: (seq<string>, Visibility))
    ensures r.0 == DeleteKey(keys, index) && r.1 == v
  {
    (DeleteKey(keys, index), v)
  }

  /** Deleting the first of two keys while it is shown leaves the second key,
      which was never revealed, shown in full at position 0. */
  lemma DeleteRevealsNeighbour()
    ensures var keys := ["key-one-AAAAAA", "key-two-BBBBBB"];
            var r := DeleteShown(keys, map[0 := true], 0);
            && !Visible(map[0 := true], 1)
            && r.0 == [keys[1]]
            && DisplayKey(r.0[0], Visible(r.1, 0)) == keys[1]
  {
    var keys := ["key-one-AAAAAA", "key-two-BBBBBB"];
    FilterOutIndexRemovesAt(keys, 0);
    assert keys[1..] == [keys[1]];
  }

  /** The position a key held before the key at `index` was deleted, for a
      key now at position `j`. */
  function OldPosition(j: int, index: int): int {
    if j < index then j else j + 1
  }

  /** The visibility map with the entry at `index` removed and the entries
      after it moved up one place, as the key list moves. */
  function ShiftVisibility(v: Visibility, index: int, count: nat): (r: Visibility)
    ensures forall j :: 0 <= j < count ==>
              (Visible(r, j) <==> Visible(v, OldPosition(j, index)))
  {
    map j | 0 <= j < count :: Visible(v, OldPosition(j, index))
  }

  /** `handleDelete` with the visibility map kept in step with the list. */
  function DeleteShownShifted(keys: seq<string>, v: Visibility, index: int): (r: (seq<string>, Visibility))
  {
    if 0 <= index < |keys| then (DeleteKey(keys, index), ShiftVisibility(v, index, |keys| - 1))
    else (keys, v)
  }

  /** Every key left after the shifted delete is shown exactly when it was
      shown before the delete. */
  lemma DeleteShownShiftedKeepsVisibility(keys: seq<string>, v: Visibility, index: int)
    ensures var r := DeleteShownShifted(keys, v, index);
            && r.0 == DeleteKey(keys, index)
            && forall j :: 0 <= j < |r.0| ==>
                 exists k :: 0 <= k < |keys| && k != index && r.0[j] == keys[k]
                   && (Visible(r.1, j) <==> Visible(v, k))
  {
    var r := DeleteShownShifted(keys, v, index);
    FilterOutIndexRemovesAt(keys, index);
    forall j | 0 <= j < |r.0|
      ensures exists k :: 0 <= k < |keys| && k != index && r.0[j] == keys[k]
                && (Visible(r.1, j) <==> Visible(v, k))
    {
      if 0 <= index < |keys| {
        var k := OldPosition(j, index);
        assert r.0[j] == keys[k];
      } else {
        assert r.0[j] == keys[j];
      }
    }
  }
}

=== FILE: batching.dfy ===
/** How `runGenerationLoop` cuts its file list into batches (App.tsx:172-192). */
module Batching {

  import opened Types
  import opened Lists

  /** `settings.controls.batchSize || BATCH_SIZE`: a zero or missing setting
      falls back to the default. */
  function EffectiveBatchSize(setting: nat): (bs: nat)
    ensures bs >= 1
    ensures setting != 0 ==> bs == setting
  {
    if setting == 0 then BATCH_SIZE else setting
  }

  function Min(a: int, b: int): int {
    if a <= b then a else b
  }

  /** The slices `files.slice(i, i + bs)` for `i = 0, bs, 2·bs, …` while
      `i < files.length`, in loop order. */
  function Batches<T>(xs: seq<T>, bs: nat): (r: seq<seq<T>>)
    requires bs >= 1
    ensures forall k :: 0 <= k < |r| ==> 0 < |r[k]| <= bs && |r[k]| <= |xs|
    ensures forall k :: 0 <= k < |r| - 1 ==> |r[k]| == bs
    decreases |xs|
  {
    if |xs| == 0 then []
    else if |xs| <= bs then [xs]
    else [xs[..bs]] + Batches(xs[bs..], bs)
  }

  /** The batches partition the input: concatenated in order they give it back. */
  lemma {:induction false} BatchesFlatten<T>(xs: seq<T>, bs: nat)
    requires bs >= 1
    ensures Flatten(Batches(xs, bs)) == xs
    decreases |xs|
  {
    if |xs| > bs {
      BatchesFlatten(xs[bs..], bs);
      var r := Batches(xs, bs);
      assert r[0] == xs[..bs] && r[1..] == Batches(xs[bs..], bs);
      assert xs[..bs] + xs[bs..] == xs;
    } else if |xs| > 0 {
      assert Flatten(Batches(xs, bs)) == xs + Flatten([]);
    }
  }

  /** There are exactly ceil(|xs| / bs) batches. */
  lemma {:induction false} BatchesCount<T>(xs: seq<T>, bs: nat)
    requires bs >= 1
    ensures (|Batches(xs, bs)| - 1) * bs < |xs| <= |Batches(xs, bs)| * bs
    decreases |xs|
  {
    if |xs| > bs {
      var m := |Batches(xs[bs..], bs)|;
      BatchesCount(xs[bs..], bs);
      assert |Batches(xs, bs)| == m + 1;
      assert (m + 1) * bs == m * bs + bs;
    }
  }

  /** Batch `k` is the slice that the loop takes at `i = k·bs`. */
  lemma {:induction false} BatchesAreSlices<T>(xs: seq<T>, bs: nat, k: nat)
    requires bs >= 1 && k < |Batches(xs, bs)|
    ensures k * bs < |xs|
    ensures Batches(xs, bs)[k] == xs[k * bs..Min(k * bs + bs, |xs|)]
    decreases |xs|
  {
    if k > 0 {
      var rest := xs[bs..];
      assert |xs| > bs;
      assert Batches(xs, bs)[k] == Batches(rest, bs)[k - 1];
      BatchesAreSlices(rest, bs, k - 1);
      assert (k - 1) * bs + bs == k * bs;
      assert rest[(k - 1) * bs..Min((k - 1) * bs + bs, |rest|)] == xs[k * bs..Min(k * bs + bs, |xs|)];
    }
  }
}

=== FILE: color.dfy ===
/** `lightenDarkenColor` (App.tsx:88-105, the same function again in
    components/modals/ApiKeyModal.tsx:64-78): the hover shade of the theme
    colour. The colour text is read with `parseInt(col, 16)`, each 8-bit
    channel is moved by `amt` and clamped to [0, 255], and the result is
    written back as six lower-case hex digits. The JavaScript number
    operations it relies on are written out here: `parseInt` with radix
    16, the 32-bit signed conversion behind `>>` and `&`, and
    `toString(16)` with `padStart(6, '0')`. */
module Color {

  import opened Wrappers
  import opened Text

  // ---------------------------------------------------------------------
  // Hex digits

  predicate IsHexDigit(c: char) {
    '0' <= c <= '9' || 'a' <= c <= 'f' || 'A' <= c <= 'F'
  }

  predicate IsLowerHexDigit(c: char) {
    '0' <= c <= '9' || 'a' <= c <= 'f'
  }

  predicate AllLowerHex(s: string) {
    forall i :: 0 <= i < |s| ==> IsLowerHexDigit(s[i])
  }

  function DigitValue(c: char): (d: nat)
    requires IsHexDigit(c)
    ensures d < 16
  {
    if c <= '9' then c as int - '0' as int
    else if c <= 'F' then c as int - 'A' as int + 10
    else c as int - 'a' as int + 10
  }

  /** The lower-case digit of `toString(16)`. */
  function HexChar(d: nat): (c: char)
    requires d < 16
    ensures IsLowerHexDigit(c) && DigitValue(c) == d
  {
    if d < 10 then ('0' as int + d) as char else ('a' as int + d - 10) as char
  }

  /** The value of a run of hex digits, most significant first. */
  function HexValue(s: string): nat
    requires forall i :: 0 <= i < |s| ==> IsHexDigit(s[i])
    decreases |s|
  {
    if |s| == 0 then 0 else HexValue(s[..|s| - 1]) * 16 + DigitValue(s[|s| - 1])
  }

  // ---------------------------------------------------------------------
  // parseInt(s, 16)

  /** The number of hex digits at the start of `s`. */
  function HexRun(s: string): (n: nat)
    ensures n <= |s|
    ensures forall i :: 0 <= i < n ==> IsHexDigit(s[i])
    ensures n < |s| ==> !IsHexDigit(s[n])
    decreases |s|
  {
    if |s| == 0 || !IsHexDigit(s[0]) then 0 else 1 + HexRun(s[1..])
  }

  /** `s` without its leading white space and an optional `+` or `-`. */
  function AfterSign(s: string): string {
    var t := s[LeadingWhite(s)..];
    if |t| > 0 && (t[0] == '+' || t[0] == '-') then t[1..] else t
  }

  predicate IsNegative(s: string) {
    var t := s[LeadingWhite(s)..];
    |t| > 0 && t[0] == '-'
  }

  /** The text where the digits start: after the sign and a `0x` or `0X`
      prefix, which radix 16 allows. */
  function DigitsPart(s: string): string {
    var u := AfterSign(s);
    if |u| >= 2 && u[0] == '0' && (u[1] == 'x' || u[1] == 'X') then u[2..] else u
  }

  /** `parseInt(s, 16)`: the longest run of hex digits at the start of the
      digits part is the value, negated after a `-`. `None` stands for
      `NaN`, the answer when no digit is there. */
  function ParseHexInt(s: string): (r: Option<int>)
    ensures r.None? <==> HexRun(DigitsPart(s)) == 0
  {
    var w := DigitsPart(s);
    var n := HexRun(w);
    var v: int := HexValue(w[..n]);
    if n == 0 then None
    else Some(if IsNegative(s) then -v else v)
  }

  // ---------------------------------------------------------------------
  // The 32-bit operators

  const TWO_32: int := 0x1_0000_0000
  const TWO_31: int := 0x8000_0000

  /** ECMAScript ToInt32: the value modulo 2^32, read as a signed number.
      `NaN` becomes 0. */
  function ToInt32(x: int): (r: int)
    ensures -TWO_31 <= r < TWO_31 && (r - x) % TWO_32 == 0
  {
    var m := x % TWO_32;
    if m >= TWO_31 then m - TWO_32 else m
  }

  /** `x >> n`: the signed 32-bit value shifted right, rounding down. */
  function ShiftRight(x: int, n: nat): int {
    ToInt32(x) / Pow2(n)
  }

  /** `x & 0xFF`: the low eight bits of the 32-bit value. */
  function LowByte(x: int): (r: int)
    ensures 0 <= r < 256
  {
    ToInt32(x) % 256
  }

  /** `parseInt(col, 16)` as the operators see it: `NaN` acts as 0. */
  function ColorNumber(col: string): int {
    ParseHexInt(col).GetOr(0)
  }

  /** The three channels the function reads, named as the source names
      them: `r` is `num >> 16`, `b` is `(num >> 8) & 0xFF` and `g` is
      `num & 0xFF`. */
  datatype Channels = Channels(r: int, b: int, g: int)

  function ChannelsOf(num: int): Channels {
    Channels(ShiftRight(num, 16), LowByte(ShiftRight(num, 8)), LowByte(num))
  }

  function Clamp(x: int): (r: int)
    ensures 0 <= r <= 255
    ensures 0 <= x <= 255 ==> r == x
    ensures x > 255 ==> r == 255
    ensures x < 0 ==> r == 0
  {
    if x > 255 then 255 else if x < 0 then 0 else x
  }

  function Shifted(c: Channels, amt: int): Channels {
    Channels(Clamp(c.r + amt), Clamp(c.b + amt), Clamp(c.g + amt))
  }

  /** `g | (b << 8) | (r << 16)`: the three bytes occupy disjoint bits, so
      the bitwise or is their sum at the byte positions. */
  function Combine(c: Channels): (n: nat)
    requires 0 <= c.r <= 255 && 0 <= c.b <= 255 && 0 <= c.g <= 255
    ensures n < 0x100_0000
  {
    c.r * 0x1_0000 + c.b * 0x100 + c.g
  }

  // ---------------------------------------------------------------------
  // toString(16).padStart(6, '0')

  /** `n.toString(16)`: lower-case digits, no leading zeros, "0" for 0. */
  function ToHex(n: nat): (s: string)
    ensures |s| >= 1 && AllLowerHex(s)
    decreases n
  {
    if n < 16 then [HexChar(n)] else ToHex(n / 16) + [HexChar(n % 16)]
  }

  function Zeros(k: nat): (s: string)
    ensures |s| == k && forall i :: 0 <= i < k ==> s[i] == '0'
  {
    if k == 0 then "" else "0" + Zeros(k - 1)
  }

  /** `s.padStart(6, '0')`. */
  function PadStart6(s: string): (r: string)
    ensures |s| <= 6 ==> |r| == 6
    ensures |s| > 6 ==> r == s
  {
    if |s| >= 6 then s else Zeros(6 - |s|) + s
  }

  // ---------------------------------------------------------------------
  // lightenDarkenColor

  predicate HasPound(col: string) {
    |col| > 0 && col[0] == '#'
  }

  /** The text after the optional `#`. */
  function Body(col: string): string {
    if HasPound(col) then col[1..] else col
  }

  /** `n.toString(16).padStart(6, '0')` for a number below 2^24. */
  function Hex6(n: nat): (s: string)
    requires n < 0x100_0000
    ensures |s| == 6 && AllLowerHex(s)
  {
    Pow2Values();
    HexLength(n, 6);
    PadKeepsLowerHex(ToHex(n));
    PadStart6(ToHex(n))
  }

  function Prefix(col: string): string {
    if HasPound(col) then "#" else ""
  }

  /** The output keeps the `#` exactly when the input had one, followed by
      six lower-case hex digits. */
  function LightenDarkenColor(col: string, amt: int): (r: string)
    ensures HasPound(r) == HasPound(col)
    ensures |Body(r)| == 6 && AllLowerHex(Body(r))
  {
    var digits := Hex6(Combine(Shifted(ChannelsOf(ColorNumber(Body(col))), amt)));
    BodyAfterPrefix(col, digits);
    Prefix(col) + digits
  }

  lemma BodyAfterPrefix(col: string, digits: string)
    requires |digits| == 6 && AllLowerHex(digits)
    ensures HasPound(Prefix(col) + digits) == HasPound(col)
    ensures Body(Prefix(col) + digits) == digits
  {
    if HasPound(col) {
      assert (Prefix(col) + digits)[1..] == digits;
    } else {
      assert (Prefix(col) + digits)[0] == digits[0];
    }
  }

  lemma Pow2Values()
    ensures Pow2(8) == 0x100 && Pow2(16) == 0x1_0000 && Pow2(24) == 0x100_0000
  {
    assert Pow2(8) == 0x100;
    Pow2Add(8, 8);
    Pow2Add(16, 8);
  }

  lemma {:induction false} HexLength(n: nat, k: nat)
    requires n < Pow2(4 * k) && k >= 1
    ensures |ToHex(n)| <= k
    decreases n
  {
    if n >= 16 {
      assert Pow2(4 * k) == 16 * Pow2(4 * (k - 1)) by {
        Pow2Add(4, 4 * (k - 1));
      }
      HexLength(n / 16, k - 1);
    }
  }

  lemma {:induction false} Pow2Add(a: nat, b: nat)
    ensures Pow2(a + b) == Pow2(a) * Pow2(b)
    decreases a
  {
    if a > 0 {
      Pow2Add(a - 1, b);
    }
  }

  lemma PadKeepsLowerHex(s: string)
    requires AllLowerHex(s)
    ensures AllLowerHex(PadStart6(s))
  {
  }

  // ---------------------------------------------------------------------
  // Reading the result back

  lemma {:induction false} HexValueToHex(n: nat)
    ensures HexValue(ToHex(n)) == n
    decreases n
  {
    if n >= 16 {
      HexValueToHex(n / 16);
      var s := ToHex(n);
      assert s[..|s| - 1] == ToHex(n / 16);
    }
  }

  lemma {:induction false} HexValueZerosPrefix(k: nat, s: string)
    requires forall i :: 0 <= i < |s| ==> IsHexDigit(s[i])
    ensures HexValue(Zeros(k) + s) == HexValue(s)
    decreases |s|
  {
    var z := Zeros(k) + s;
    if |s| == 0 {
      assert z == Zeros(k);
      ZerosValue(k);
    } else {
      assert z[..|z| - 1] == Zeros(k) + s[..|s| - 1];
      HexValueZerosPrefix(k, s[..|s| - 1]);
    }
  }

  lemma {:induction false} ZerosValue(k: nat)
    ensures HexValue(Zeros(k)) == 0
    decreases k
  {
    if k > 0 {
      assert Zeros(k)[..k - 1] == Zeros(k - 1);
      ZerosValue(k - 1);
    }
  }

  /** The digits written for `n` read back as `n`. */
  lemma HexDigitsRoundTrip(n: nat)
    requires n < 0x100_0000
    ensures HexValue(Hex6(n)) == n
  {
    HexValueToHex(n);
    Pow2Values();
    HexLength(n, 6);
    if |ToHex(n)| < 6 {
      HexValueZerosPrefix(6 - |ToHex(n)|, ToHex(n));
    }
  }

  /** Two lower-case digit strings of one length and one value are equal. */
  lemma {:induction false} HexValueInjective(a: string, b: string)
    requires |a| == |b| && AllLowerHex(a) && AllLowerHex(b)
    requires HexValue(a) == HexValue(b)
    ensures a == b
    decreases |a|
  {
    if |a| > 0 {
      var n := |a| - 1;
      var x := HexValue(a[..n]);
      var y := HexValue(b[..n]);
      DivMod16(x, DigitValue(a[n]));
      DivMod16(y, DigitValue(b[n]));
      LowerDigitInjective(a[n], b[n]);
      HexValueInjective(a[..n], b[..n]);
      assert a == a[..n] + [a[n]] && b == b[..n] + [b[n]];
    }
  }

  lemma DivMod16(q: int, d: int)
    requires 0 <= d < 16
    ensures (q * 16 + d) / 16 == q && (q * 16 + d) % 16 == d
  {
  }

  lemma LowerDigitInjective(c: char, e: char)
    requires IsLowerHexDigit(c) && IsLowerHexDigit(e) && DigitValue(c) == DigitValue(e)
    ensures c == e
  {
  }

  lemma DivMod256(q: int, d: int)
    requires 0 <= d < 256
    ensures (q * 256 + d) / 256 == q && (q * 256 + d) % 256 == d
  {
  }

  lemma DivMod65536(q: int, d: int)
    requires 0 <= d < 0x1_0000
    ensures (q * 0x1_0000 + d) / 0x1_0000 == q
  {
  }

  /** The byte arithmetic on a number below 2^24 recovers its three bytes. */
  lemma ChannelsOfCombine(c: Channels)
    requires 0 <= c.r <= 255 && 0 <= c.b <= 255 && 0 <= c.g <= 255
    ensures ChannelsOf(Combine(c)) == c
  {
    var n := Combine(c);
    var high := c.r * 0x100 + c.b;
    Pow2Values();
    ToInt32Small(n);
    ToInt32Small(high);
    assert ShiftRight(n, 16) == c.r by {
      assert n == c.r * 0x1_0000 + (c.b * 0x100 + c.g);
      DivMod65536(c.r, c.b * 0x100 + c.g);
    }
    assert ShiftRight(n, 8) == high && LowByte(n) == c.g by {
      assert n == high * 256 + c.g;
      DivMod256(high, c.g);
    }
    assert LowByte(high) == c.b by {
      DivMod256(c.r, c.b);
    }
  }

  lemma ToInt32Small(x: int)
    requires 0 <= x < TWO_31
    ensures ToInt32(x) == x
  {
  }

  /** The partner property: reading the result with the same byte
      arithmetic gives every input channel moved by `amt` and clamped. */
  lemma LightenDarkenChannels(col: string, amt: int)
    ensures var r := LightenDarkenColor(col, amt);
            ChannelsOf(ColorNumber(Body(r))) == Shifted(ChannelsOf(ColorNumber(Body(col))), amt)
  {
    var c := Shifted(ChannelsOf(ColorNumber(Body(col))), amt);
    var r := LightenDarkenColor(col, amt);
    var digits := Hex6(Combine(c));
    BodyAfterPrefix(col, digits);
    HexDigitsRoundTrip(Combine(c));
    ParseSixDigits(digits);
    ChannelsOfCombine(c);
  }

  /** Six hex digits parse as their value. */
  lemma ParseSixDigits(d: string)
    requires |d| == 6 && forall i :: 0 <= i < 6 ==> IsHexDigit(d[i])
    ensures ColorNumber(d) == HexValue(d)
  {
    assert LeadingWhite(d) == 0 by {
      assert !IsWhite(d[0]);
    }
    assert d[0..] == d;
    assert !(d[0] == '+' || d[0] == '-');
    assert !(d[1] == 'x' || d[1] == 'X');
    HexRunAll(d);
    assert d[..6] == d;
  }

  lemma {:induction false} HexRunAll(s: string)
    requires forall i :: 0 <= i < |s| ==> IsHexDigit(s[i])
    ensures HexRun(s) == |s|
    decreases |s|
  {
    if |s| > 0 {
      HexRunAll(s[1..]);
    }
  }

  /** A number below 2^24 is its own shade by 0: its channels are in range
      already, so nothing is clamped and recombining gives it back. */
  lemma ShadeZeroOfSmall(n: int)
    requires 0 <= n < 0x100_0000
    ensures Combine(Shifted(ChannelsOf(n), 0)) == n
  {
    var parts := Channels(n / 0x1_0000, (n / 0x100) % 0x100, n % 0x100);
    assert Combine(parts) == n;
    ChannelsOfCombine(parts);
  }

  /** With `amt` 0 a colour of six hex digits comes back unchanged, apart
      from upper-case digits turning lower-case. */
  lemma LightenDarkenZero(col: string)
    requires |Body(col)| == 6 && forall i :: 0 <= i < 6 ==> IsHexDigit(Body(col)[i])
    ensures LightenDarkenColor(col, 0) == Prefix(col) + Lower(Body(col))
  {
    var d := Body(col);
    ParseSixDigits(d);
    var n := HexValue(d);
    assert n < 0x100_0000 by {
      HexValueBound(d);
      Pow2Values();
    }
    ShadeZeroOfSmall(n);
    HexDigitsRoundTrip(n);
    LowerKeepsValue(d);
    LowerIsLowerHex(d);
    HexValueInjective(Hex6(n), Lower(d));
    BodyAfterPrefix(col, Hex6(n));
  }

  lemma {:induction false} HexValueBound(s: string)
    requires forall i :: 0 <= i < |s| ==> IsHexDigit(s[i])
    ensures HexValue(s) < Pow2(4 * |s|)
    decreases |s|
  {
    if |s| > 0 {
      HexValueBound(s[..|s| - 1]);
      Pow2Add(4, 4 * (|s| - 1));
    }
  }

  lemma {:induction false} LowerKeepsValue(s: string)
    requires forall i :: 0 <= i < |s| ==> IsHexDigit(s[i])
    ensures forall i :: 0 <= i < |s| ==> IsHexDigit(Lower(s)[i])
    ensures HexValue(Lower(s)) == HexValue(s)
    decreases |s|
  {
    if |s| > 0 {
      var n := |s| - 1;
      assert Lower(s)[..n] == Lower(s[..n]);
      LowerKeepsValue(s[..n]);
    }
  }

  lemma LowerIsLowerHex(s: string)
    requires forall i :: 0 <= i < |s| ==> IsHexDigit(s[i])
    ensures AllLowerHex(Lower(s))
  {
  }

  /** The result is its own normal form: shading it by 0 changes nothing. */
  lemma LightenDarkenNormalForm(col: string, amt: int)
    ensures var r := LightenDarkenColor(col, amt);
            LightenDarkenColor(r, 0) == r
  {
    var r := LightenDarkenColor(col, amt);
    LightenDarkenZero(r);
    LowerOfLowerHex(Body(r));
    if HasPound(r) {
      assert r == "#" + Body(r);
    } else {
      assert r == Body(r);
    }
  }

  lemma LowerOfLowerHex(s: string)
    requires AllLowerHex(s)
    ensures Lower(s) == s
  {
    LowerOfNoUpper(s);
  }
}

=== FILE: csv_codec.dfy ===
/** The quoting of one CSV field done by both exporters
    (components/UploadPanel.tsx:167, components/modals/CompletionModal.tsx:42),
    and a reader for the text they write. The reader follows section 2 of
    RFC 4180 (rules 5-7: optional quotes, fields holding commas or line
    breaks quoted, an inner quote written twice), except that records are
    ended by a line feed alone, as the exporters write them. It is the
    partner the exporters are checked against: reading what they write
    gives back the header and every field value. */
module CsvCodec {

  import opened Wrappers
  import opened Text

  /** Every `"` written twice: `.replace(/"/g, '""')`. */
  function DoubleQuotes(s: string): (r: string)
    ensures |r| >= |s|
    decreases |s|
  {
    if |s| == 0 then ""
    else (if s[0] == '"' then "\"\"" else [s[0]]) + DoubleQuotes(s[1..])
  }

  /** `escapeCsv`: the text between double quotes, inner quotes doubled. */
  function EscapeCsv(s: string): (r: string)
    ensures |r| >= |s| + 2 && r[0] == '"' && r[|r| - 1] == '"'
  {
    "\"" + DoubleQuotes(s) + "\""
  }

  /** `escapeCsv(v)` for a value that may be undefined: `String(v ?? '')`. */
  function EscapeField(v: Option<string>): string {
    EscapeCsv(v.GetOr(""))
  }

  /** The separators that end an unquoted field. */
  predicate EndsField(c: char) { c == ',' || c == '\n' }

  // ---------------------------------------------------------------------
  // Reading

  /** The rest of a quoted field after its opening quote: `""` stands for
      one quote and a lone quote closes the field. Gives the field's text
      and what follows the closing quote; `None` when no quote closes it. */
  function ReadQuoted(s: string): (r: Option<(string, string)>)
    ensures r.Some? ==> |r.value.1| < |s|
    decreases |s|
  {
    if |s| == 0 then None
    else if s[0] == '"' && |s| > 1 && s[1] == '"' then
      match ReadQuoted(s[2..])
      case Some((f, rest)) => Some(("\"" + f, rest))
      case None => None
    else if s[0] == '"' then Some(("", s[1..]))
    else
      match ReadQuoted(s[1..])
      case Some((f, rest)) => Some(([s[0]] + f, rest))
      case None => None
  }

  /** An unquoted field: everything up to the next comma or line feed. */
  function ReadPlain(s: string): (r: (string, string))
    ensures r.0 + r.1 == s
    ensures |r.1| > 0 ==> EndsField(r.1[0])
    decreases |s|
  {
    if |s| == 0 || EndsField(s[0]) then ("", s)
    else
      var (f, rest) := ReadPlain(s[1..]);
      ([s[0]] + f, rest)
  }

  function ReadField(s: string): (r: Option<(string, string)>)
    ensures r.Some? ==> |r.value.1| <= |s|
  {
    if |s| > 0 && s[0] == '"' then ReadQuoted(s[1..]) else Some(ReadPlain(s))
  }

  /** One record: fields separated by commas, ended by a line feed (which
      is consumed) or by the end of the text. */
  function ReadRecord(s: string): (r: Option<(seq<string>, string)>)
    ensures r.Some? ==> |r.value.1| < |s| || r.value.1 == ""
    decreases |s|
  {
    match ReadField(s)
    case None => None
    case Some((f, rest)) =>
      if |rest| == 0 then Some(([f], ""))
      else if rest[0] == ',' then
        match ReadRecord(rest[1..])
        case Some((fs, after)) => Some(([f] + fs, after))
        case None => None
      else if rest[0] == '\n' then Some(([f], rest[1..]))
      else None
  }

  /** A whole CSV text: records until the text is used up. */
  function ReadCsv(s: string): Option<seq<seq<string>>>
    decreases |s|
  {
    if |s| == 0 then Some([])
    else
      match ReadRecord(s)
      case None => None
      case Some((rec, rest)) =>
        match ReadCsv(rest)
        case Some(recs) => Some([rec] + recs)
        case None => None
  }

  // ---------------------------------------------------------------------
  // Writing, and reading back what was written

  /** A header cell, written without quotes: non-empty and free of quotes,
      commas and line feeds. */
  predicate IsPlainCell(s: string) {
    |s| > 0 && forall i :: 0 <= i < |s| ==> s[i] != '"' && !EndsField(s[i])
  }

  /** The cells of a line spell out `values`: each cell is the quoted value,
      or the value itself when it is a plain cell. */
  predicate Encodes(cells: seq<string>, values: seq<string>) {
    && |cells| == |values|
    && forall i :: 0 <= i < |cells| ==>
         cells[i] == EscapeCsv(values[i]) || (cells[i] == values[i] && IsPlainCell(values[i]))
  }

  /** A line of cells joined by commas. */
  function Line(cells: seq<string>): string {
    Join(cells, ",")
  }

  /** One character of the doubled text, in front of a quoted rest that
      reads as `f` then `rest`, is read back as that character. */
  lemma ReadQuotedCons(c: char, tail: string, f: string, rest: string)
    requires ReadQuoted(tail) == Some((f, rest))
    ensures ReadQuoted((if c == '"' then "\"\"" else [c]) + tail) == Some(([c] + f, rest))
  {
    var s := (if c == '"' then "\"\"" else [c]) + tail;
    if c == '"' {
      assert s[0] == '"' && s[1] == '"' && s[2..] == tail;
    } else {
      assert s[0] == c && s[1..] == tail;
    }
  }

  lemma DoubledCons(x: string, t: string)
    requires |x| > 0
    ensures DoubleQuotes(x) + "\"" + t
            == (if x[0] == '"' then "\"\"" else [x[0]]) + (DoubleQuotes(x[1..]) + "\"" + t)
  {
  }

  lemma ClosingQuote(t: string)
    requires |t| == 0 || t[0] != '"'
    ensures ReadQuoted(DoubleQuotes("") + "\"" + t) == Some(("", t))
  {
    assert DoubleQuotes("") + "\"" + t == "\"" + t;
    assert ("\"" + t)[1..] == t;
  }

  /** `escapeCsv` loses nothing: the field's text comes back, followed by
      whatever came after the closing quote (rule 7). */
  lemma {:induction false} ReadQuotedDoubled(x: string, t: string)
    requires |t| == 0 || t[0] != '"'
    ensures ReadQuoted(DoubleQuotes(x) + "\"" + t) == Some((x, t))
    decreases |x|
  {
    if |x| == 0 {
      ClosingQuote(t);
    } else {
      ReadQuotedDoubled(x[1..], t);
      DoubledCons(x, t);
      ReadQuotedCons(x[0], DoubleQuotes(x[1..]) + "\"" + t, x[1..], t);
      assert [x[0]] + x[1..] == x;
    }
  }

  lemma ReadFieldEscaped(x: string, t: string)
    requires |t| == 0 || t[0] != '"'
    ensures ReadField(EscapeCsv(x) + t) == Some((x, t))
  {
    ReadQuotedDoubled(x, t);
    assert (EscapeCsv(x) + t)[1..] == DoubleQuotes(x) + "\"" + t;
  }

  lemma {:induction false} ReadPlainCell(x: string, t: string)
    requires forall i :: 0 <= i < |x| ==> !EndsField(x[i])
    requires |t| == 0 || EndsField(t[0])
    ensures ReadPlain(x + t) == (x, t)
    decreases |x|
  {
    if |x| == 0 {
      assert x + t == t;
    } else {
      ReadPlainCell(x[1..], t);
      assert (x + t)[0] == x[0] && (x + t)[1..] == x[1..] + t;
      assert [x[0]] + x[1..] == x;
    }
  }

  /** Either kind of cell reads back as its value when a separator or the
      end of the text follows it. */
  lemma ReadCell(cell: string, value: string, t: string)
    requires cell == EscapeCsv(value) || (cell == value && IsPlainCell(value))
    requires |t| == 0 || EndsField(t[0])
    ensures ReadField(cell + t) == Some((value, t))
  {
    if cell == EscapeCsv(value) {
      ReadFieldEscaped(value, t);
    } else {
      ReadPlainCell(value, t);
    }
  }

  lemma EncodesTail(cells: seq<string>, values: seq<string>)
    requires |cells| > 0 && Encodes(cells, values)
    ensures Encodes(cells[1..], values[1..])
  {
    forall i | 0 <= i < |cells| - 1
      ensures cells[1..][i] == EscapeCsv(values[1..][i])
              || (cells[1..][i] == values[1..][i] && IsPlainCell(values[1..][i]))
    {
      assert cells[1..][i] == cells[i + 1] && values[1..][i] == values[i + 1];
    }
  }

  /** A line of cells followed by a line feed or the end of the text reads
      back as one record holding the values. */
  lemma {:induction false} ReadLine(cells: seq<string>, values: seq<string>, t: string)
    requires |cells| > 0 && Encodes(cells, values)
    requires |t| == 0 || t[0] == '\n'
    ensures ReadRecord(Line(cells) + t) == Some((values, if |t| == 0 then "" else t[1..]))
    decreases |cells|
  {
    if |cells| == 1 {
      ReadCell(cells[0], values[0], t);
      assert [values[0]] == values;
    } else {
      var more := Line(cells[1..]) + t;
      assert Line(cells) + t == cells[0] + ("," + more);
      ReadCell(cells[0], values[0], "," + more);
      assert ("," + more)[1..] == more;
      EncodesTail(cells, values);
      ReadLine(cells[1..], values[1..], t);
      assert [values[0]] + values[1..] == values;
    }
  }

  /** Lines joined by line feeds read back as their records, in order. */
  lemma {:induction false} ReadLines(rows: seq<seq<string>>, records: seq<seq<string>>)
    requires |rows| == |records|
    requires forall i :: 0 <= i < |rows| ==> |rows[i]| > 0 && Encodes(rows[i], records[i])
    ensures ReadCsv(Join(Lines(rows), "\n")) == Some(records)
    decreases |rows|
  {
    if |rows| == 1 {
      ReadLine(rows[0], records[0], "");
      assert Line(rows[0]) + "" == Line(rows[0]);
      assert ReadCsv("") == Some([]);
      assert [records[0]] + [] == records;
    } else if |rows| > 1 {
      var more := Join(Lines(rows[1..]), "\n");
      assert Lines(rows)[1..] == Lines(rows[1..]);
      assert Join(Lines(rows), "\n") == Line(rows[0]) + ("\n" + more);
      ReadLine(rows[0], records[0], "\n" + more);
      assert ("\n" + more)[1..] == more;
      ReadLines(rows[1..], records[1..]);
      assert [records[0]] + records[1..] == records;
    }
  }

  /** The text of several lines of cells. */
  function Lines(rows: seq<seq<string>>): (r: seq<string>)
    ensures |r| == |rows| && forall i :: 0 <= i < |rows| ==> r[i] == Line(rows[i])
  {
    seq(|rows|, i requires 0 <= i < |rows| => Line(rows[i]))
  }

  /** A header line, a line feed and the joined row lines: the shape of
      every export. It reads back as the header record followed by the
      row records, also when there are no rows. */
  lemma ReadTable(header: seq<string>, headerValues: seq<string>, rows: seq<seq<string>>, records: seq<seq<string>>)
    requires |header| > 0 && Encodes(header, headerValues)
    requires |rows| == |records|
    requires forall i :: 0 <= i < |rows| ==> |rows[i]| > 0 && Encodes(rows[i], records[i])
    ensures ReadCsv(Line(header) + "\n" + Join(Lines(rows), "\n")) == Some([headerValues] + records)
  {
    var body := Join(Lines(rows), "\n");
    assert Line(header) + "\n" + body == Line(header) + ("\n" + body);
    ReadLine(header, headerValues, "\n" + body);
    assert ("\n" + body)[1..] == body;
    if |rows| == 0 {
      assert ReadCsv(body) == Some([]);
    } else {
      ReadLines(rows, records);
    }
  }
}

=== FILE: csv_export.dfy ===
/** The CSV export of the results, written twice in the source: the
    upload panel's `exportToCsv` (components/UploadPanel.tsx:161-316) and
    the completion dialog's `handleDownloadCsv`
    (components/modals/CompletionModal.tsx:39-190). Both build the same
    text; they differ only in what happens when there is nothing to write.
    One builder stands for both and the two call sites are thin wrappers. */
module CsvExport {

  import opened Wrappers
  import opened Lists
  import opened Text
  import opened Types
  import opened CsvCodec

  // ---------------------------------------------------------------------
  // Marketplaces and their column layouts

  /** The marketplaces the exporter knows (components/UploadPanel.tsx:23-32). */
  datatype Site = General | AdobeStock | Shutterstock | Freepik | Getty | IStock | Dreamstime | Vecteezy

  /** The `switch (selectedStockSite)`: an unknown key falls back to the
      General layout. */
  function SiteOf(key: string): (s: Site)
    ensures s != General ==> key in ["adobe-stock", "shutterstock", "freepik", "getty", "istock", "dreamstime", "vecteezy"]
  {
    if key == "adobe-stock" then AdobeStock
    else if key == "shutterstock" then Shutterstock
    else if key == "freepik" then Freepik
    else if key == "getty" then Getty
    else if key == "istock" then IStock
    else if key == "dreamstime" then Dreamstime
    else if key == "vecteezy" then Vecteezy
    else General
  }

  /** The header row of a marketplace's metadata file. */
  function Headers(site: Site): seq<string> {
    match site
    case AdobeStock => ["Filename", "Title", "Keywords", "Category"]
    case Shutterstock => ["Filename", "Description", "Keywords", "Categorie"]
    case Freepik => ["File name", "Title", "Keywords", "Prompt", "Category"]
    case Getty => ["Filename", "Title", "Description", "Keywords", "Category"]
    case IStock => ["filename", "title", "keywords", "category", "release"]
    case Dreamstime =>
      ["filename", "title", "keywords", "category", "exclusive", "editorial",
       "model_releases", "property_releases", "image_id", "mr_ids"]
    case Vecteezy => ["Filename", "Title", "Description", "Keywords"]
    case General => ["Filename", "Title", "Description", "Keywords", "Category"]
  }

  /** The header row of a prompt file. */
  const PROMPT_HEADERS: seq<string> := ["serial number", "Description"]

  /** `r.keywords?.join(', ')`, or for Shutterstock
      `r.keywords?.slice(0, 50).join(',')`. */
  function KeywordField(site: Site, kws: Option<seq<string>>): Option<string> {
    match kws
    case None => None
    case Some(k) => Some(if site == Shutterstock then Join(Take(k, 50), ",") else Join(k, ", "))
  }

  /** The values of one metadata row, before quoting; `None` stands for an
      undefined field. Shutterstock's Description column holds the title. */
  function MetadataValues(site: Site, r: GeneratedMetadata, ext: string): (v: seq<Option<string>>)
    ensures |v| == |Headers(site)|
  {
    var name := Some(RenameExtension(r.filename, ext));
    var kws := KeywordField(site, r.keywords);
    match site
    case AdobeStock => [name, r.title, kws, r.category]
    case Shutterstock => [name, r.title, kws, r.category]
    case Freepik => [name, r.title, kws, Some(""), r.category]
    case Getty => [name, r.title, r.description, kws, r.category]
    case IStock => [name, r.title, kws, r.category, Some("")]
    case Dreamstime => [name, r.title, kws, r.category, Some(""), Some(""), Some(""), Some(""), Some(""), Some("")]
    case Vecteezy => [name, r.title, r.description, kws]
    case General => [name, r.title, r.description, kws, r.category]
  }

  /** The values of the `index`-th prompt row: its serial number, counted
      from 1, and the description. */
  function PromptValues(index: nat, r: GeneratedMetadata): seq<Option<string>> {
    [Some(NatToString(index + 1)), r.description]
  }

  // ---------------------------------------------------------------------
  // File names (`getFilenameWithNewExtension`)

  /** `lastIndexOf('.')`. */
  function LastDot(s: string): (r: Option<nat>)
    ensures r.Some? ==> r.value < |s| && s[r.value] == '.' && forall j :: r.value < j < |s| ==> s[j] != '.'
    ensures r.None? ==> forall j :: 0 <= j < |s| ==> s[j] != '.'
    decreases |s|
  {
    if |s| == 0 then None
    else if s[|s| - 1] == '.' then Some(|s| - 1)
    else LastDot(s[..|s| - 1])
  }

  /** `getFilenameWithNewExtension`: with the setting "default" or empty the
      name is kept; otherwise the text after the last dot is replaced by the
      extension, or the extension is added when there is no dot. */
  function RenameExtension(name: string, ext: string): string {
    if ext == "default" || ext == "" then name
    else
      match LastDot(name)
      case None => name + "." + ext
      case Some(i) => name[..i] + "." + ext
  }

  /** The renamed file is the name up to its last dot (all of it when it has
      none), a dot and the extension. */
  lemma RenameExtensionSpec(name: string, ext: string)
    ensures ext == "default" || ext == "" ==> RenameExtension(name, ext) == name
    ensures ext != "default" && ext != "" ==>
              exists stem :: && RenameExtension(name, ext) == stem + "." + ext
                             && stem <= name
                             && (|stem| == |name| || (name[|stem|] == '.' && forall j :: |stem| < j < |name| ==> name[j] != '.'))
                             && (|stem| == |name| ==> forall j :: 0 <= j < |name| ==> name[j] != '.')
  {
    if ext != "default" && ext != "" {
      match LastDot(name)
      case None =>
        assert RenameExtension(name, ext) == name + "." + ext;
      case Some(i) =>
        assert RenameExtension(name, ext) == name[..i] + "." + ext;
        assert name[..i] <= name;
    }
  }

  /** Text without a dot added at the end does not move the last dot. */
  lemma {:induction false} LastDotSkipsSuffix(s: string, t: string)
    requires forall j :: 0 <= j < |t| ==> t[j] != '.'
    ensures LastDot(s + t) == LastDot(s)
    decreases |t|
  {
    if |t| == 0 {
      assert s + t == s;
    } else {
      var u := t[..|t| - 1];
      assert (s + t)[|s + t| - 1] == t[|t| - 1];
      assert (s + t)[..|s + t| - 1] == s + u;
      LastDotSkipsSuffix(s, u);
    }
  }

  /** The last dot of `stem + "." + ext`, for an extension without a dot,
      is the one after the stem. */
  lemma LastDotBeforeExtension(stem: string, ext: string)
    requires forall j :: 0 <= j < |ext| ==> ext[j] != '.'
    ensures LastDot(stem + "." + ext) == Some(|stem|)
  {
    LastDotSkipsSuffix(stem + ".", ext);
  }

  /** Renaming twice with an extension that has no dot in it is the same as
      renaming once. */
  lemma RenameExtensionIdempotent(name: string, ext: string)
    requires forall j :: 0 <= j < |ext| ==> ext[j] != '.'
    ensures RenameExtension(RenameExtension(name, ext), ext) == RenameExtension(name, ext)
  {
    if ext != "default" && ext != "" {
      var stem := match LastDot(name) case None => name case Some(i) => name[..i];
      assert RenameExtension(name, ext) == stem + "." + ext;
      LastDotBeforeExtension(stem, ext);
      assert (stem + "." + ext)[..|stem|] == stem;
    }
  }

  // ---------------------------------------------------------------------
  // The file

  /** `records.filter(item => item.mode === mode)`. */
  function OfMode(records: seq<GeneratedMetadata>, mode: Tab): (r: seq<GeneratedMetadata>)
    ensures |r| <= |records|
    ensures forall k :: 0 <= k < |r| ==> r[k].mode == mode
    ensures forall x :: x in r <==> x in records && x.mode == mode
    decreases |records|
  {
    if |records| == 0 then []
    else (if records[0].mode == mode then [records[0]] else []) + OfMode(records[1..], mode)
  }

  /** The filter of a concatenation is the concatenation of the filters. With
      `OfModeOne` this pins down the order and the number of copies. */
  lemma {:induction false} OfModeAppend(a: seq<GeneratedMetadata>, b: seq<GeneratedMetadata>, mode: Tab)
    ensures OfMode(a + b, mode) == OfMode(a, mode) + OfMode(b, mode)
    decreases |a|
  {
    if |a| > 0 {
      assert (a + b)[1..] == a[1..] + b;
      OfModeAppend(a[1..], b, mode);
    } else {
      assert a + b == b;
    }
  }

  /** An empty list exports nothing, and a single record is exported exactly
      when it has the mode. */
  lemma OfModeOne(x: GeneratedMetadata, mode: Tab)
    ensures OfMode([], mode) == []
    ensures OfMode([x], mode) == if x.mode == mode then [x] else []
  {
    assert [x][1..] == [];
  }

  /** The export mode is the mode of the first record (metadata when there
      is none). */
  function CsvMode(records: seq<GeneratedMetadata>): Tab {
    if |records| > 0 then records[0].mode else Metadata
  }

  function Quoted(values: seq<Option<string>>): (cells: seq<string>)
    ensures |cells| == |values| && forall i :: 0 <= i < |values| ==> cells[i] == EscapeField(values[i])
  {
    seq(|values|, i requires 0 <= i < |values| => EscapeField(values[i]))
  }

  function PromptRows(items: seq<GeneratedMetadata>): (rows: seq<seq<string>>)
    ensures |rows| == |items| && forall i :: 0 <= i < |items| ==> rows[i] == Quoted(PromptValues(i, items[i]))
  {
    seq(|items|, i requires 0 <= i < |items| => Quoted(PromptValues(i, items[i])))
  }

  function MetadataRows(site: Site, items: seq<GeneratedMetadata>, ext: string): (rows: seq<seq<string>>)
    ensures |rows| == |items| && forall i :: 0 <= i < |items| ==> rows[i] == Quoted(MetadataValues(site, items[i], ext))
  {
    seq(|items|, i requires 0 <= i < |items| => Quoted(MetadataValues(site, items[i], ext)))
  }

  /** The header line, a line feed and the row lines joined by line feeds. */
  function Table(header: seq<string>, rows: seq<seq<string>>): string {
    Line(header) + "\n" + Join(Lines(rows), "\n")
  }

  /** The text both exporters build. A prompt file always has its header;
      a metadata file with no metadata record is empty. */
  function CsvContent(records: seq<GeneratedMetadata>, siteKey: string, ext: string): string {
    if CsvMode(records) == Prompt then
      Table(PROMPT_HEADERS, PromptRows(OfMode(records, Prompt)))
    else
      var rows := MetadataRows(SiteOf(siteKey), OfMode(records, Metadata), ext);
      if |rows| > 0 then Table(Headers(SiteOf(siteKey)), rows) else ""
  }

  /** `<site>_prompts.csv` or `<site>_metadata.csv`, with the site key as
      chosen (an unknown key keeps its own name). */
  function DownloadName(siteKey: string, mode: Tab): string {
    siteKey + (if mode == Prompt then "_prompts.csv" else "_metadata.csv")
  }

  // ---------------------------------------------------------------------
  // What a reader of the file sees

  function Texts(values: seq<Option<string>>): (r: seq<string>)
    ensures |r| == |values| && forall i :: 0 <= i < |values| ==> r[i] == values[i].GetOr("")
  {
    seq(|values|, i requires 0 <= i < |values| => values[i].GetOr(""))
  }

  /** The table a reader should find in the file: the header, then one
      record per exported result with the field values as texts (an
      undefined value reads as empty). */
  function ExpectedRecords(records: seq<GeneratedMetadata>, siteKey: string, ext: string): seq<seq<string>> {
    if CsvMode(records) == Prompt then
      var items := OfMode(records, Prompt);
      [PROMPT_HEADERS] + seq(|items|, i requires 0 <= i < |items| => Texts(PromptValues(i, items[i])))
    else
      var site := SiteOf(siteKey);
      var items := OfMode(records, Metadata);
      if |items| == 0 then []
      else [Headers(site)] + seq(|items|, i requires 0 <= i < |items| => Texts(MetadataValues(site, items[i], ext)))
  }

  lemma QuotedEncodes(values: seq<Option<string>>)
    ensures Encodes(Quoted(values), Texts(values))
  {
  }

  lemma PlainHeaders(header: seq<string>)
    requires forall k :: 0 <= k < |header| ==> IsPlainCell(header[k])
    ensures Encodes(header, header)
  {
  }

  /** The header cells of the capitalised layouts need no quotes. */
  lemma CapitalisedHeadersArePlain()
    ensures IsPlainCell("Filename") && IsPlainCell("File name") && IsPlainCell("Title")
    ensures IsPlainCell("Description") && IsPlainCell("Keywords") && IsPlainCell("Prompt")
    ensures IsPlainCell("Category") && IsPlainCell("Categorie")
  {
  }

  /** The header cells of the lower-case layouts need no quotes. */
  lemma LowerCaseHeadersArePlain()
    ensures IsPlainCell("filename") && IsPlainCell("title") && IsPlainCell("keywords")
    ensures IsPlainCell("category") && IsPlainCell("release") && IsPlainCell("exclusive")
    ensures IsPlainCell("editorial") && IsPlainCell("model_releases") && IsPlainCell("property_releases")
    ensures IsPlainCell("image_id") && IsPlainCell("mr_ids")
  {
  }

  lemma HeadersArePlain(site: Site)
    ensures |Headers(site)| > 0
    ensures forall k :: 0 <= k < |Headers(site)| ==> IsPlainCell(Headers(site)[k])
  {
    CapitalisedHeadersArePlain();
    LowerCaseHeadersArePlain();
  }

  lemma PromptHeadersArePlain()
    ensures forall k :: 0 <= k < |PROMPT_HEADERS| ==> IsPlainCell(PROMPT_HEADERS[k])
  {
  }

  /** Reading the exported text back gives exactly the expected table: the
      header, and per record its values in the layout's column order. In
      particular every row has as many fields as the header. */
  lemma CsvContentReadsBack(records: seq<GeneratedMetadata>, siteKey: string, ext: string)
    ensures ReadCsv(CsvContent(records, siteKey, ext)) == Some(ExpectedRecords(records, siteKey, ext))
  {
    if CsvMode(records) == Prompt {
      var items := OfMode(records, Prompt);
      var rows := PromptRows(items);
      var texts := seq(|items|, i requires 0 <= i < |items| => Texts(PromptValues(i, items[i])));
      PromptHeadersArePlain();
      forall i | 0 <= i < |rows| ensures |rows[i]| > 0 && Encodes(rows[i], texts[i]) {
        QuotedEncodes(PromptValues(i, items[i]));
      }
      ReadTable(PROMPT_HEADERS, PROMPT_HEADERS, rows, texts);
    } else {
      var site := SiteOf(siteKey);
      var items := OfMode(records, Metadata);
      var rows := MetadataRows(site, items, ext);
      if |items| > 0 {
        var texts := seq(|items|, i requires 0 <= i < |items| => Texts(MetadataValues(site, items[i], ext)));
        HeadersArePlain(site);
        forall i | 0 <= i < |rows| ensures |rows[i]| > 0 && Encodes(rows[i], texts[i]) {
          QuotedEncodes(MetadataValues(site, items[i], ext));
        }
        ReadTable(Headers(site), Headers(site), rows, texts);
      }
    }
  }

  /** The text is blank exactly when the mode is metadata and no record is
      in metadata mode. */
  lemma CsvContentBlank(records: seq<GeneratedMetadata>, siteKey: string, ext: string)
    ensures AllWhite(CsvContent(records, siteKey, ext))
            <==> CsvMode(records) == Metadata && |OfMode(records, Metadata)| == 0
  {
    var c := CsvContent(records, siteKey, ext);
    if CsvMode(records) == Prompt {
      TableStartsWith(PROMPT_HEADERS, PromptRows(OfMode(records, Prompt)));
      assert !IsWhite(c[0]);
    } else {
      var site := SiteOf(siteKey);
      var items := OfMode(records, Metadata);
      if |items| > 0 {
        var rows := MetadataRows(site, items, ext);
        assert c == Table(Headers(site), rows);
        HeadersStartVisible(site);
        TableStartsWith(Headers(site), rows);
        assert !IsWhite(c[0]);
      } else {
        assert c == "";
      }
    }
  }

  /** Every layout's first header cell starts with a visible character. */
  lemma HeadersStartVisible(site: Site)
    ensures |Headers(site)| > 0 && |Headers(site)[0]| > 0 && !IsWhite(Headers(site)[0][0])
  {
  }

  /** A table starts with the first character of its first header cell. */
  lemma TableStartsWith(header: seq<string>, rows: seq<seq<string>>)
    requires |header| > 0 && |header[0]| > 0
    ensures |Table(header, rows)| > 0 && Table(header, rows)[0] == header[0][0]
  {
    JoinStart(header, ",");
  }

  /** The joined text starts with the first part's first character. */
  lemma JoinStart(parts: seq<string>, sep: string)
    requires |parts| > 0 && |parts[0]| > 0
    ensures |Join(parts, sep)| > 0 && Join(parts, sep)[0] == parts[0][0]
  {
  }

  // ---------------------------------------------------------------------
  // The two call sites

  /** What the upload panel's export button does. */
  datatype PanelExport =
    | NoMetadataWarning                       // "No metadata available to export."
    | NoDataWarning                           // "No data to export for the selected mode."
    | Exported(filename: string, content: string)

  /** `exportToCsv` (components/UploadPanel.tsx:161-316). */
  function ExportToCsv(records: seq<GeneratedMetadata>, siteKey: string, ext: string): (r: PanelExport)
    ensures r == NoMetadataWarning <==> |records| == 0
    ensures r == NoDataWarning <==> |records| > 0 && records[0].mode == Metadata && |OfMode(records, Metadata)| == 0
    ensures r.Exported? ==> ReadCsv(r.content) == Some(ExpectedRecords(records, siteKey, ext))
    ensures r.Exported? ==> r.filename == DownloadName(siteKey, records[0].mode)
  {
    CsvContentBlank(records, siteKey, ext);
    CsvContentReadsBack(records, siteKey, ext);
    if |records| == 0 then NoMetadataWarning
    else
      var content := CsvContent(records, siteKey, ext);
      if AllWhite(content) then NoDataWarning
      else Exported(DownloadName(siteKey, CsvMode(records)), content)
  }

  /** What the completion dialog's download button does: nothing at all, or
      a download followed by closing the dialog. */
  datatype ModalDownload =
    | Silent
    | DownloadAndClose(filename: string, content: string)

  /** `handleDownloadCsv` (components/modals/CompletionModal.tsx:39-190). */
  function HandleDownloadCsv(records: seq<GeneratedMetadata>, siteKey: string, ext: string): (r: ModalDownload)
    ensures r.Silent? <==> |records| == 0 || (records[0].mode == Metadata && |OfMode(records, Metadata)| == 0)
  {
    CsvContentBlank(records, siteKey, ext);
    if |records| == 0 then Silent
    else
      var content := CsvContent(records, siteKey, ext);
      if AllWhite(content) then Silent
      else DownloadAndClose(DownloadName(siteKey, CsvMode(records)), content)
  }

  /** The two exporters write the same file under the same name; where the
      panel warns, the dialog does nothing. */
  lemma ExportersAgree(records: seq<GeneratedMetadata>, siteKey: string, ext: string)
    ensures ExportToCsv(records, siteKey, ext).Exported? <==> HandleDownloadCsv(records, siteKey, ext).DownloadAndClose?
    ensures ExportToCsv(records, siteKey, ext).Exported? ==>
              var e := ExportToCsv(records, siteKey, ext);
              var m := HandleDownloadCsv(records, siteKey, ext);
              e.filename == m.filename && e.content == m.content
  {
  }
}

=== FILE: gemini.dfy ===
/** The model-call layer of services/geminiService.ts: the prompt that
    `createPrompt` builds, the retry loop of `callApiWithBackoff` with its
    backoff delays, and the clean-up that loop applies to a metadata answer.

    The network call and `JSON.parse` are not modelled: each call of the
    model is an `Attempt` chosen by the caller, and the sleeps are the delays
    the loop hands to `onRetry`. */
module Gemini {

  import opened Wrappers
  import opened Lists
  import opened Text
  import opened Types

  // ---------------------------------------------------------------------
  // Backoff (services/geminiService.ts:71-72, 131)

  const INITIAL_DELAY_MS: nat := 1000
  const MAX_DELAY_MS: nat := 30000

  /** `Math.min(delay * 2, maxDelay)`. */
  function NextDelay(d: nat): nat {
    if 2 * d <= MAX_DELAY_MS then 2 * d else MAX_DELAY_MS
  }

  /** The delay slept after failure number `i`, counting from 0. */
  function Delay(i: nat): (d: nat)
    ensures INITIAL_DELAY_MS <= d <= MAX_DELAY_MS
  {
    if i == 0 then INITIAL_DELAY_MS else NextDelay(Delay(i - 1))
  }

  /** The delays double from one second until they reach the cap. */
  lemma {:induction false} DelayClosedForm(i: nat)
    ensures Delay(i) == if INITIAL_DELAY_MS * Pow2(i) <= MAX_DELAY_MS then INITIAL_DELAY_MS * Pow2(i) else MAX_DELAY_MS
  {
    if i > 0 {
      DelayClosedForm(i - 1);
    }
  }

  lemma DelayNonDecreasing(i: nat)
    ensures Delay(i) <= Delay(i + 1)
  {
  }

  /** From the sixth failure on, every delay is the cap. */
  lemma {:induction false} DelayCapped(i: nat)
    requires i >= 5
    ensures Delay(i) == MAX_DELAY_MS
  {
    if i > 5 {
      DelayCapped(i - 1);
    } else {
      assert Delay(1) == 2000 && Delay(2) == 4000 && Delay(3) == 8000 && Delay(4) == 16000;
    }
  }

  // ---------------------------------------------------------------------
  // The clean-up of a metadata answer (services/geminiService.ts:103-123)

  /** The four title options, in the order they are appended. */
  datatype TitleOption = TransparentOption | WhiteOption | VectorOption | IllustrationOption

  function OptionText(o: TitleOption): string {
    match o
    case TransparentOption => "isolated on transparent background"
    case WhiteOption => "isolated on white background"
    case VectorOption => "Vector"
    case IllustrationOption => "illustration"
  }

  /** The position of an option in that fixed order. */
  function OptionRank(o: TitleOption): nat {
    match o
    case TransparentOption => 0
    case WhiteOption => 1
    case VectorOption => 2
    case IllustrationOption => 3
  }

  function Enabled(a: AdvanceTitle, o: TitleOption): bool {
    match o
    case TransparentOption => a.transparentBg
    case WhiteOption => a.whiteBg
    case VectorOption => a.vector
    case IllustrationOption => a.illustration
  }

  /** The options that are switched on, in the fixed order. */
  function EnabledOptions(a: AdvanceTitle): seq<TitleOption> {
    (if a.transparentBg then [TransparentOption] else [])
    + (if a.whiteBg then [WhiteOption] else [])
    + (if a.vector then [VectorOption] else [])
    + (if a.illustration then [IllustrationOption] else [])
  }

  /** The texts of the options that are switched on. */
  function TitleOptions(a: AdvanceTitle): (r: seq<string>)
    ensures |r| == |EnabledOptions(a)|
    ensures forall i :: 0 <= i < |r| ==> r[i] == OptionText(EnabledOptions(a)[i])
  {
    var opts := EnabledOptions(a);
    seq(|opts|, i requires 0 <= i < |opts| => OptionText(opts[i]))
  }

  /** An option is listed exactly when its switch is on, and the listed
      options follow the fixed order. Together these fix the list. */
  lemma TitleOptionsOrder(a: AdvanceTitle)
    ensures var opts := EnabledOptions(a);
            && (forall o :: o in opts <==> Enabled(a, o))
            && (forall i, j :: 0 <= i < j < |opts| ==> OptionRank(opts[i]) < OptionRank(opts[j]))
  {
  }

  /** `" " + opts.join(', ')`, or nothing when no option is on. */
  function ToggleText(opts: seq<string>): (t: string)
    ensures |opts| == 0 <==> t == ""
  {
    if |opts| > 0 then " " + Join(opts, ", ") else ""
  }

  /** The partner of `ToggleText`: a non-empty suffix is a space followed by
      the options separated by ", ", so splitting it there gives them back. */
  lemma ToggleTextSplitsBack(opts: seq<string>)
    requires |opts| > 0
    requires forall i :: 0 <= i < |opts| ==> NoSeparator(opts[i])
    ensures var t := ToggleText(opts);
            |t| > 0 && t[0] == ' ' && SplitList(t[1..]) == opts
  {
    var t := ToggleText(opts);
    assert t[1..] == Join(opts, ", ");
    JoinSplitsBack(opts);
  }

  lemma OptionTextNoSeparator(o: TitleOption)
    ensures NoSeparator(OptionText(o))
  {
    var s := OptionText(o);
    forall i | 0 <= i < |s| - 1 ensures !(s[i] == ',' && s[i + 1] == ' ') {
      assert s[i] != ',';
    }
  }

  /** None of the four option texts contains ", ", so the suffix built from
      the switched-on options splits back into exactly those options. */
  lemma TitleOptionsSplitBack(a: AdvanceTitle)
    ensures |TitleOptions(a)| == 0 ==> ToggleText(TitleOptions(a)) == ""
    ensures |TitleOptions(a)| > 0 ==>
              var t := ToggleText(TitleOptions(a));
              |t| > 0 && t[0] == ' ' && SplitList(t[1..]) == TitleOptions(a)
  {
    var opts := TitleOptions(a);
    forall i | 0 <= i < |opts| ensures NoSeparator(opts[i]) {
      OptionTextNoSeparator(EnabledOptions(a)[i]);
    }
    if |opts| > 0 {
      ToggleTextSplitsBack(opts);
    }
  }

  /** The title in sentence case: its first character upper-cased and the
      rest lower-cased; a missing or empty title gives "". */
  function BaseTitle(title: Option<string>): string {
    match title
    case Some(t) => if |t| == 0 then "" else [UpperChar(t[0])] + Lower(t[1..])
    case None => ""
  }

  lemma LowerLower(s: string)
    ensures Lower(Lower(s)) == Lower(s)
  {
  }

  /** The sentence-case title is the original text up to case, with no
      capital after the first character and no small letter at the start. */
  lemma BaseTitleSentenceCase(title: Option<string>)
    ensures var t := title.GetOr("");
            var b := BaseTitle(title);
            && |b| == |t|
            && Lower(b) == Lower(t)
            && (|b| > 0 ==> NoUpper(b[1..]) && !IsLowerLetter(b[0]))
  {
    var t := title.GetOr("");
    var b := BaseTitle(title);
    if |t| > 0 {
      LowerHasNoUpper(t[1..]);
      LowerLower(t[1..]);
      assert b[1..] == Lower(t[1..]);
      assert Lower(b)[0] == Lower(t)[0];
      assert forall i :: 1 <= i < |b| ==> Lower(b)[i] == Lower(b[1..])[i - 1];
      assert forall i :: 1 <= i < |t| ==> Lower(t)[i] == Lower(t[1..])[i - 1];
    }
  }

  /** `kw.trim().toLowerCase()` for every keyword, keeping the non-empty ones. */
  function CleanKeywords(kws: seq<string>): seq<string>
    decreases |kws|
  {
    if |kws| == 0 then []
    else
      var k := Lower(Trim(kws[0]));
      (if |k| == 0 then [] else [k]) + CleanKeywords(kws[1..])
  }

  /** `toggles.forEach(tk => { if (!list.includes(tk)) list.push(tk) })`. */
  function AddMissing(kws: seq<string>, extra: seq<string>): seq<string>
    decreases |extra|
  {
    if |extra| == 0 then kws
    else AddMissing(if extra[0] in kws then kws else kws + [extra[0]], extra[1..])
  }

  function LowerAll(xs: seq<string>): (r: seq<string>)
    ensures |r| == |xs| && forall i :: 0 <= i < |xs| ==> r[i] == Lower(xs[i])
  {
    seq(|xs|, i requires 0 <= i < |xs| => Lower(xs[i]))
  }

  /** The keyword list before it is cut to `keywordsCount`. */
  function AllKeywords(kws: Option<seq<string>>, opts: seq<string>): seq<string> {
    Dedup(AddMissing(CleanKeywords(kws.GetOr([])), LowerAll(opts)))
  }

  /** The keyword list of the answer. */
  function NormalizeKeywords(kws: Option<seq<string>>, opts: seq<string>, count: nat): seq<string> {
    Take(AllKeywords(kws, opts), count)
  }

  /** The answer after the clean-up: in prompt mode it is returned as parsed;
      in metadata mode the title is put in sentence case and followed by the
      options, and the keywords are cleaned, completed and cut. */
  function Normalize(settings: ControlSettings, mode: Tab, raw: Response): (r: Response)
    ensures mode == Prompt ==> r == raw
    ensures mode == Metadata ==> r.description == raw.description && r.category == raw.category
    ensures mode == Metadata ==> r.title == Some(BaseTitle(raw.title) + ToggleText(TitleOptions(settings.advanceTitle)))
    ensures mode == Metadata ==> r.keywords == Some(NormalizeKeywords(raw.keywords, TitleOptions(settings.advanceTitle), settings.keywordsCount))
  {
    if mode == Prompt then raw
    else
      var opts := TitleOptions(settings.advanceTitle);
      raw.(title := Some(BaseTitle(raw.title) + ToggleText(opts)),
           keywords := Some(NormalizeKeywords(raw.keywords, opts, settings.keywordsCount)))
  }

  /** The title of a metadata answer: the answer's title in sentence case,
      then, when an option is on, a space and the switched-on options
      separated by ", ", in their fixed order. */
  lemma NormalizedTitle(settings: ControlSettings, raw: Response)
    ensures var t := Normalize(settings, Metadata, raw).title.value;
            var b := BaseTitle(raw.title);
            var opts := TitleOptions(settings.advanceTitle);
            && |b| <= |t| && t[..|b|] == b
            && (|opts| == 0 <==> t == b)
            && (|opts| > 0 ==> t[|b|] == ' ' && SplitList(t[|b| + 1..]) == opts)
  {
    var t := Normalize(settings, Metadata, raw).title.value;
    var b := BaseTitle(raw.title);
    var opts := TitleOptions(settings.advanceTitle);
    var suffix := ToggleText(opts);
    assert t == b + suffix;
    assert t[..|b|] == b;
    TitleOptionsSplitBack(settings.advanceTitle);
    if |opts| > 0 {
      assert t[|b|] == suffix[0];
      assert t[|b| + 1..] == suffix[1..];
    } else {
      assert suffix == "";
    }
  }

  /** A cleaned keyword: non-empty, with no white space at either end and no
      capital letter. */
  predicate IsCleanKeyword(k: string) {
    |k| > 0 && !IsWhite(k[0]) && !IsWhite(k[|k| - 1]) && NoUpper(k)
  }

  lemma LowerKeepsWhite(s: string)
    ensures forall i :: 0 <= i < |s| ==> (IsWhite(Lower(s)[i]) <==> IsWhite(s[i]))
  {
  }

  lemma {:induction false} CleanKeywordsAreClean(kws: seq<string>)
    ensures forall k :: k in CleanKeywords(kws) ==> IsCleanKeyword(k)
    ensures forall i :: 0 <= i < |kws| && !AllWhite(kws[i]) ==> Lower(Trim(kws[i])) in CleanKeywords(kws)
    decreases |kws|
  {
    if |kws| > 0 {
      CleanKeywordsAreClean(kws[1..]);
      var t := Trim(kws[0]);
      LowerKeepsWhite(t);
      LowerHasNoUpper(t);
      assert forall i :: 1 <= i < |kws| ==> kws[i] == kws[1..][i - 1];
    }
  }

  lemma {:induction false} AddMissingContents(kws: seq<string>, extra: seq<string>)
    ensures forall k :: k in AddMissing(kws, extra) <==> k in kws || k in extra
    decreases |extra|
  {
    if |extra| > 0 {
      var next := if extra[0] in kws then kws else kws + [extra[0]];
      AddMissingContents(next, extra[1..]);
      assert forall k :: k in extra <==> k == extra[0] || k in extra[1..];
    }
  }

  lemma OptionTextClean(o: TitleOption)
    ensures IsCleanKeyword(Lower(OptionText(o)))
  {
    LowerHasNoUpper(OptionText(o));
  }

  lemma OptionsAreClean(a: AdvanceTitle)
    ensures forall k :: k in LowerAll(TitleOptions(a)) ==> IsCleanKeyword(k)
  {
    var opts := TitleOptions(a);
    forall k | k in LowerAll(opts) ensures IsCleanKeyword(k) {
      var i :| 0 <= i < |opts| && LowerAll(opts)[i] == k;
      OptionTextClean(EnabledOptions(a)[i]);
    }
  }

  /** What the keyword list `r` of an answer with keywords `kws` and title
      options `opts` must be: every keyword is clean, none is repeated, and
      they are the first `min(count, |all|)` of a list `all` that holds
      exactly the cleaned keywords of the answer and the lower-cased options. */
  ghost predicate KeywordsSpec(kws: Option<seq<string>>, opts: seq<string>, count: nat, r: seq<string>) {
    var given := kws.GetOr([]);
    var all := AllKeywords(kws, opts);
    && |r| == (if count < |all| then count else |all|) && r == all[..|r|]
    && NoDup(r)
    && (forall k :: k in r ==> IsCleanKeyword(k))
    && (forall k :: k in all <==> k in CleanKeywords(given) || k in LowerAll(opts))
    && (forall o :: o in opts ==> Lower(o) in all)
    && (forall i :: 0 <= i < |given| && !AllWhite(given[i]) ==> Lower(Trim(given[i])) in all)
  }

  lemma KeywordsMeetSpec(kws: Option<seq<string>>, opts: seq<string>, count: nat)
    requires forall k :: k in LowerAll(opts) ==> IsCleanKeyword(k)
    ensures KeywordsSpec(kws, opts, count, NormalizeKeywords(kws, opts, count))
  {
    var cleaned := CleanKeywords(kws.GetOr([]));
    var all := AllKeywords(kws, opts);
    var r := NormalizeKeywords(kws, opts, count);
    CleanKeywordsAreClean(kws.GetOr([]));
    AddMissingContents(cleaned, LowerAll(opts));
    NoDupPrefix(all, |r|);
    forall o | o in opts ensures Lower(o) in all {
      var i :| 0 <= i < |opts| && opts[i] == o;
      assert LowerAll(opts)[i] == Lower(o);
    }
    forall k | k in r ensures IsCleanKeyword(k) {
      assert k in all;
    }
  }

  /** The keywords of every metadata answer meet `KeywordsSpec`. */
  lemma NormalizedKeywords(kws: Option<seq<string>>, a: AdvanceTitle, count: nat)
    ensures KeywordsSpec(kws, TitleOptions(a), count, NormalizeKeywords(kws, TitleOptions(a), count))
    ensures |AllKeywords(kws, TitleOptions(a))| <= count ==>
              forall o :: o in TitleOptions(a) ==> Lower(o) in NormalizeKeywords(kws, TitleOptions(a), count)
    ensures |AllKeywords(kws, TitleOptions(a))| <= count ==>
              forall i :: 0 <= i < |kws.GetOr([])| && !AllWhite(kws.GetOr([])[i]) ==>
                Lower(Trim(kws.GetOr([])[i])) in NormalizeKeywords(kws, TitleOptions(a), count)
  {
    OptionsAreClean(a);
    KeywordsMeetSpec(kws, TitleOptions(a), count);
  }

  // ---------------------------------------------------------------------
  // The retry loop (services/geminiService.ts:59-134)

  /** How one call of the model went, as far as the loop can tell. */
  datatype Attempt =
    | Thrown              // the call itself was rejected
    | NoText(safety: bool) // the answer had no text; `safety` when blocked for safety
    | Unparsable          // text that `JSON.parse` rejects
    | Parsed(raw: Response)

  predicate NoneParsed(attempts: seq<Attempt>) {
    forall j :: 0 <= j < |attempts| ==> !attempts[j].Parsed?
  }

  /** What the loop has done after the given attempts: thrown at once for a
      missing payload, returned an answer, or still retrying. The delays are
      the values handed to `onRetry`, one per failed attempt. */
  datatype CallResult =
    | MissingApiData
    | Returned(response: Response, retryDelays: seq<nat>)
    | StillRetrying(retryDelays: seq<nat>)

  /** `callApiWithBackoff` over the attempts the model answers with. It never
      gives up: every failure, an empty text as much as a thrown call, sleeps
      the current delay and tries again. */
  method CallWithBackoff(apiData: Option<ApiData>, settings: ControlSettings, mode: Tab, attempts: seq<Attempt>)
    returns (r: CallResult)
    ensures r == MissingApiData <==> apiData.None?
    ensures r.Returned? ==>
              var i := |r.retryDelays|;
              && i < |attempts| && attempts[i].Parsed? && NoneParsed(attempts[..i])
              && r.response == Normalize(settings, mode, attempts[i].raw)
    ensures r.StillRetrying? ==> NoneParsed(attempts) && |r.retryDelays| == |attempts|
    ensures !r.MissingApiData? ==> forall j :: 0 <= j < |r.retryDelays| ==> r.retryDelays[j] == Delay(j)
  {
    if apiData.None? {
      return MissingApiData;
    }
    var delay := INITIAL_DELAY_MS;
    var delays: seq<nat> := [];
    var i := 0;
    while i < |attempts|
      invariant 0 <= i <= |attempts|
      invariant |delays| == i && delay == Delay(i)
      invariant forall j :: 0 <= j < i ==> delays[j] == Delay(j)
      invariant NoneParsed(attempts[..i])
    {
      if attempts[i].Parsed? {
        return Returned(Normalize(settings, mode, attempts[i].raw), delays);
      }
      assert attempts[..i + 1] == attempts[..i] + [attempts[i]];
      delays := delays + [delay];
      delay := NextDelay(delay);
      i := i + 1;
    }
    assert attempts[..i] == attempts;
    return StillRetrying(delays);
  }

  // ---------------------------------------------------------------------
  // The prompt (services/geminiService.ts:23-57)

  // The texts are written as concatenations of short pieces; the value is
  // the same text as one literal.
  const CUSTOM_HEAD: string :=
    "Analyze this image based on the " + "following instructions:\n"
  const PROMPT_CUSTOM_TAIL: string :=
    "\n\nProvide JSON object with only " + "'description'."
  const METADATA_CUSTOM_TAIL: string :=
    "\n\nProvide JSON object with " + "'title', 'description', "
    + "'keywords', and a relevant " + "'category'."
  const PROMPT_INTRO: string :=
    "Act as an expert metadata " + "generator specializing in stock "
    + "media requirements.\nAnalyze " + "this image.\nIMPORTANT: If the "
    + "subject is isolated, assume " + "it's on a white or transparent "
    + "background. Do NOT mention " + "\"black background\", \"dark "
    + "background\", or similar " + "phrases.\nGenerate only a "
    + "compelling description.\nTarget " + "Description Length: MUST BE " + "EXACTLY "
  const PROMPT_WORDS: string :=
    " words. " + "Provide the exact word " + "count requested.\n"
  const SILHOUETTE_LINE: string :=
    "Style: Silhouette. Emphasize " + "this.\n"
  const WHITE_LINE: string :=
    "Background: Plain white. " + "Mention 'white background', " + "'isolated'.\n"
  const TRANSPARENT_LINE: string :=
    "Background: Transparent. " + "Mention 'transparent " + "background', 'isolated'.\n"
  const PROMPT_TAIL: string :=
    "Focus on facts and concepts, " + "avoiding subjective words "
    + "(e.g., beautiful, amazing).\n\n" + "Provide JSON object with only " + "'description'."
  const METADATA_PROMPT: string :=
    "I will give you images. You " + "have to:\n1. Write detailed "
    + "prompt for each images " + "(populate the 'description' "
    + "field).\n2. Write title for each " + "images as per instructions and "
    + "guide.\n3. Write keywords for " + "each images as per instructions "
    + "and guide.\n4. Select a relevant " + "Category.\n\nInstructions: "
    + "Analyze this image and generate " + "content based on the following "
    + "exact and strict requirements. " + "Please give keywords separated "
    + "by comma also give single word " + "keyword and prefer singular "
    + "keyword. please give single " + "word keyword and give at "
    + "maximum 30 keywords also give a " + "title and title character will "
    + "be around 75 -130 character, " + "also give title in sentence "
    + "case means only first letter " + "will be in capital.\n\nProvide "
    + "JSON object with 'title', " + "'description', 'keywords', and " + "'category'."

  /** The switch lines of the default description prompt, in the order
      silhouette, white background, transparent background. */
  function SwitchLines(sw: PromptSwitches): string {
    (if sw.silhouette then SILHOUETTE_LINE else "")
    + (if sw.whiteBg then WHITE_LINE else "")
    + (if sw.transparentBg then TRANSPARENT_LINE else "")
  }

  /** The default description prompt: introduction, the requested word
      count, the switch lines and the closing request. */
  function DefaultDescriptionPrompt(descWords: nat, sw: PromptSwitches): string {
    PROMPT_INTRO + (NatToString(descWords) + (PROMPT_WORDS + (SwitchLines(sw) + PROMPT_TAIL)))
  }

  /** `createPrompt`. A custom instruction is used when its switch is on
      and it is not blank, trimmed; otherwise the mode's default prompt. */
  function CreatePrompt(settings: ControlSettings, mode: Tab): (p: string)
    ensures mode == Prompt && settings.promptSwitches.customPrompt && !AllWhite(settings.customPromptEntryPrompt)
            ==> p == CUSTOM_HEAD + Trim(settings.customPromptEntryPrompt) + PROMPT_CUSTOM_TAIL
    ensures mode == Prompt && !(settings.promptSwitches.customPrompt && !AllWhite(settings.customPromptEntryPrompt))
            ==> p == DefaultDescriptionPrompt(settings.descWords, settings.promptSwitches)
    ensures mode == Metadata && settings.customPromptSelect == SetCustom && !AllWhite(settings.customPromptEntry)
            ==> p == CUSTOM_HEAD + Trim(settings.customPromptEntry) + METADATA_CUSTOM_TAIL
    ensures mode == Metadata && !(settings.customPromptSelect == SetCustom && !AllWhite(settings.customPromptEntry))
            ==> p == METADATA_PROMPT
  {
    if mode == Prompt && settings.promptSwitches.customPrompt && |Trim(settings.customPromptEntryPrompt)| > 0 then
      CUSTOM_HEAD + Trim(settings.customPromptEntryPrompt) + PROMPT_CUSTOM_TAIL
    else if mode == Metadata && settings.customPromptSelect == SetCustom && |Trim(settings.customPromptEntry)| > 0 then
      CUSTOM_HEAD + Trim(settings.customPromptEntry) + METADATA_CUSTOM_TAIL
    else if mode == Prompt then
      DefaultDescriptionPrompt(settings.descWords, settings.promptSwitches)
    else
      METADATA_PROMPT
  }

  /** Without a custom instruction, the metadata prompt is the same whatever
      the other settings are. */
  lemma MetadataDefaultIgnoresSettings(s1: ControlSettings, s2: ControlSettings)
    requires !(s1.customPromptSelect == SetCustom && !AllWhite(s1.customPromptEntry))
    requires !(s2.customPromptSelect == SetCustom && !AllWhite(s2.customPromptEntry))
    ensures CreatePrompt(s1, Metadata) == CreatePrompt(s2, Metadata)
  {
  }

  lemma PrefixCancel(p: string, u: string, v: string)
    requires p + u == p + v
    ensures u == v
  {
    assert u == (p + u)[|p|..];
    assert v == (p + v)[|p|..];
  }

  lemma SuffixCancel(u: string, v: string, s: string)
    requires u + s == v + s
    ensures u == v
  {
    assert u == (u + s)[..|u|];
    assert v == (v + s)[..|v|];
  }

  /** Two digit strings each followed by a non-digit agree when the whole
      texts agree: the first non-digit sits at the same place. */
  lemma DigitsPrefix(a: string, x: string, b: string, y: string)
    requires forall i :: 0 <= i < |a| ==> IsDigit(a[i])
    requires forall i :: 0 <= i < |b| ==> IsDigit(b[i])
    requires |x| > 0 && !IsDigit(x[0]) && |y| > 0 && !IsDigit(y[0])
    requires a + x == b + y
    ensures a == b && x == y
  {
    var m := if |a| < |b| then |a| else |b|;
    assert IsDigit((a + x)[m]) <==> m < |a|;
    assert IsDigit((b + y)[m]) <==> m < |b|;
    assert |a| == |b|;
    assert a == (a + x)[..|a|];
    assert b == (b + y)[..|b|];
    assert x == (a + x)[|a|..];
    assert y == (b + y)[|b|..];
  }

  /** The lengths of the switch lines tell which switches were on. */
  lemma SwitchLinesLength(s1: PromptSwitches, s2: PromptSwitches)
    requires |SwitchLines(s1)| == |SwitchLines(s2)|
    ensures s1.silhouette == s2.silhouette && s1.whiteBg == s2.whiteBg && s1.transparentBg == s2.transparentBg
  {
    assert |SILHOUETTE_LINE| == 35 && |WHITE_LINE| == 65 && |TRANSPARENT_LINE| == 71;
  }

  /** The default description prompt determines the requested word count
      and each of the three switches it mentions. */
  lemma DefaultDescriptionPromptInjective(d1: nat, s1: PromptSwitches, d2: nat, s2: PromptSwitches)
    requires DefaultDescriptionPrompt(d1, s1) == DefaultDescriptionPrompt(d2, s2)
    ensures d1 == d2
    ensures s1.silhouette == s2.silhouette && s1.whiteBg == s2.whiteBg && s1.transparentBg == s2.transparentBg
  {
    var tail1 := SwitchLines(s1) + PROMPT_TAIL;
    var tail2 := SwitchLines(s2) + PROMPT_TAIL;
    PrefixCancel(PROMPT_INTRO, NatToString(d1) + (PROMPT_WORDS + tail1), NatToString(d2) + (PROMPT_WORDS + tail2));
    assert PROMPT_WORDS[0] == ' ';
    assert (PROMPT_WORDS + tail1)[0] == ' ' && (PROMPT_WORDS + tail2)[0] == ' ';
    DigitsPrefix(NatToString(d1), PROMPT_WORDS + tail1, NatToString(d2), PROMPT_WORDS + tail2);
    NatToStringInjective(d1, d2);
    PrefixCancel(PROMPT_WORDS, tail1, tail2);
    SuffixCancel(SwitchLines(s1), SwitchLines(s2), PROMPT_TAIL);
    SwitchLinesLength(s1, s2);
  }
}

=== FILE: generation.dfy ===
/** The generation run of App.tsx: `startGeneration` (App.tsx:131-306),
    `clearAll` (App.tsx:121-129) and `handleRegenerate` (App.tsx:308-338).

    The run is a fold of one batch step over the batches of the ready files,
    first for the primary pass and then, when some file failed, for one retry
    pass. Everything the browser decides is an input: the clock for each batch,
    the answer for each file, and the moments at which the user pressed
    Clear All. Since `generationStopRef` is set only by `clearAll`, and the run
    yields to the browser only while a batch waits for a key or for its
    requests, or during the pause between the passes, those are the only
    moments at which a stop can take effect. */
module Generation {

  import opened Wrappers
  import opened Lists
  import opened Types
  import opened StagedList
  import opened RateLimiter
  import opened Batching

  /** The status line of the progress display, by case:
      'Ready.', 'Generated p/t | s successful', 'All keys rate-limited. Waiting …',
      'Retrying n failed files...', 'Stopped.' and 'Complete. s of t successful.'. */
  datatype Status =
    | Idle
    | Generated(processed: nat, total: nat, success: nat)
    | RateLimited
    | Retrying(count: nat)
    | Stopped
    | Complete(success: nat, total: nat)

  /** `progress` without its floating-point percentage. */
  datatype Progress = Progress(status: Status, currentFile: nat, totalFiles: nat)

  const IDLE_PROGRESS: Progress := Progress(Idle, 0, 0)

  /** `completionStats`. */
  datatype Stats = Stats(success: nat, total: nat)

  /** The part of the App component's state that generation reads and writes. */
  datatype App = App(
    staged: seq<StagedFile>,
    results: seq<GeneratedMetadata>,
    progress: Progress,
    isGenerating: bool,
    isPaused: bool,
    completion: Stats,
    completionOpen: bool)

  /** `clearAll` without its stop flag and toast: both lists emptied, progress
      back to 'Ready.', no run shown as active or paused. */
  function ClearAll(app: App): (r: App)
    ensures r.staged == [] && r.results == [] && r.progress == IDLE_PROGRESS
    ensures !r.isGenerating && !r.isPaused
    ensures r.completion == app.completion && r.completionOpen == app.completionOpen
  {
    app.(staged := [], results := [], progress := IDLE_PROGRESS, isGenerating := false, isPaused := false)
  }

  datatype Pass = Primary | Retry

  /** How `callApiWithBackoff` settled for one file. */
  datatype Outcome = Resolved(response: Response) | Rejected(message: string)

  /** The clock when a batch starts looking for a key, and when the countdown
      wait would resolve if it had to wait. */
  datatype Clock = Clock(now: int, wake: int)

  /** Everything the browser decides during a run. Batches and files are
      numbered from 0 within their pass. */
  datatype Env = Env(
    startTime: int,
    clock: (Pass, nat) -> Clock,
    outcome: (Pass, nat) -> Outcome,
    clearedInFlight: (Pass, nat) -> bool,
    clearedDuringDelay: bool,
    clearedWhileParked: bool)

  /** What one call of `runGenerationLoop` fixes: its pass, the mode captured
      at the start, the number of files to process and the captured pause flag. */
  datatype Ctx = Ctx(pass: Pass, mode: Tab, total: nat, paused: bool)

  /** What the accounting of answers (App.tsx:236-277) accumulates. */
  datatype Tally = Tally(
    results: seq<GeneratedMetadata>,
    processed: nat,
    success: nat,
    retry: seq<StagedFile>)

  datatype Run = Run(
    staged: seq<StagedFile>,
    tally: Tally,
    progress: Progress,
    limiter: Limiter,
    isGenerating: bool,
    stopped: bool,
    dispatched: nat)

  /** The record appended for an answer: the answer's fields plus the file's
      thumbnail, name and payload and the run's mode. */
  function Record(resp: Response, f: StagedFile, mode: Tab): GeneratedMetadata {
    GeneratedMetadata(resp.title, resp.description, resp.keywords, resp.category,
                      f.thumbnailDataUrl, f.file.name, mode, f.apiData)
  }

  /** The record appended when a file fails a second time. */
  function ErrorRecord(message: string, f: StagedFile, mode: Tab): GeneratedMetadata {
    GeneratedMetadata(Some("Error"), Some("Failed: " + message), Some([]), Some("Error"),
                      f.thumbnailDataUrl, f.file.name, mode, f.apiData)
  }

  /** The accounting of one answer. */
  function TallyOne(c: Ctx, t: Tally, f: StagedFile, o: Outcome): Tally {
    var t1 :=
      match o
      case Resolved(resp) => t.(results := t.results + [Record(resp, f, c.mode)], success := t.success + 1)
      case Rejected(msg) =>
        if c.pass == Retry then t.(results := t.results + [ErrorRecord(msg, f, c.mode)])
        else t.(retry := t.retry + [f]);
    if c.pass == Primary then t1.(processed := t1.processed + 1) else t1
  }

  /** The accounting of the answers for `fs`, which sit at `pos`, `pos + 1`, …
      in their pass. Independent of batches, keys and the clock, this is also
      the reference for what a whole pass accounts. */
  function TallyFiles(c: Ctx, env: Env, t: Tally, fs: seq<StagedFile>, pos: nat): Tally
    decreases |fs|
  {
    if |fs| == 0 then t
    else TallyFiles(c, env, TallyOne(c, t, fs[0], env.outcome(c.pass, pos)), fs[1..], pos + 1)
  }

  /** The staged-list update for one answer: a success, and any answer in the
      retry pass, removes the file; a first failure marks it as failed. */
  function StagedOne(c: Ctx, staged: seq<StagedFile>, f: StagedFile, o: Outcome): seq<StagedFile> {
    if o.Resolved? || c.pass == Retry then RemoveId(staged, f.id) else SetStatus(staged, f.id, Error)
  }

  function StagedFiles(c: Ctx, env: Env, staged: seq<StagedFile>, fs: seq<StagedFile>, pos: nat): seq<StagedFile>
    decreases |fs|
  {
    if |fs| == 0 then staged
    else StagedFiles(c, env, StagedOne(c, staged, fs[0], env.outcome(c.pass, pos)), fs[1..], pos + 1)
  }

  /** The effect of `clearAll` on a run in progress: the lists and the
      progress are reset and the stop flag is raised. */
  function Clear(run: Run): (r: Run)
    ensures r.staged == [] && r.tally.results == [] && r.progress == IDLE_PROGRESS
    ensures !r.isGenerating && r.stopped
    ensures r.limiter == run.limiter && r.dispatched == run.dispatched
    ensures r.tally.success == run.tally.success && r.tally.retry == run.tally.retry
  {
    run.(staged := [], tally := run.tally.(results := []), progress := IDLE_PROGRESS,
         isGenerating := false, stopped := true)
  }

  datatype StepEnd = Next(run: Run) | Stall(run: Run)

  /** One iteration of the `for` loop of App.tsx:173-278 for batch number `k`,
      whose files sit at `pos`, `pos + 1`, … in the pass. A captured pause
      parks the loop until Clear All (App.tsx:176-190); a batch no key can ever
      take keeps the assignment loop waiting forever (App.tsx:195-228). An
      assigned batch is dispatched: its files are marked as processing, and
      unless Clear All arrives before the answers are accounted, every answer
      is accounted in batch order. */
  function Step(c: Ctx, env: Env, run: Run, batch: seq<StagedFile>, k: nat, pos: nat): (r: StepEnd)
    requires Valid(run.limiter)
    ensures Valid(r.run.limiter) && |r.run.limiter.counts| == |run.limiter.counts|
  {
    if c.paused then
      if env.clearedWhileParked then Next(Clear(run.(isGenerating := false)))
      else Stall(run.(isGenerating := false))
    else
      var clock := env.clock(c.pass, k);
      match Assign(run.limiter, clock.now, clock.wake, |batch|)
      case NeverAssigned => Stall(run.(progress := run.progress.(status := RateLimited)))
      case Assigned(l, _, waited) =>
        var shown := if waited then run.progress.(status := RateLimited) else run.progress;
        var marked := MarkAll(run.staged, batch, Processing);
        var sent := run.(staged := marked, progress := shown, limiter := l, dispatched := run.dispatched + |batch|);
        if env.clearedInFlight(c.pass, k) then Next(Clear(sent))
        else
          var t := TallyFiles(c, env, run.tally, batch, pos);
          var progress :=
            if c.pass == Primary then Progress(Generated(t.processed, c.total, t.success), t.processed, c.total)
            else shown;
          Next(sent.(staged := StagedFiles(c, env, marked, batch, pos), tally := t, progress := progress))
  }

  datatype PassEnd = Done(run: Run) | Stalled(run: Run)

  /** The `for` loop over the remaining `batches`, the first of which is batch
      number `k` and starts at file `pos`; it stops at the first batch
      boundary after a stop. */
  function RunBatches(c: Ctx, env: Env, run: Run, batches: seq<seq<StagedFile>>, k: nat, pos: nat): (r: PassEnd)
    requires Valid(run.limiter)
    ensures Valid(r.run.limiter) && |r.run.limiter.counts| == |run.limiter.counts|
    decreases |batches|, 1
  {
    if |batches| == 0 || run.stopped then Done(run) else Turn(c, env, run, batches, k, pos)
  }

  /** One turn of that loop: the first batch, then the loop over the rest. */
  function Turn(c: Ctx, env: Env, run: Run, batches: seq<seq<StagedFile>>, k: nat, pos: nat): (r: PassEnd)
    requires Valid(run.limiter) && |batches| > 0
    ensures Valid(r.run.limiter) && |r.run.limiter.counts| == |run.limiter.counts|
    decreases |batches|, 0
  {
    match Step(c, env, run, batches[0], k, pos)
    case Stall(r) => Stalled(r)
    case Next(r) => RunBatches(c, env, r, batches[1..], k + 1, pos + |batches[0]|)
  }

  /** A non-empty retry queue without a stop leads to the status
      'Retrying n failed files...', the 2000 ms pause, and the retry pass
      (App.tsx:284-288). */
  function RetryPass(c: Ctx, env: Env, run: Run, bs: nat): (r: PassEnd)
    requires Valid(run.limiter) && bs >= 1
    ensures Valid(r.run.limiter) && |r.run.limiter.counts| == |run.limiter.counts|
  {
    if |run.tally.retry| > 0 && !run.stopped then
      var announced := run.(progress := run.progress.(status := Retrying(|run.tally.retry|)));
      var paused := if env.clearedDuringDelay then Clear(announced) else announced;
      RunBatches(c.(pass := Retry), env, paused, Batches(run.tally.retry, bs), 0, 0)
    else Done(run)
  }

  /** Why `startGeneration` returned before doing anything (App.tsx:132-140). */
  datatype Refusal = NoApiKey | FilesNotReady | NothingUploaded

  datatype StartResult = Refused(reason: Refusal) | Finished(app: App) | Hung(app: App)

  /** `apiKeys[0]` is a non-empty string. */
  predicate HasFirstKey(keys: seq<string>) {
    |keys| > 0 && keys[0] != ""
  }

  /** The component state a run leaves behind. */
  function Publish(app: App, run: Run): App {
    app.(staged := run.staged, results := run.tally.results, progress := run.progress,
         isGenerating := run.isGenerating, isPaused := false)
  }

  /** The run as it starts: the pause flag cleared, counters at zero, every
      key's count at zero. */
  function InitialRun(app: App, keyCount: nat, env: Env): Run
    requires keyCount > 0
  {
    Run(app.staged, Tally(app.results, 0, 0, []), app.progress, Start(keyCount, env.startTime), true, false, 0)
  }

  /** The context of the primary pass. */
  function PrimaryCtx(app: App, controls: ControlSettings): Ctx {
    Ctx(Primary, controls.activeTab, |ReadyFiles(app.staged)|, app.isPaused)
  }

  /** The primary pass over the batches of the ready files (App.tsx:281). */
  function PrimaryPass(app: App, keys: seq<string>, controls: ControlSettings, env: Env): (r: PassEnd)
    requires |keys| > 0
    ensures Valid(r.run.limiter) && |r.run.limiter.counts| == |keys|
  {
    var bs := EffectiveBatchSize(controls.batchSize);
    RunBatches(PrimaryCtx(app, controls), env, InitialRun(app, |keys|, env), Batches(ReadyFiles(app.staged), bs), 0, 0)
  }

  /** `startGeneration`. `app.isPaused` is the pause flag the run captures
      when it is started. */
  function StartGeneration(app: App, keys: seq<string>, controls: ControlSettings, env: Env): (r: StartResult)
    ensures r.Refused? <==> !HasFirstKey(keys) || |ReadyFiles(app.staged)| == 0
    ensures r.Finished? ==> !r.app.isPaused && (r.app.progress.status.Stopped? || r.app.progress.status.Complete?)
    ensures r.Finished? && r.app.progress.status.Complete? ==>
              r.app.completionOpen && r.app.completion.total == |ReadyFiles(app.staged)| && !r.app.isGenerating
  {
    if !HasFirstKey(keys) then Refused(NoApiKey)
    else
      var total := |ReadyFiles(app.staged)|;
      if total == 0 then Refused(if |app.staged| > 0 then FilesNotReady else NothingUploaded)
      else
        match PrimaryPass(app, keys, controls, env)
        case Stalled(r) => Hung(Publish(app, r))
        case Done(r1) =>
          match RetryPass(PrimaryCtx(app, controls), env, r1, EffectiveBatchSize(controls.batchSize))
          case Stalled(r) => Hung(Publish(app, r))
          case Done(r) =>
            if r.stopped then Finished(Publish(app, r).(progress := r.progress.(status := Stopped)))
            else
              var s := r.tally.success;
              Finished(Publish(app, r).(isGenerating := false,
                                        progress := Progress(Complete(s, total), total, total),
                                        completion := Stats(s, total),
                                        completionOpen := true))
  }

  /** What `handleRegenerate` reports. */
  datatype RegenNotice = RegenNoKey | MissingData | Regenerated(filename: string) | RegenFailed(message: string)

  /** `{ ...item, ...newMetadata, mode }`: every field the answer carries
      replaces the old one, and the mode is the current tab. */
  function Merge(item: GeneratedMetadata, resp: Response, mode: Tab): GeneratedMetadata {
    item.(title := if resp.title.Some? then resp.title else item.title,
          description := if resp.description.Some? then resp.description else item.description,
          keywords := if resp.keywords.Some? then resp.keywords else item.keywords,
          category := if resp.category.Some? then resp.category else item.category,
          mode := mode)
  }

  /** `handleRegenerate(index)`, with `outcome` the answer of a call made with
      `apiKeys[0]`. */
  function Regenerate(results: seq<GeneratedMetadata>, keys: seq<string>, mode: Tab, index: int, outcome: Outcome): (r: (seq<GeneratedMetadata>, RegenNotice))
    ensures |r.0| == |results|
    ensures forall j :: 0 <= j < |results| && j != index ==> r.0[j] == results[j]
    ensures r.1.Regenerated? <==> HasFirstKey(keys) && 0 <= index < |results| && results[index].apiData.Some? && outcome.Resolved?
    ensures !r.1.Regenerated? ==> r.0 == results
    ensures r.1.Regenerated? ==> r.0[index] == Merge(results[index], outcome.response, mode)
  {
    if !HasFirstKey(keys) then (results, RegenNoKey)
    else if !(0 <= index < |results|) || results[index].apiData.None? then (results, MissingData)
    else
      match outcome
      case Resolved(resp) => (results[index := Merge(results[index], resp, mode)], Regenerated(results[index].filename))
      case Rejected(msg) => (results, RegenFailed(msg))
  }
}

=== FILE: generation_facts.dfy ===
/** What a generation run guarantees: the properties of the per-file
    reference accounting, the fact that batching, key assignment and the
    "processing" marks leave no trace in what a pass accounts, and the
    end states of `startGeneration`. */
module GenerationFacts {

  import opened Wrappers
  import opened Lists
  import opened Types
  import opened StagedList
  import opened RateLimiter
  import opened Batching
  import opened Generation

  // ---------------------------------------------------------------------
  // The per-file reference

  /** The files of `fs` whose answer is a success, in order. */
  function Successes(c: Ctx, env: Env, fs: seq<StagedFile>, pos: nat): (r: seq<StagedFile>)
    ensures |r| <= |fs|
    ensures forall x :: x in r ==> x in fs
    decreases |fs|
  {
    if |fs| == 0 then []
    else (if env.outcome(c.pass, pos).Resolved? then [fs[0]] else []) + Successes(c, env, fs[1..], pos + 1)
  }

  /** The files of `fs` whose answer is a failure, in order. */
  function Failures(c: Ctx, env: Env, fs: seq<StagedFile>, pos: nat): (r: seq<StagedFile>)
    ensures |r| <= |fs|
    ensures forall x :: x in r ==> x in fs
    decreases |fs|
  {
    if |fs| == 0 then []
    else (if env.outcome(c.pass, pos).Rejected? then [fs[0]] else []) + Failures(c, env, fs[1..], pos + 1)
  }

  /** The records of the successful answers, in order. */
  function SuccessRecords(c: Ctx, env: Env, fs: seq<StagedFile>, pos: nat): seq<GeneratedMetadata>
    decreases |fs|
  {
    if |fs| == 0 then []
    else
      (match env.outcome(c.pass, pos)
       case Resolved(resp) => [Record(resp, fs[0], c.mode)]
       case Rejected(_) => [])
      + SuccessRecords(c, env, fs[1..], pos + 1)
  }

  /** One record per file: the answer's record, or the error record. */
  function AnswerRecords(c: Ctx, env: Env, fs: seq<StagedFile>, pos: nat): seq<GeneratedMetadata>
    decreases |fs|
  {
    if |fs| == 0 then []
    else
      [match env.outcome(c.pass, pos)
       case Resolved(resp) => Record(resp, fs[0], c.mode)
       case Rejected(msg) => ErrorRecord(msg, fs[0], c.mode)]
      + AnswerRecords(c, env, fs[1..], pos + 1)
  }

  /** Every file either succeeds or fails, and there are as many success
      records as successes. */
  lemma {:induction false} SuccessesAndFailures(c: Ctx, env: Env, fs: seq<StagedFile>, pos: nat)
    ensures |Successes(c, env, fs, pos)| + |Failures(c, env, fs, pos)| == |fs|
    ensures |SuccessRecords(c, env, fs, pos)| == |Successes(c, env, fs, pos)|
    ensures IdSet(fs) == IdSet(Successes(c, env, fs, pos)) + IdSet(Failures(c, env, fs, pos))
    decreases |fs|
  {
    if |fs| > 0 {
      SuccessesAndFailures(c, env, fs[1..], pos + 1);
      var s, f := Successes(c, env, fs[1..], pos + 1), Failures(c, env, fs[1..], pos + 1);
      assert IdSet(fs) == {fs[0].id} + IdSet(fs[1..]) by {
        forall x | x in IdSet(fs) ensures x in {fs[0].id} + IdSet(fs[1..]) {
          var k :| 0 <= k < |fs| && fs[k].id == x;
          if k > 0 { assert fs[1..][k - 1] == fs[k]; }
        }
        forall x | x in IdSet(fs[1..]) ensures x in IdSet(fs) {
          var k :| 0 <= k < |fs[1..]| && fs[1..][k].id == x;
          assert fs[k + 1] == fs[1..][k];
        }
      }
      if env.outcome(c.pass, pos).Resolved? {
        IdSetCons(fs[0], s);
        assert Successes(c, env, fs, pos) == [fs[0]] + s;
        assert Failures(c, env, fs, pos) == f;
      } else {
        IdSetCons(fs[0], f);
        assert Failures(c, env, fs, pos) == [fs[0]] + f;
        assert Successes(c, env, fs, pos) == s;
      }
    }
  }

  lemma IdSetCons(x: StagedFile, xs: seq<StagedFile>)
    ensures IdSet([x] + xs) == {x.id} + IdSet(xs)
  {
    var ys := [x] + xs;
    forall y | y in IdSet(ys) ensures y in {x.id} + IdSet(xs) {
      var k :| 0 <= k < |ys| && ys[k].id == y;
      if k > 0 {
        assert ys[k] == xs[k - 1];
        assert xs[k - 1].id in IdSet(xs);
      }
    }
    forall y | y in {x.id} + IdSet(xs) ensures y in IdSet(ys) {
      if y == x.id {
        assert ys[0].id in IdSet(ys);
      } else {
        var k :| 0 <= k < |xs| && xs[k].id == y;
        assert ys[k + 1] == xs[k];
        assert ys[k + 1].id in IdSet(ys);
      }
    }
  }

  /** The primary-pass accounting of a list of files: each is processed once;
      each success adds one record and one to the success count; each failure
      joins the retry queue, in order. */
  lemma {:induction false} TallyPrimary(c: Ctx, env: Env, t: Tally, fs: seq<StagedFile>, pos: nat)
    requires c.pass == Primary
    ensures var r := TallyFiles(c, env, t, fs, pos);
            && r.processed == t.processed + |fs|
            && r.success == t.success + |Successes(c, env, fs, pos)|
            && r.retry == t.retry + Failures(c, env, fs, pos)
            && r.results == t.results + SuccessRecords(c, env, fs, pos)
    decreases |fs|
  {
    if |fs| > 0 {
      var t1 := TallyOne(c, t, fs[0], env.outcome(c.pass, pos));
      TallyPrimary(c, env, t1, fs[1..], pos + 1);
      match env.outcome(c.pass, pos)
      case Resolved(resp) =>
        assert t.results + [Record(resp, fs[0], c.mode)] + SuccessRecords(c, env, fs[1..], pos + 1)
            == t.results + SuccessRecords(c, env, fs, pos);
      case Rejected(_) =>
        assert t.retry + [fs[0]] + Failures(c, env, fs[1..], pos + 1) == t.retry + Failures(c, env, fs, pos);
    }
  }

  /** The retry-pass accounting of a list of files: the counters and the
      queue are left alone; each file adds exactly one record, its answer or
      its error record; each success adds one to the success count. */
  lemma {:induction false} TallyRetry(c: Ctx, env: Env, t: Tally, fs: seq<StagedFile>, pos: nat)
    requires c.pass == Retry
    ensures var r := TallyFiles(c, env, t, fs, pos);
            && r.processed == t.processed
            && r.success == t.success + |Successes(c, env, fs, pos)|
            && r.retry == t.retry
            && r.results == t.results + AnswerRecords(c, env, fs, pos)
    decreases |fs|
  {
    if |fs| > 0 {
      var t1 := TallyOne(c, t, fs[0], env.outcome(c.pass, pos));
      TallyRetry(c, env, t1, fs[1..], pos + 1);
      var x := AnswerRecords(c, env, fs, pos)[0];
      assert t1.results == t.results + [x];
      assert t.results + [x] + AnswerRecords(c, env, fs[1..], pos + 1) == t.results + AnswerRecords(c, env, fs, pos);
    }
  }

  /** The records of the retry pass match its files one for one. */
  lemma {:induction false} AnswerRecordsAt(c: Ctx, env: Env, fs: seq<StagedFile>, pos: nat, j: nat)
    requires j < |fs|
    ensures |AnswerRecords(c, env, fs, pos)| == |fs|
    ensures AnswerRecords(c, env, fs, pos)[j] ==
              match env.outcome(c.pass, pos + j)
              case Resolved(resp) => Record(resp, fs[j], c.mode)
              case Rejected(msg) => ErrorRecord(msg, fs[j], c.mode)
    decreases |fs|
  {
    AnswerRecordsLength(c, env, fs, pos);
    if j > 0 {
      AnswerRecordsAt(c, env, fs[1..], pos + 1, j - 1);
    }
  }

  lemma {:induction false} AnswerRecordsLength(c: Ctx, env: Env, fs: seq<StagedFile>, pos: nat)
    ensures |AnswerRecords(c, env, fs, pos)| == |fs|
    decreases |fs|
  {
    if |fs| > 0 {
      AnswerRecordsLength(c, env, fs[1..], pos + 1);
    }
  }

  lemma {:induction false} TallyFilesAppend(c: Ctx, env: Env, t: Tally, a: seq<StagedFile>, b: seq<StagedFile>, pos: nat)
    ensures TallyFiles(c, env, t, a + b, pos) == TallyFiles(c, env, TallyFiles(c, env, t, a, pos), b, pos + |a|)
    decreases |a|
  {
    if |a| > 0 {
      assert (a + b)[0] == a[0] && (a + b)[1..] == a[1..] + b;
      TallyFilesAppend(c, env, TallyOne(c, t, a[0], env.outcome(c.pass, pos)), a[1..], b, pos + 1);
    } else {
      assert a + b == b;
    }
  }

  lemma {:induction false} StagedFilesAppend(c: Ctx, env: Env, s: seq<StagedFile>, a: seq<StagedFile>, b: seq<StagedFile>, pos: nat)
    ensures StagedFiles(c, env, s, a + b, pos) == StagedFiles(c, env, StagedFiles(c, env, s, a, pos), b, pos + |a|)
    decreases |a|
  {
    if |a| > 0 {
      assert (a + b)[0] == a[0] && (a + b)[1..] == a[1..] + b;
      StagedFilesAppend(c, env, StagedOne(c, s, a[0], env.outcome(c.pass, pos)), a[1..], b, pos + 1);
    } else {
      assert a + b == b;
    }
  }

  // ---------------------------------------------------------------------
  // Batching is invisible

  lemma StagedOneAfterMark(c: Ctx, s: seq<StagedFile>, f: StagedFile, o: Outcome)
    ensures StagedOne(c, SetStatus(s, f.id, Processing), f, o) == StagedOne(c, s, f, o)
  {
    if o.Resolved? || c.pass == Retry {
      RemoveAfterSetStatus(s, f.id, Processing);
    } else {
      SetStatusTwice(s, f.id, Processing, Error);
    }
  }

  lemma StagedOneCommutesWithMarkAll(c: Ctx, s: seq<StagedFile>, f: StagedFile, o: Outcome, fs: seq<StagedFile>)
    requires f.id !in Ids(fs)
    ensures StagedOne(c, MarkAll(s, fs, Processing), f, o) == MarkAll(StagedOne(c, s, f, o), fs, Processing)
  {
    if o.Resolved? || c.pass == Retry {
      RemoveCommutesWithMarkAll(s, f.id, fs, Processing);
    } else {
      SetStatusCommutesWithMarkAll(s, f.id, Error, fs, Processing);
    }
  }

  /** Marking a batch as processing before accounting its answers makes no
      difference once the answers are accounted, as long as the batch's ids
      are distinct. */
  lemma {:induction false} MarkThenAccount(c: Ctx, env: Env, s: seq<StagedFile>, fs: seq<StagedFile>, pos: nat)
    requires NoDup(Ids(fs))
    ensures StagedFiles(c, env, MarkAll(s, fs, Processing), fs, pos) == StagedFiles(c, env, s, fs, pos)
    decreases |fs|
  {
    if |fs| > 0 {
      var f, rest := fs[0], fs[1..];
      var o := env.outcome(c.pass, pos);
      assert Ids(rest) == Ids(fs)[1..];
      assert f.id !in Ids(rest);
      var x := SetStatus(s, f.id, Processing);
      StagedOneCommutesWithMarkAll(c, x, f, o, rest);
      StagedOneAfterMark(c, s, f, o);
      MarkThenAccount(c, env, StagedOne(c, s, f, o), rest, pos + 1);
    }
  }

  /** One turn of the batch loop. */
  lemma RunBatchesCons(c: Ctx, env: Env, run: Run, batches: seq<seq<StagedFile>>, k: nat, pos: nat)
    requires Valid(run.limiter) && !run.stopped && |batches| > 0
    ensures var step := Step(c, env, run, batches[0], k, pos);
            && (step.Stall? ==> RunBatches(c, env, run, batches, k, pos) == Stalled(step.run))
            && (step.Next? ==> RunBatches(c, env, run, batches, k, pos) == RunBatches(c, env, step.run, batches[1..], k + 1, pos + |batches[0]|))
  {
  }

  /** A batch that is dispatched and not interrupted by Clear All accounts
      all of its answers. */
  lemma StepWithoutClear(c: Ctx, env: Env, run: Run, b: seq<StagedFile>, k: nat, pos: nat)
    requires Valid(run.limiter) && !c.paused && !env.clearedInFlight(c.pass, k)
    requires Step(c, env, run, b, k, pos).Next?
    ensures var r := Step(c, env, run, b, k, pos).run;
            && r.stopped == run.stopped
            && r.tally == TallyFiles(c, env, run.tally, b, pos)
            && r.staged == StagedFiles(c, env, MarkAll(run.staged, b, Processing), b, pos)
            && r.dispatched == run.dispatched + |b|
  {
  }

  lemma StepProgress(c: Ctx, env: Env, run: Run, b: seq<StagedFile>, k: nat, pos: nat)
    requires Valid(run.limiter) && !c.paused && !env.clearedInFlight(c.pass, k) && c.pass == Primary
    requires Step(c, env, run, b, k, pos).Next?
    ensures var r := Step(c, env, run, b, k, pos).run;
            r.progress == Progress(Generated(r.tally.processed, c.total, r.tally.success), r.tally.processed, c.total)
  {
  }

  /** The first batch of a pass that ends, when no Clear All interrupts it. */
  lemma PassHead(c: Ctx, env: Env, run: Run, batches: seq<seq<StagedFile>>, k: nat, pos: nat, out: Run) returns (r1: Run)
    requires Valid(run.limiter) && !c.paused && !run.stopped && |batches| > 0
    requires !env.clearedInFlight(c.pass, k)
    requires RunBatches(c, env, run, batches, k, pos) == Done(out)
    ensures Valid(r1.limiter) && !r1.stopped
    ensures RunBatches(c, env, r1, batches[1..], k + 1, pos + |batches[0]|) == Done(out)
    ensures r1.tally == TallyFiles(c, env, run.tally, batches[0], pos)
    ensures r1.staged == StagedFiles(c, env, MarkAll(run.staged, batches[0], Processing), batches[0], pos)
    ensures r1.dispatched == run.dispatched + |batches[0]|
  {
    RunBatchesCons(c, env, run, batches, k, pos);
    StepWithoutClear(c, env, run, batches[0], k, pos);
    r1 := Step(c, env, run, batches[0], k, pos).run;
  }

  /** The accounting of a pass done batch by batch. */
  function TallyBatches(c: Ctx, env: Env, t: Tally, batches: seq<seq<StagedFile>>, pos: nat): Tally
    decreases |batches|
  {
    if |batches| == 0 then t
    else TallyBatches(c, env, TallyFiles(c, env, t, batches[0], pos), batches[1..], pos + |batches[0]|)
  }

  /** The staged-list updates of a pass done batch by batch, with each batch
      marked as processing before its answers arrive. */
  function StagedBatches(c: Ctx, env: Env, s: seq<StagedFile>, batches: seq<seq<StagedFile>>, pos: nat): seq<StagedFile>
    decreases |batches|
  {
    if |batches| == 0 then s
    else StagedBatches(c, env, StagedFiles(c, env, MarkAll(s, batches[0], Processing), batches[0], pos), batches[1..], pos + |batches[0]|)
  }

  /** A pass that no Clear All interrupts and that is not parked, when it
      ends, ends in the batch-by-batch accounting of its batches. */
  lemma {:induction false} PassFollowsBatches(c: Ctx, env: Env, run: Run, batches: seq<seq<StagedFile>>, k: nat, pos: nat, out: Run)
    requires Valid(run.limiter) && !c.paused && !run.stopped
    requires forall j :: k <= j < k + |batches| ==> !env.clearedInFlight(c.pass, j)
    requires RunBatches(c, env, run, batches, k, pos) == Done(out)
    ensures !out.stopped
    ensures out.tally == TallyBatches(c, env, run.tally, batches, pos)
    ensures out.staged == StagedBatches(c, env, run.staged, batches, pos)
    ensures out.dispatched == run.dispatched + |Flatten(batches)|
    decreases |batches|
  {
    if |batches| > 0 {
      assert !env.clearedInFlight(c.pass, k);
      var r1 := PassHead(c, env, run, batches, k, pos, out);
      PassFollowsBatches(c, env, r1, batches[1..], k + 1, pos + |batches[0]|, out);
      FlattenCons(batches);
    }
  }

  lemma {:induction false} TallyBatchesFlat(c: Ctx, env: Env, t: Tally, batches: seq<seq<StagedFile>>, pos: nat)
    ensures TallyBatches(c, env, t, batches, pos) == TallyFiles(c, env, t, Flatten(batches), pos)
    decreases |batches|
  {
    if |batches| > 0 {
      TallyBatchesFlat(c, env, TallyFiles(c, env, t, batches[0], pos), batches[1..], pos + |batches[0]|);
      FlattenCons(batches);
      TallyFilesAppend(c, env, t, batches[0], Flatten(batches[1..]), pos);
    }
  }

  lemma {:induction false} StagedBatchesFlat(c: Ctx, env: Env, s: seq<StagedFile>, batches: seq<seq<StagedFile>>, pos: nat)
    requires forall b :: b in batches ==> NoDup(Ids(b))
    ensures StagedBatches(c, env, s, batches, pos) == StagedFiles(c, env, s, Flatten(batches), pos)
    decreases |batches|
  {
    if |batches| > 0 {
      var b, rest := batches[0], batches[1..];
      var s1 := StagedFiles(c, env, s, b, pos);
      assert StagedBatches(c, env, s, batches, pos) == StagedBatches(c, env, s1, rest, pos + |b|) by {
        assert b in batches;
        MarkThenAccount(c, env, s, b, pos);
      }
      assert StagedBatches(c, env, s1, rest, pos + |b|) == StagedFiles(c, env, s1, Flatten(rest), pos + |b|) by {
        forall b' | b' in rest ensures NoDup(Ids(b')) {
          assert b' in batches;
        }
        StagedBatchesFlat(c, env, s1, rest, pos + |b|);
      }
      assert StagedFiles(c, env, s, Flatten(batches), pos) == StagedFiles(c, env, s1, Flatten(rest), pos + |b|) by {
        FlattenCons(batches);
        StagedFilesAppend(c, env, s, b, Flatten(rest), pos);
      }
    }
  }

  /** A pass that no Clear All interrupts, that is not parked and that ends
      in `out`, accounts exactly what the per-file reference accounts over
      the concatenation of its batches, leaves the staged list exactly as the
      per-file reference does, and dispatches every file once. */
  lemma PassMatchesReference(c: Ctx, env: Env, run: Run, batches: seq<seq<StagedFile>>, k: nat, pos: nat, out: Run)
    requires Valid(run.limiter) && !c.paused && !run.stopped
    requires forall j :: k <= j < k + |batches| ==> !env.clearedInFlight(c.pass, j)
    requires forall b :: b in batches ==> NoDup(Ids(b))
    requires RunBatches(c, env, run, batches, k, pos) == Done(out)
    ensures !out.stopped
    ensures out.tally == TallyFiles(c, env, run.tally, Flatten(batches), pos)
    ensures out.staged == StagedFiles(c, env, run.staged, Flatten(batches), pos)
    ensures out.dispatched == run.dispatched + |Flatten(batches)|
  {
    PassFollowsBatches(c, env, run, batches, k, pos, out);
    TallyBatchesFlat(c, env, run.tally, batches, pos);
    StagedBatchesFlat(c, env, run.staged, batches, pos);
  }

  /** After a primary pass that dispatched at least one batch and was not
      interrupted, the progress shows the final counters of that pass. */
  lemma {:induction false} PassProgress(c: Ctx, env: Env, run: Run, batches: seq<seq<StagedFile>>, k: nat, pos: nat)
    requires Valid(run.limiter) && !c.paused && !run.stopped && c.pass == Primary && |batches| > 0
    requires forall j :: k <= j < k + |batches| ==> !env.clearedInFlight(c.pass, j)
    requires RunBatches(c, env, run, batches, k, pos).Done?
    ensures var r := RunBatches(c, env, run, batches, k, pos).run;
            r.progress == Progress(Generated(r.tally.processed, c.total, r.tally.success), r.tally.processed, c.total)
    decreases |batches|
  {
    var b := batches[0];
    assert !env.clearedInFlight(c.pass, k);
    RunBatchesCons(c, env, run, batches, k, pos);
    var step := Step(c, env, run, b, k, pos);
    StepProgress(c, env, run, b, k, pos);
    if |batches| > 1 {
      PassProgress(c, env, step.run, batches[1..], k + 1, pos + |b|);
    }
  }

  lemma {:induction false} BatchesKeepNoDup(xs: seq<StagedFile>, bs: nat)
    requires bs >= 1 && NoDup(Ids(xs))
    ensures forall b :: b in Batches(xs, bs) ==> NoDup(Ids(b))
    decreases |xs|
  {
    if |xs| > bs {
      NoDupSplit(Ids(xs), bs);
      assert Ids(xs[..bs]) == Ids(xs)[..bs];
      assert Ids(xs[bs..]) == Ids(xs)[bs..];
      BatchesKeepNoDup(xs[bs..], bs);
    }
  }

  lemma {:induction false} FailuresKeepNoDup(c: Ctx, env: Env, fs: seq<StagedFile>, pos: nat)
    requires NoDup(Ids(fs))
    ensures NoDup(Ids(Failures(c, env, fs, pos)))
    decreases |fs|
  {
    if |fs| > 0 {
      assert Ids(fs) == [fs[0].id] + Ids(fs[1..]);
      NoDupCons(fs[0].id, Ids(fs[1..]));
      FailuresKeepNoDup(c, env, fs[1..], pos + 1);
      var rest := Failures(c, env, fs[1..], pos + 1);
      if env.outcome(c.pass, pos).Rejected? {
        assert Ids([fs[0]] + rest) == [fs[0].id] + Ids(rest);
        forall k | 0 <= k < |rest| ensures rest[k].id != fs[0].id {
          assert rest[k] in fs[1..];
          var m :| 0 <= m < |fs[1..]| && fs[1..][m] == rest[k];
          assert Ids(fs)[m + 1] == rest[k].id;
        }
        NoDupCons(fs[0].id, Ids(rest));
      }
    }
  }

  // ---------------------------------------------------------------------
  // What the passes do to the staged list

  /** Every entry whose id is in `ids` is marked as failed. */
  predicate FailedMarked(staged: seq<StagedFile>, ids: set<FileId>) {
    forall k :: 0 <= k < |staged| && staged[k].id in ids ==> staged[k].status == Error
  }

  lemma RemoveIdKeepsMarked(staged: seq<StagedFile>, id: FileId, ids: set<FileId>)
    requires FailedMarked(staged, ids)
    ensures FailedMarked(RemoveId(staged, id), ids)
  {
    var r := RemoveId(staged, id);
    RemoveIdElements(staged, id);
    forall k | 0 <= k < |r| && r[k].id in ids ensures r[k].status == Error {
      assert r[k] in staged;
    }
  }

  /** A pass touches only the entries of its own files. */
  lemma {:induction false} StagedFilesKeepsOthers(c: Ctx, env: Env, s: seq<StagedFile>, fs: seq<StagedFile>, pos: nat, ids: set<FileId>)
    requires forall f :: f in fs ==> f.id in ids
    ensures Others(StagedFiles(c, env, s, fs, pos), ids) == Others(s, ids)
    decreases |fs|
  {
    if |fs| > 0 {
      assert fs[0] in fs;
      var o := env.outcome(c.pass, pos);
      if o.Resolved? || c.pass == Retry {
        OthersAfterRemove(s, fs[0].id, ids);
      } else {
        OthersAfterSetStatus(s, fs[0].id, Error, ids);
      }
      StagedFilesKeepsOthers(c, env, StagedOne(c, s, fs[0], o), fs[1..], pos + 1, ids);
    }
  }

  /** In the primary pass, a success removes the file for good and a failure
      marks every entry with its id as failed. */
  lemma {:induction false} PrimaryStaged(c: Ctx, env: Env, s: seq<StagedFile>, fs: seq<StagedFile>, pos: nat, gone: set<FileId>, failed: set<FileId>)
    requires c.pass == Primary && NoneWithId(s, gone) && FailedMarked(s, failed)
    ensures NoneWithId(StagedFiles(c, env, s, fs, pos), gone + IdSet(Successes(c, env, fs, pos)))
    ensures FailedMarked(StagedFiles(c, env, s, fs, pos), failed + IdSet(Failures(c, env, fs, pos)))
    decreases |fs|
  {
    if |fs| > 0 {
      var f := fs[0];
      var o := env.outcome(c.pass, pos);
      var s1 := StagedOne(c, s, f, o);
      var succ, fail := Successes(c, env, fs[1..], pos + 1), Failures(c, env, fs[1..], pos + 1);
      if o.Resolved? {
        RemoveIdKeepsNone(s, f.id, gone);
        RemoveIdKeepsMarked(s, f.id, failed);
        PrimaryStaged(c, env, s1, fs[1..], pos + 1, gone + {f.id}, failed);
        IdSetCons(f, succ);
        assert Successes(c, env, fs, pos) == [f] + succ;
        assert Failures(c, env, fs, pos) == fail;
      } else {
        assert FailedMarked(s1, failed + {f.id});
        PrimaryStaged(c, env, s1, fs[1..], pos + 1, gone, failed + {f.id});
        IdSetCons(f, fail);
        assert Failures(c, env, fs, pos) == [f] + fail;
        assert Successes(c, env, fs, pos) == succ;
      }
    }
  }

  /** The retry pass removes every one of its files. */
  lemma {:induction false} RetryStaged(c: Ctx, env: Env, s: seq<StagedFile>, fs: seq<StagedFile>, pos: nat, gone: set<FileId>)
    requires c.pass == Retry && NoneWithId(s, gone)
    ensures NoneWithId(StagedFiles(c, env, s, fs, pos), gone + IdSet(fs))
    decreases |fs|
  {
    if |fs| > 0 {
      RemoveIdKeepsNone(s, fs[0].id, gone);
      RetryStaged(c, env, RemoveId(s, fs[0].id), fs[1..], pos + 1, gone + {fs[0].id});
      assert fs == [fs[0]] + fs[1..];
      IdSetCons(fs[0], fs[1..]);
    }
  }
}

=== FILE: generation_runs.dfy ===
/** What a whole run of `startGeneration` (App.tsx:131-306) guarantees: no key
    ever goes over its budget, a run that is not parked and whose batches fit
    a key always ends, Clear All leaves a cleared state behind, and a run that
    nobody interrupts ends with every ready file processed, answered and
    counted exactly once. */
module GenerationRuns {

  import opened Wrappers
  import opened Lists
  import opened Types
  import opened StagedList
  import opened RateLimiter
  import opened Batching
  import opened Generation
  import opened GenerationFacts

  // ---------------------------------------------------------------------
  // One batch

  /** A batch that is not parked is dispatched exactly when a key can carry
      it at all; a longer batch keeps the assignment loop waiting forever. */
  lemma StepNext(c: Ctx, env: Env, run: Run, b: seq<StagedFile>, k: nat, pos: nat)
    requires Valid(run.limiter) && !c.paused
    ensures Step(c, env, run, b, k, pos).Next? <==> |b| <= REQUEST_PER_MINUTE
  {
    var clock := env.clock(c.pass, k);
    AssignKeepsBudget(run.limiter, clock.now, clock.wake, |b|);
  }

  lemma StepKeepsBudget(c: Ctx, env: Env, run: Run, b: seq<StagedFile>, k: nat, pos: nat)
    requires Valid(run.limiter) && WithinBudget(run.limiter)
    ensures WithinBudget(Step(c, env, run, b, k, pos).run.limiter)
  {
    var clock := env.clock(c.pass, k);
    AssignKeepsBudget(run.limiter, clock.now, clock.wake, |b|);
  }

  /** The state Clear All leaves in a run: both lists empty, progress at
      'Ready.', no run shown as active. */
  predicate Cleared(run: Run) {
    run.staged == [] && run.tally.results == [] && run.progress == IDLE_PROGRESS && !run.isGenerating
  }

  /** Only Clear All stops a run, so a batch that ends stopped ends cleared. */
  lemma StepStopsCleared(c: Ctx, env: Env, run: Run, b: seq<StagedFile>, k: nat, pos: nat)
    requires Valid(run.limiter) && !run.stopped
    ensures var r := Step(c, env, run, b, k, pos).run;
            r.stopped ==> Cleared(r)
  {
  }

  /** A batch stops the run only when Clear All arrives while it is parked or
      in flight. */
  lemma StepStopsOnlyOnClear(c: Ctx, env: Env, run: Run, b: seq<StagedFile>, k: nat, pos: nat)
    requires Valid(run.limiter) && !run.stopped
    requires !env.clearedInFlight(c.pass, k) && (c.paused ==> !env.clearedWhileParked)
    ensures !Step(c, env, run, b, k, pos).run.stopped
  {
  }

  // ---------------------------------------------------------------------
  // One pass

  /** A property of the run that every batch keeps, batch `j` only when
      `ok(j)` holds, still holds when the pass ends, whether it ends done or
      waiting. */
  lemma {:induction false} RunBatchesInvariant(P: Run -> bool, ok: nat -> bool, c: Ctx, env: Env, run: Run,
                                              batches: seq<seq<StagedFile>>, k: nat, pos: nat)
    requires Valid(run.limiter) && P(run)
    requires forall j :: k <= j < k + |batches| ==> ok(j)
    requires forall r: Run, b: seq<StagedFile>, j: nat, p: nat ::
               Valid(r.limiter) && !r.stopped && P(r) && ok(j) ==> P(Step(c, env, r, b, j, p).run)
    ensures P(RunBatches(c, env, run, batches, k, pos).run)
    decreases |batches|
  {
    var out := RunBatches(c, env, run, batches, k, pos);
    if |batches| > 0 && !run.stopped {
      var s := Step(c, env, run, batches[0], k, pos);
      assert ok(k);
      assert P(s.run);
      if s.Next? {
        var rest := RunBatches(c, env, s.run, batches[1..], k + 1, pos + |batches[0]|);
        RunBatchesInvariant(P, ok, c, env, s.run, batches[1..], k + 1, pos + |batches[0]|);
        assert out == rest by {
          RunBatchesCons(c, env, run, batches, k, pos);
        }
        SameEnd(P, out, rest);
      } else {
        assert out == Stalled(s.run) by {
          RunBatchesCons(c, env, run, batches, k, pos);
        }
        SameEnd(P, out, Stalled(s.run));
      }
    }
  }

  lemma SameEnd(P: Run -> bool, a: PassEnd, b: PassEnd)
    requires a == b && P(b.run)
    ensures P(a.run)
  {
  }

  /** No key ever goes over its budget during a pass. */
  lemma RunBatchesKeepsBudget(c: Ctx, env: Env, run: Run, batches: seq<seq<StagedFile>>, k: nat, pos: nat)
    requires Valid(run.limiter) && WithinBudget(run.limiter)
    ensures WithinBudget(RunBatches(c, env, run, batches, k, pos).run.limiter)
  {
    var P := (r: Run) => WithinBudget(r.limiter);
    forall r: Run, b: seq<StagedFile>, j: nat, p: nat | Valid(r.limiter) && !r.stopped && P(r)
      ensures P(Step(c, env, r, b, j, p).run)
    {
      StepKeepsBudget(c, env, r, b, j, p);
    }
    RunBatchesInvariant(P, _ => true, c, env, run, batches, k, pos);
  }

  /** A pass that ends stopped leaves the cleared state behind. */
  lemma RunBatchesStopsCleared(c: Ctx, env: Env, run: Run, batches: seq<seq<StagedFile>>, k: nat, pos: nat)
    requires Valid(run.limiter) && (run.stopped ==> Cleared(run))
    ensures var r := RunBatches(c, env, run, batches, k, pos).run;
            r.stopped ==> Cleared(r)
  {
    var P := (r: Run) => r.stopped ==> Cleared(r);
    forall r: Run, b: seq<StagedFile>, j: nat, p: nat | Valid(r.limiter) && !r.stopped && P(r)
      ensures P(Step(c, env, r, b, j, p).run)
    {
      StepStopsCleared(c, env, r, b, j, p);
    }
    RunBatchesInvariant(P, _ => true, c, env, run, batches, k, pos);
  }

  /** A pass that is not parked, and each of whose batches fits a key, never
      waits forever. */
  lemma {:induction false} RunBatchesEnds(c: Ctx, env: Env, run: Run, batches: seq<seq<StagedFile>>, k: nat, pos: nat)
    requires Valid(run.limiter) && !c.paused
    requires forall j :: 0 <= j < |batches| ==> |batches[j]| <= REQUEST_PER_MINUTE
    ensures RunBatches(c, env, run, batches, k, pos).Done?
    decreases |batches|
  {
    if |batches| > 0 && !run.stopped {
      RunBatchesCons(c, env, run, batches, k, pos);
      StepNext(c, env, run, batches[0], k, pos);
      var s := Step(c, env, run, batches[0], k, pos);
      RunBatchesEnds(c, env, s.run, batches[1..], k + 1, pos + |batches[0]|);
    }
  }

  /** A pass that no Clear All reaches is never stopped. */
  lemma RunBatchesStopsOnlyOnClear(c: Ctx, env: Env, run: Run, batches: seq<seq<StagedFile>>, k: nat, pos: nat)
    requires Valid(run.limiter) && !run.stopped
    requires forall j :: k <= j < k + |batches| ==> !env.clearedInFlight(c.pass, j)
    requires c.paused ==> !env.clearedWhileParked
    ensures !RunBatches(c, env, run, batches, k, pos).run.stopped
  {
    var P := (r: Run) => !r.stopped;
    var ok := (j: nat) => !env.clearedInFlight(c.pass, j);
    forall r: Run, b: seq<StagedFile>, j: nat, p: nat | Valid(r.limiter) && !r.stopped && P(r) && ok(j)
      ensures P(Step(c, env, r, b, j, p).run)
    {
      StepStopsOnlyOnClear(c, env, r, b, j, p);
    }
    RunBatchesInvariant(P, ok, c, env, run, batches, k, pos);
  }

  // ---------------------------------------------------------------------
  // Nothing is dispatched after Clear All

  /** A batch that is not parked and fits a key is dispatched in full, and it
      stops the run exactly when Clear All arrives while it is in flight. */
  lemma StepDispatches(c: Ctx, env: Env, run: Run, b: seq<StagedFile>, k: nat, pos: nat)
    requires Valid(run.limiter) && !c.paused && !run.stopped && |b| <= REQUEST_PER_MINUTE
    ensures var s := Step(c, env, run, b, k, pos);
            && s.Next?
            && s.run.dispatched == run.dispatched + |b|
            && (s.run.stopped <==> env.clearedInFlight(c.pass, k))
  {
    StepNext(c, env, run, b, k, pos);
  }

  /** When Clear All reaches batch `j` in flight, the pass ends stopped at
      the next batch boundary: no file after that batch is dispatched. When
      no earlier batch was cleared, exactly the files up to and including
      that batch were dispatched. */
  lemma {:induction false} ClearedBatchIsLastDispatched(c: Ctx, env: Env, run: Run, batches: seq<seq<StagedFile>>, k: nat, pos: nat, j: nat)
    requires Valid(run.limiter) && !c.paused && !run.stopped
    requires j < |batches| && env.clearedInFlight(c.pass, k + j)
    requires forall i :: 0 <= i <= j ==> |batches[i]| <= REQUEST_PER_MINUTE
    ensures var e := RunBatches(c, env, run, batches, k, pos);
            && e.Done? && e.run.stopped
            && e.run.dispatched <= run.dispatched + |Flatten(batches[..j + 1])|
    ensures (forall i :: k <= i < k + j ==> !env.clearedInFlight(c.pass, i)) ==>
              RunBatches(c, env, run, batches, k, pos).run.dispatched == run.dispatched + |Flatten(batches[..j + 1])|
    decreases j
  {
    RunBatchesCons(c, env, run, batches, k, pos);
    StepDispatches(c, env, run, batches[0], k, pos);
    var s := Step(c, env, run, batches[0], k, pos).run;
    var rest := batches[1..];
    FlattenCons(batches[..j + 1]);
    assert batches[..j + 1][1..] == rest[..j];
    if s.stopped {
      assert RunBatches(c, env, s, rest, k + 1, pos + |batches[0]|) == Done(s);
      if j == 0 {
        assert rest[..0] == [];
      } else {
        assert env.clearedInFlight(c.pass, k);
      }
    } else {
      ClearedBatchIsLastDispatched(c, env, s, rest, k + 1, pos + |batches[0]|, j - 1);
    }
  }

  /** A retry pass after a stop, or one that Clear All reaches during the
      pause between the passes, dispatches nothing. */
  lemma StoppedRetryDispatchesNothing(c: Ctx, env: Env, run: Run, bs: nat)
    requires Valid(run.limiter) && bs >= 1
    requires run.stopped || env.clearedDuringDelay
    ensures var e := RetryPass(c, env, run, bs);
            && e.Done? && e.run.dispatched == run.dispatched
            && (run.stopped ==> e == Done(run))
            && (|run.tally.retry| > 0 ==> e.run.stopped)
  {
    if |run.tally.retry| > 0 && !run.stopped {
      var announced := run.(progress := run.progress.(status := Retrying(|run.tally.retry|)));
      assert RunBatches(c.(pass := Retry), env, Clear(announced), Batches(run.tally.retry, bs), 0, 0) == Done(Clear(announced));
    }
  }

  /** Once Clear All reaches primary batch `j` in flight, the run finishes
      with 'Stopped.' and cleared lists, the primary pass dispatches no file
      after that batch and the retry pass dispatches nothing. */
  lemma ClearedRunDispatchesNoMore(app: App, keys: seq<string>, controls: ControlSettings, env: Env, j: nat)
    requires HasFirstKey(keys) && !app.isPaused
    requires EffectiveBatchSize(controls.batchSize) <= REQUEST_PER_MINUTE
    requires j < |Batches(ReadyFiles(app.staged), EffectiveBatchSize(controls.batchSize))|
    requires env.clearedInFlight(Primary, j)
    ensures var batches := Batches(ReadyFiles(app.staged), EffectiveBatchSize(controls.batchSize));
            var p := PrimaryPass(app, keys, controls, env);
            && p.Done? && p.run.stopped
            && p.run.dispatched <= |Flatten(batches[..j + 1])|
            && ((forall i :: 0 <= i < j ==> !env.clearedInFlight(Primary, i)) ==> p.run.dispatched == |Flatten(batches[..j + 1])|)
            && RetryPass(PrimaryCtx(app, controls), env, p.run, EffectiveBatchSize(controls.batchSize)) == Done(p.run)
    ensures StartGeneration(app, keys, controls, env) == Finished(StoppedApp(app))
  {
    var c := PrimaryCtx(app, controls);
    var bs := EffectiveBatchSize(controls.batchSize);
    var run0 := InitialRun(app, |keys|, env);
    var batches := Batches(ReadyFiles(app.staged), bs);
    BatchesFit(ReadyFiles(app.staged), bs);
    ClearedBatchIsLastDispatched(c, env, run0, batches, 0, 0, j);
    RunBatchesStopsCleared(c, env, run0, batches, 0, 0);
    var r1 := PrimaryPass(app, keys, controls, env).run;
    StoppedRetryDispatchesNothing(c, env, r1, bs);
    FinishedRun(app, keys, controls, env);
  }

  // ---------------------------------------------------------------------
  // The two passes of an uninterrupted run

  /** Nobody presses Clear All during the run. */
  ghost predicate NoClears(env: Env) {
    && (forall p, j :: !env.clearedInFlight(p, j))
    && !env.clearedDuringDelay
    && !env.clearedWhileParked
  }

  /** Every batch of the loop fits one key's budget. */
  lemma BatchesFit(xs: seq<StagedFile>, bs: nat)
    requires 1 <= bs <= REQUEST_PER_MINUTE || (bs >= 1 && |xs| <= REQUEST_PER_MINUTE)
    ensures forall j :: 0 <= j < |Batches(xs, bs)| ==> |Batches(xs, bs)[j]| <= REQUEST_PER_MINUTE
  {
  }

  /** The primary pass of a run that is not parked, that nobody interrupts and
      whose batches fit a key ends having processed every ready file once:
      the successes are recorded in order, the failures queued for the retry
      in order, the successful files removed from the staged list and the
      failed ones marked, and the progress shows the final counters. */
  lemma PrimaryPassAccounting(app: App, keys: seq<string>, controls: ControlSettings, env: Env)
    requires |keys| > 0 && !app.isPaused && NoClears(env)
    requires EffectiveBatchSize(controls.batchSize) <= REQUEST_PER_MINUTE
    requires NoDup(Ids(ReadyFiles(app.staged)))
    ensures PrimaryPass(app, keys, controls, env).Done?
    ensures var r := PrimaryPass(app, keys, controls, env).run;
            var c := PrimaryCtx(app, controls);
            var ready := ReadyFiles(app.staged);
            && !r.stopped
            && r.tally.processed == |ready|
            && r.tally.success == |Successes(c, env, ready, 0)|
            && r.tally.retry == Failures(c, env, ready, 0)
            && r.tally.results == app.results + SuccessRecords(c, env, ready, 0)
            && r.staged == StagedFiles(c, env, app.staged, ready, 0)
            && r.dispatched == |ready|
            && (|ready| > 0 ==> r.progress == Progress(Generated(|ready|, |ready|, r.tally.success), |ready|, |ready|))
  {
    var bs := EffectiveBatchSize(controls.batchSize);
    var ready := ReadyFiles(app.staged);
    var batches := Batches(ready, bs);
    var c := PrimaryCtx(app, controls);
    var run0 := InitialRun(app, |keys|, env);
    BatchesFit(ready, bs);
    RunBatchesEnds(c, env, run0, batches, 0, 0);
    var out := RunBatches(c, env, run0, batches, 0, 0).run;
    assert RunBatches(c, env, run0, batches, 0, 0) == Done(out);
    BatchesKeepNoDup(ready, bs);
    PassMatchesReference(c, env, run0, batches, 0, 0, out);
    BatchesFlatten(ready, bs);
    TallyPrimary(c, env, run0.tally, ready, 0);
    if |ready| > 0 {
      BatchesCount(ready, bs);
      PassProgress(c, env, run0, batches, 0, 0);
    }
  }

  /** The retry pass of a run that nobody interrupts processes each queued
      file once more: every answer adds one record, its own or the error
      record, in order; each success adds one to the success count; the
      processed count and the queue stay; and every queued file leaves the
      staged list. */
  lemma RetryPassAccounting(c: Ctx, env: Env, run: Run, bs: nat)
    requires Valid(run.limiter) && !run.stopped && !c.paused && NoClears(env)
    requires 1 <= bs <= REQUEST_PER_MINUTE || (bs >= 1 && |run.tally.retry| <= REQUEST_PER_MINUTE)
    requires NoDup(Ids(run.tally.retry))
    ensures RetryPass(c, env, run, bs).Done?
    ensures var r := RetryPass(c, env, run, bs).run;
            var rc := c.(pass := Retry);
            var retry := run.tally.retry;
            && !r.stopped
            && r.tally.processed == run.tally.processed
            && r.tally.retry == retry
            && r.tally.success == run.tally.success + |Successes(rc, env, retry, 0)|
            && r.tally.results == run.tally.results + AnswerRecords(rc, env, retry, 0)
            && r.staged == StagedFiles(rc, env, run.staged, retry, 0)
  {
    var retry := run.tally.retry;
    var rc := c.(pass := Retry);
    if |retry| > 0 {
      var batches := Batches(retry, bs);
      var run1 := run.(progress := run.progress.(status := Retrying(|retry|)));
      BatchesFit(retry, bs);
      RunBatchesEnds(rc, env, run1, batches, 0, 0);
      var out := RunBatches(rc, env, run1, batches, 0, 0).run;
      assert RunBatches(rc, env, run1, batches, 0, 0) == Done(out);
      BatchesKeepNoDup(retry, bs);
      PassMatchesReference(rc, env, run1, batches, 0, 0, out);
      BatchesFlatten(retry, bs);
      TallyRetry(rc, env, run1.tally, retry, 0);
    }
  }

  // ---------------------------------------------------------------------
  // A whole run

  /** The successful answers of both passes of a run that nobody interrupts. */
  function CompletedSuccess(app: App, controls: ControlSettings, env: Env): nat {
    var ready := ReadyFiles(app.staged);
    var c := PrimaryCtx(app, controls);
    |Successes(c, env, ready, 0)| + |Successes(c.(pass := Retry), env, Failures(c, env, ready, 0), 0)|
  }

  /** The state a run that nobody interrupts leaves behind: the ready files
      gone from the staged list and every other staged file kept in order;
      the successful answers of the primary pass appended in order, then one
      record per retried file; the status 'Complete. s of t successful.' with
      `s` the successful answers of both passes; the completion dialog open. */
  function CompletedApp(app: App, controls: ControlSettings, env: Env): App {
    var ready := ReadyFiles(app.staged);
    var c := PrimaryCtx(app, controls);
    var fails := Failures(c, env, ready, 0);
    var success := CompletedSuccess(app, controls, env);
    app.(staged := Others(app.staged, IdSet(ready)),
         results := app.results + SuccessRecords(c, env, ready, 0) + AnswerRecords(c.(pass := Retry), env, fails, 0),
         progress := Progress(Complete(success, |ready|), |ready|, |ready|),
         isGenerating := false, isPaused := false,
         completion := Stats(success, |ready|),
         completionOpen := true)
  }

  /** In that state each ready file has exactly one record, and the success
      count never exceeds the number of ready files. */
  lemma CompletedAppCounts(app: App, controls: ControlSettings, env: Env)
    ensures var a := CompletedApp(app, controls, env);
            && a.completion.total == |ReadyFiles(app.staged)|
            && a.completion.success <= a.completion.total
            && |a.results| == |app.results| + a.completion.total
  {
    var ready := ReadyFiles(app.staged);
    var c := PrimaryCtx(app, controls);
    var fails := Failures(c, env, ready, 0);
    SuccessesAndFailures(c, env, ready, 0);
    SuccessesAndFailures(c.(pass := Retry), env, fails, 0);
    AnswerRecordsLength(c.(pass := Retry), env, fails, 0);
  }

  /** A run that is not parked, that nobody interrupts and whose batches fit
      a key ends in the completed state. */
  lemma CompletedRun(app: App, keys: seq<string>, controls: ControlSettings, env: Env)
    requires HasFirstKey(keys) && !app.isPaused && NoClears(env)
    requires EffectiveBatchSize(controls.batchSize) <= REQUEST_PER_MINUTE
    requires |ReadyFiles(app.staged)| > 0 && NoDup(Ids(ReadyFiles(app.staged)))
    ensures StartGeneration(app, keys, controls, env) == Finished(CompletedApp(app, controls, env))
  {
    var ready := ReadyFiles(app.staged);
    var c := PrimaryCtx(app, controls);
    var bs := EffectiveBatchSize(controls.batchSize);
    PrimaryPassAccounting(app, keys, controls, env);
    var r1 := PrimaryPass(app, keys, controls, env).run;
    FailuresKeepNoDup(c, env, ready, 0);
    RetryPassAccounting(c, env, r1, bs);
    var r2 := RetryPass(c, env, r1, bs).run;
    StartAfterPasses(app, keys, controls, env, r1, r2);
    FinalState(app, controls, env, r2);
  }

  /** How `startGeneration` finishes once both passes are done and not stopped. */
  lemma StartAfterPasses(app: App, keys: seq<string>, controls: ControlSettings, env: Env, r1: Run, r2: Run)
    requires HasFirstKey(keys) && |ReadyFiles(app.staged)| > 0
    requires PrimaryPass(app, keys, controls, env) == Done(r1) && Valid(r1.limiter)
    requires RetryPass(PrimaryCtx(app, controls), env, r1, EffectiveBatchSize(controls.batchSize)) == Done(r2) && !r2.stopped
    ensures var n := |ReadyFiles(app.staged)|;
            StartGeneration(app, keys, controls, env)
            == Finished(Publish(app, r2).(isGenerating := false, progress := Progress(Complete(r2.tally.success, n), n, n),
                                          completion := Stats(r2.tally.success, n), completionOpen := true))
  {
  }

  /** The run state the two passes account for gives the completed state. */
  lemma FinalState(app: App, controls: ControlSettings, env: Env, r2: Run)
    requires r2.tally.success == CompletedSuccess(app, controls, env)
    requires r2.tally.results == CompletedApp(app, controls, env).results
    requires r2.staged == StagedFiles(PrimaryCtx(app, controls).(pass := Retry), env,
                                      StagedFiles(PrimaryCtx(app, controls), env, app.staged, ReadyFiles(app.staged), 0),
                                      Failures(PrimaryCtx(app, controls), env, ReadyFiles(app.staged), 0), 0)
    ensures var n := |ReadyFiles(app.staged)|;
            Publish(app, r2).(isGenerating := false, progress := Progress(Complete(r2.tally.success, n), n, n),
                              completion := Stats(r2.tally.success, n), completionOpen := true)
            == CompletedApp(app, controls, env)
  {
    var n := |ReadyFiles(app.staged)|;
    var a := Publish(app, r2).(isGenerating := false, progress := Progress(Complete(r2.tally.success, n), n, n),
                               completion := Stats(r2.tally.success, n), completionOpen := true);
    var z := CompletedApp(app, controls, env);
    assert a.staged == z.staged by {
      BothPassesStaged(PrimaryCtx(app, controls), env, app.staged, ReadyFiles(app.staged));
    }
    assert a == App(z.staged, z.results, z.progress, false, false, z.completion, true);
  }

  /** The staged list after both passes: the primary pass removes the
      successes and the retry pass the failures, and neither touches any
      other file. */
  lemma BothPassesStaged(c: Ctx, env: Env, s: seq<StagedFile>, fs: seq<StagedFile>)
    requires c.pass == Primary
    ensures var s1 := StagedFiles(c, env, s, fs, 0);
            StagedFiles(c.(pass := Retry), env, s1, Failures(c, env, fs, 0), 0) == Others(s, IdSet(fs))
  {
    var rc := c.(pass := Retry);
    var fails := Failures(c, env, fs, 0);
    var oks := Successes(c, env, fs, 0);
    var s1 := StagedFiles(c, env, s, fs, 0);
    var s2 := StagedFiles(rc, env, s1, fails, 0);
    var ids := IdSet(fs);
    SuccessesAndFailures(c, env, fs, 0);
    PrimaryStaged(c, env, s, fs, 0, {}, {});
    RetryStaged(rc, env, s1, fails, 0, IdSet(oks));
    forall f | f in fs ensures f.id in ids {
      var k :| 0 <= k < |fs| && fs[k] == f;
    }
    StagedFilesKeepsOthers(c, env, s, fs, 0, ids);
    StagedFilesKeepsOthers(rc, env, s1, fails, 0, ids);
    OthersOfNoneWithId(s2, ids);
  }

  // ---------------------------------------------------------------------
  // How a run ends

  /** A batch that Clear All reaches in flight stops the run. */
  lemma StepClearedStops(c: Ctx, env: Env, run: Run, b: seq<StagedFile>, k: nat, pos: nat)
    requires Valid(run.limiter) && !c.paused && env.clearedInFlight(c.pass, k)
    ensures Step(c, env, run, b, k, pos).Next? ==> Step(c, env, run, b, k, pos).run.stopped
  {
  }

  /** A pass that ends unstopped met no Clear All while a batch was in flight. */
  lemma {:induction false} UnstoppedPassSawNoClear(c: Ctx, env: Env, run: Run, batches: seq<seq<StagedFile>>, k: nat, pos: nat, out: Run)
    requires Valid(run.limiter) && !c.paused && !run.stopped
    requires RunBatches(c, env, run, batches, k, pos) == Done(out) && !out.stopped
    ensures forall j :: k <= j < k + |batches| ==> !env.clearedInFlight(c.pass, j)
    decreases |batches|
  {
    if |batches| > 0 {
      RunBatchesCons(c, env, run, batches, k, pos);
      var s := Step(c, env, run, batches[0], k, pos).run;
      if env.clearedInFlight(c.pass, k) {
        StepClearedStops(c, env, run, batches[0], k, pos);
      }
      UnstoppedPassSawNoClear(c, env, s, batches[1..], k + 1, pos + |batches[0]|, out);
    }
  }

  /** A primary pass that ends unstopped has queued exactly its failures. */
  lemma UnstoppedPrimaryRetry(app: App, keys: seq<string>, controls: ControlSettings, env: Env)
    requires |keys| > 0 && !app.isPaused
    requires PrimaryPass(app, keys, controls, env).Done? && !PrimaryPass(app, keys, controls, env).run.stopped
    ensures PrimaryPass(app, keys, controls, env).run.tally.retry == Failures(PrimaryCtx(app, controls), env, ReadyFiles(app.staged), 0)
  {
    var bs := EffectiveBatchSize(controls.batchSize);
    var ready := ReadyFiles(app.staged);
    var batches := Batches(ready, bs);
    var c := PrimaryCtx(app, controls);
    var run0 := InitialRun(app, |keys|, env);
    var out := RunBatches(c, env, run0, batches, 0, 0).run;
    assert RunBatches(c, env, run0, batches, 0, 0) == Done(out);
    UnstoppedPassSawNoClear(c, env, run0, batches, 0, 0, out);
    PassFollowsBatches(c, env, run0, batches, 0, 0, out);
    TallyBatchesFlat(c, env, run0.tally, batches, 0);
    BatchesFlatten(ready, bs);
    TallyPrimary(c, env, run0.tally, ready, 0);
  }

  /** A retry pass that is not parked and whose batches fit a key ends. */
  lemma RetryPassEnds(c: Ctx, env: Env, run: Run, bs: nat)
    requires Valid(run.limiter) && !c.paused && bs >= 1
    requires bs <= REQUEST_PER_MINUTE || |run.tally.retry| <= REQUEST_PER_MINUTE || run.stopped
    ensures RetryPass(c, env, run, bs).Done?
  {
    if |run.tally.retry| > 0 && !run.stopped && !env.clearedDuringDelay {
      var run1 := run.(progress := run.progress.(status := Retrying(|run.tally.retry|)));
      BatchesFit(run.tally.retry, bs);
      RunBatchesEnds(c.(pass := Retry), env, run1, Batches(run.tally.retry, bs), 0, 0);
    }
  }

  /** The first batch of an oversized primary pass never finds a key. */
  lemma OversizedPrimaryStalls(app: App, keys: seq<string>, controls: ControlSettings, env: Env)
    requires |keys| > 0 && !app.isPaused
    requires EffectiveBatchSize(controls.batchSize) > REQUEST_PER_MINUTE && |ReadyFiles(app.staged)| > REQUEST_PER_MINUTE
    ensures PrimaryPass(app, keys, controls, env).Stalled?
  {
    var bs := EffectiveBatchSize(controls.batchSize);
    var ready := ReadyFiles(app.staged);
    var batches := Batches(ready, bs);
    var c := PrimaryCtx(app, controls);
    var run0 := InitialRun(app, |keys|, env);
    BatchesAreSlices(ready, bs, 0);
    RunBatchesCons(c, env, run0, batches, 0, 0);
    StepNext(c, env, run0, batches[0], 0, 0);
  }

  /** Both passes of a run that is not parked and whose batches fit a key end. */
  lemma FittingPassesEnd(app: App, keys: seq<string>, controls: ControlSettings, env: Env)
    requires |keys| > 0 && !app.isPaused
    requires EffectiveBatchSize(controls.batchSize) <= REQUEST_PER_MINUTE || |ReadyFiles(app.staged)| <= REQUEST_PER_MINUTE
    ensures PrimaryPass(app, keys, controls, env).Done?
    ensures RetryPass(PrimaryCtx(app, controls), env, PrimaryPass(app, keys, controls, env).run, EffectiveBatchSize(controls.batchSize)).Done?
  {
    var bs := EffectiveBatchSize(controls.batchSize);
    var ready := ReadyFiles(app.staged);
    var c := PrimaryCtx(app, controls);
    BatchesFit(ready, bs);
    RunBatchesEnds(c, env, InitialRun(app, |keys|, env), Batches(ready, bs), 0, 0);
    var r1 := PrimaryPass(app, keys, controls, env).run;
    if !r1.stopped {
      UnstoppedPrimaryRetry(app, keys, controls, env);
      assert |r1.tally.retry| <= |ready|;
    }
    RetryPassEnds(c, env, r1, bs);
  }

  /** A run that is not parked hangs exactly when the batch size exceeds
      what one key may send in a minute and there are more ready files than
      that: its first batch then never finds a key. */
  lemma HangIffOversized(app: App, keys: seq<string>, controls: ControlSettings, env: Env)
    requires HasFirstKey(keys) && !app.isPaused && |ReadyFiles(app.staged)| > 0
    ensures StartGeneration(app, keys, controls, env).Hung?
            <==> EffectiveBatchSize(controls.batchSize) > REQUEST_PER_MINUTE && |ReadyFiles(app.staged)| > REQUEST_PER_MINUTE
  {
    if EffectiveBatchSize(controls.batchSize) > REQUEST_PER_MINUTE && |ReadyFiles(app.staged)| > REQUEST_PER_MINUTE {
      OversizedPrimaryStalls(app, keys, controls, env);
    } else {
      FittingPassesEnd(app, keys, controls, env);
    }
  }

  /** The state Clear All leaves once the run has seen the stop: both lists
      empty, 'Stopped.' shown, no run active, the completion dialog as it was. */
  function StoppedApp(app: App): (a: App) {
    ClearAll(app).(progress := Progress(Stopped, 0, 0))
  }

  lemma RetryPassStopsCleared(c: Ctx, env: Env, run: Run, bs: nat)
    requires Valid(run.limiter) && bs >= 1 && (run.stopped ==> Cleared(run))
    ensures var r := RetryPass(c, env, run, bs).run;
            r.stopped ==> Cleared(r)
  {
    if |run.tally.retry| > 0 && !run.stopped {
      var announced := run.(progress := run.progress.(status := Retrying(|run.tally.retry|)));
      var paused := if env.clearedDuringDelay then Clear(announced) else announced;
      RunBatchesStopsCleared(c.(pass := Retry), env, paused, Batches(run.tally.retry, bs), 0, 0);
    }
  }

  /** A run that finishes either completes or, after Clear All, leaves the
      cleared state with 'Stopped.' shown. */
  lemma FinishedRun(app: App, keys: seq<string>, controls: ControlSettings, env: Env)
    ensures var r := StartGeneration(app, keys, controls, env);
            r.Finished? ==> r.app == StoppedApp(app) || r.app.progress.status.Complete?
  {
    if HasFirstKey(keys) && |ReadyFiles(app.staged)| > 0 {
      var c := PrimaryCtx(app, controls);
      var bs := EffectiveBatchSize(controls.batchSize);
      var run0 := InitialRun(app, |keys|, env);
      RunBatchesStopsCleared(c, env, run0, Batches(ReadyFiles(app.staged), bs), 0, 0);
      var r1 := PrimaryPass(app, keys, controls, env).run;
      RetryPassStopsCleared(c, env, r1, bs);
    }
  }

  /** Only Clear All stops a run: without it, a run that finishes completes. */
  lemma OnlyClearStops(app: App, keys: seq<string>, controls: ControlSettings, env: Env)
    requires NoClears(env)
    ensures var r := StartGeneration(app, keys, controls, env);
            r.Finished? ==> r.app.progress.status.Complete?
  {
    if HasFirstKey(keys) && |ReadyFiles(app.staged)| > 0 {
      var c := PrimaryCtx(app, controls);
      var bs := EffectiveBatchSize(controls.batchSize);
      var run0 := InitialRun(app, |keys|, env);
      RunBatchesStopsOnlyOnClear(c, env, run0, Batches(ReadyFiles(app.staged), bs), 0, 0);
      var r1 := PrimaryPass(app, keys, controls, env).run;
      if |r1.tally.retry| > 0 && !r1.stopped {
        var announced := r1.(progress := r1.progress.(status := Retrying(|r1.tally.retry|)));
        RunBatchesStopsOnlyOnClear(c.(pass := Retry), env, announced, Batches(r1.tally.retry, bs), 0, 0);
      }
    }
  }

  /** A run started while paused parks at its first batch: it hangs unless
      Clear All arrives, and then it ends in the stopped state. */
  lemma PausedRun(app: App, keys: seq<string>, controls: ControlSettings, env: Env)
    requires HasFirstKey(keys) && app.isPaused && |ReadyFiles(app.staged)| > 0
    ensures var r := StartGeneration(app, keys, controls, env);
            && (r.Hung? <==> !env.clearedWhileParked)
            && (r.Finished? ==> r.app == StoppedApp(app))
  {
    var c := PrimaryCtx(app, controls);
    var bs := EffectiveBatchSize(controls.batchSize);
    var run0 := InitialRun(app, |keys|, env);
    var batches := Batches(ReadyFiles(app.staged), bs);
    RunBatchesCons(c, env, run0, batches, 0, 0);
  }

  /** Neither pass ever lets a key go over its budget in a minute. */
  lemma RunKeepsBudget(app: App, keys: seq<string>, controls: ControlSettings, env: Env)
    requires |keys| > 0
    ensures var r1 := PrimaryPass(app, keys, controls, env).run;
            && WithinBudget(r1.limiter)
            && WithinBudget(RetryPass(PrimaryCtx(app, controls), env, r1, EffectiveBatchSize(controls.batchSize)).run.limiter)
  {
    var c := PrimaryCtx(app, controls);
    var bs := EffectiveBatchSize(controls.batchSize);
    var run0 := InitialRun(app, |keys|, env);
    RunBatchesKeepsBudget(c, env, run0, Batches(ReadyFiles(app.staged), bs), 0, 0);
    var r1 := PrimaryPass(app, keys, controls, env).run;
    if |r1.tally.retry| > 0 && !r1.stopped {
      var announced := r1.(progress := r1.progress.(status := Retrying(|r1.tally.retry|)));
      var paused := if env.clearedDuringDelay then Clear(announced) else announced;
      RunBatchesKeepsBudget(c.(pass := Retry), env, paused, Batches(r1.tally.retry, bs), 0, 0);
    }
  }

  /** `startGeneration` refuses to start without a first key, with no staged
      file, or with staged files none of which is ready, and says which. */
  lemma StartRefusal(app: App, keys: seq<string>, controls: ControlSettings, env: Env)
    ensures var r := StartGeneration(app, keys, controls, env);
            && (r == Refused(NoApiKey) <==> !HasFirstKey(keys))
            && (r == Refused(NothingUploaded) <==> HasFirstKey(keys) && |app.staged| == 0)
            && (r == Refused(FilesNotReady)
                <==> HasFirstKey(keys) && |app.staged| > 0 && forall k :: 0 <= k < |app.staged| ==> app.staged[k].status != Ready)
  {
    NoReadyFiles(app.staged);
  }
}

=== FILE: lists.dfy ===
/** Generic sequence helpers that stand for JavaScript array methods. */
module Lists {

  predicate NoDup<T(==)>(xs: seq<T>) {
    forall i, j :: 0 <= i < j < |xs| ==> xs[i] != xs[j]
  }

  /** `xs.slice(0, n)` for `n >= 0`: the first `n` elements, or all of them
      when there are fewer. */
  function Take<T>(xs: seq<T>, n: nat): (r: seq<T>)
    ensures |r| == if n < |xs| then n else |xs|
    ensures r == xs[..|r|]
  {
    if n < |xs| then xs[..n] else xs
  }

  lemma NoDupPrefix<T>(xs: seq<T>, n: nat)
    requires NoDup(xs) && n <= |xs|
    ensures NoDup(xs[..n])
  {
  }

  /** `xs.filter((_, j) => j !== i)`, written as the element-by-element
      filter it is. */
  function FilterOutIndex<T>(xs: seq<T>, i: int): seq<T>
    decreases |xs|
  {
    if |xs| == 0 then []
    else (if i == 0 then [] else [xs[0]]) + FilterOutIndex(xs[1..], i - 1)
  }

  lemma {:induction false} FilterOutIndexOutside<T>(xs: seq<T>, i: int)
    requires !(0 <= i < |xs|)
    ensures FilterOutIndex(xs, i) == xs
    decreases |xs|
  {
    if |xs| > 0 {
      FilterOutIndexOutside(xs[1..], i - 1);
      assert [xs[0]] + xs[1..] == xs;
    }
  }

  lemma {:induction false} FilterOutIndexInside<T>(xs: seq<T>, i: int)
    requires 0 <= i < |xs|
    ensures FilterOutIndex(xs, i) == xs[..i] + xs[i + 1..]
    decreases |xs|
  {
    if i == 0 {
      FilterOutIndexOutside(xs[1..], -1);
      assert xs[1..] == xs[i + 1..];
    } else {
      var tail := xs[1..];
      FilterOutIndexInside(tail, i - 1);
      assert tail[..i - 1] == xs[1..i];
      assert tail[i..] == xs[i + 1..];
      assert [xs[0]] + xs[1..i] == xs[..i];
      assert [xs[0]] + (xs[1..i] + xs[i + 1..]) == ([xs[0]] + xs[1..i]) + xs[i + 1..];
    }
  }

  /** Removing by index: the element at `i` goes, the others keep their order;
      an index outside the list changes nothing. */
  lemma FilterOutIndexRemovesAt<T>(xs: seq<T>, i: int)
    ensures 0 <= i < |xs| ==> FilterOutIndex(xs, i) == xs[..i] + xs[i + 1..]
    ensures !(0 <= i < |xs|) ==> FilterOutIndex(xs, i) == xs
  {
    if 0 <= i < |xs| {
      FilterOutIndexInside(xs, i);
    } else {
      FilterOutIndexOutside(xs, i);
    }
  }

  /** The concatenation of a sequence of sequences. */
  function Flatten<T>(xss: seq<seq<T>>): seq<T>
    decreases |xss|
  {
    if |xss| == 0 then [] else xss[0] + Flatten(xss[1..])
  }

  lemma FlattenCons<T>(xss: seq<seq<T>>)
    requires |xss| > 0
    ensures Flatten(xss) == xss[0] + Flatten(xss[1..])
  {
  }

  lemma {:induction false} FlattenAppend<T>(a: seq<seq<T>>, b: seq<seq<T>>)
    ensures Flatten(a + b) == Flatten(a) + Flatten(b)
    decreases |a|
  {
    if |a| > 0 {
      assert (a + b)[0] == a[0] && (a + b)[1..] == a[1..] + b;
      FlattenAppend(a[1..], b);
    } else {
      assert a + b == b;
    }
  }

  lemma FlattenSnoc<T>(xss: seq<seq<T>>, i: nat)
    requires i < |xss|
    ensures Flatten(xss[..i + 1]) == Flatten(xss[..i]) + xss[i]
  {
    assert xss[..i + 1] == xss[..i] + [xss[i]];
    FlattenAppend(xss[..i], [xss[i]]);
    assert Flatten([xss[i]]) == xss[i] + Flatten([]);
  }

  lemma NoDupCons<T>(x: T, xs: seq<T>)
    ensures NoDup([x] + xs) <==> x !in xs && NoDup(xs)
  {
    var ys := [x] + xs;
    if x !in xs && NoDup(xs) {
      forall i, j | 0 <= i < j < |ys| ensures ys[i] != ys[j] {
        if i == 0 { assert ys[j] == xs[j - 1]; }
        else { assert ys[i] == xs[i - 1] && ys[j] == xs[j - 1]; }
      }
    }
    if NoDup(ys) {
      assert forall i, j :: 0 <= i < j < |xs| ==> ys[i + 1] == xs[i] && ys[j + 1] == xs[j];
      forall j | 0 <= j < |xs| ensures xs[j] != x {
        assert ys[0] == x && ys[j + 1] == xs[j];
      }
    }
  }

  lemma NoDupSplit<T>(xs: seq<T>, n: nat)
    requires NoDup(xs) && n <= |xs|
    ensures NoDup(xs[..n]) && NoDup(xs[n..])
  {
    forall i, j | 0 <= i < j < |xs| - n ensures xs[n..][i] != xs[n..][j] {
      assert xs[n..][i] == xs[n + i] && xs[n..][j] == xs[n + j];
    }
  }
}

=== FILE: rate_limiter.dfy ===
/** The credential rate limiter inside `startGeneration` (App.tsx:152-154,
    195-231): one request counter per API key, one one-minute window shared
    by all keys, a round-robin cursor, and capacity reserved before dispatch. */
module RateLimiter {

  import opened Types

  /** A window is over once more than this many milliseconds have passed. */
  const WINDOW_MS: int := 60000

  /** When no key has room, the wait lasts until this long after the window start. */
  const WAIT_MS: int := 61000

  /** `requestCounts`, `currentApiKeyIndex` and `minuteStart`. */
  datatype Limiter = Limiter(counts: seq<nat>, cursor: nat, minuteStart: int)

  predicate Valid(l: Limiter) {
    |l.counts| > 0 && l.cursor < |l.counts|
  }

  /** No key carries more than its per-minute budget. */
  predicate WithinBudget(l: Limiter) {
    forall i :: 0 <= i < |l.counts| ==> l.counts[i] <= REQUEST_PER_MINUTE
  }

  /** A batch of `need` requests fits key `i`. */
  predicate Fits(counts: seq<nat>, i: nat, need: nat)
    requires i < |counts|
  {
    counts[i] + need <= REQUEST_PER_MINUTE
  }

  /** The limiter at the start of a run: every count zero, cursor on key 0. */
  function Start(keyCount: nat, now: int): (l: Limiter)
    requires keyCount > 0
    ensures Valid(l) && WithinBudget(l) && |l.counts| == keyCount
    ensures forall i :: 0 <= i < keyCount ==> l.counts[i] == 0
    ensures l.cursor == 0 && l.minuteStart == now
  {
    Limiter(seq(keyCount, _ => 0), 0, now)
  }

  /** The window check at the top of every assignment round (App.tsx:198-201). */
  function Refresh(l: Limiter, now: int): (r: Limiter)
    ensures |r.counts| == |l.counts| && r.cursor == l.cursor
  {
    if now - l.minuteStart > WINDOW_MS then l.(counts := seq(|l.counts|, _ => 0), minuteStart := now) else l
  }

  /** Once more than a minute has passed since the window opened, every count
      goes back to zero and a new window opens now; otherwise nothing changes. */
  lemma RefreshWindow(l: Limiter, now: int)
    ensures now - l.minuteStart > WINDOW_MS ==>
              Refresh(l, now).minuteStart == now && forall i :: 0 <= i < |l.counts| ==> Refresh(l, now).counts[i] == 0
    ensures now - l.minuteStart <= WINDOW_MS ==> Refresh(l, now) == l
  {
  }

  /** The key after key `i`: `(i + 1) % n` for a key index `i < n`. */
  function Next(i: nat, n: nat): (j: nat)
    requires i < n
    ensures j < n
    ensures j == (i + 1) % n
  {
    if i + 1 < n then i + 1 else 0
  }

  /** The key reached after `steps` advances of the cursor from `initial`,
      within one turn. */
  function Rot(initial: nat, steps: nat, n: nat): (i: nat)
    requires initial < n && steps <= n
    ensures i < n
  {
    if initial + steps < n then initial + steps else initial + steps - n
  }

  /** Within one turn, different numbers of steps reach different keys. */
  lemma RotInjective(initial: nat, a: nat, b: nat, n: nat)
    requires initial < n && a < n && b < n && a != b
    ensures Rot(initial, a, n) != Rot(initial, b, n)
  {
  }

  /** Within one turn, every key is reached. */
  lemma RotCovers(initial: nat, i: nat, n: nat) returns (steps: nat)
    requires initial < n && i < n
    ensures steps < n && Rot(initial, steps, n) == i
  {
    steps := if i >= initial then i - initial else i + n - initial;
  }

  datatype ScanResult = Found(index: nat, skipped: nat) | Exhausted(cursor: nat)

  /** The `do { … } while (currentApiKeyIndex !== initialSearchIndex)` loop
      (App.tsx:202-210), `steps` advances after it started from `initial`. */
  function ScanLoop(counts: seq<nat>, initial: nat, steps: nat, need: nat): (r: ScanResult)
    requires initial < |counts| && steps < |counts|
    ensures r.Found? ==> r.index < |counts| && r.skipped < |counts|
    decreases |counts| - steps
  {
    var n := |counts|;
    var cur := Rot(initial, steps, n);
    if counts[cur] + need <= REQUEST_PER_MINUTE then Found(cur, steps)
    else
      var next := Next(cur, n);
      if next == initial then Exhausted(next)
      else ScanLoop(counts, initial, steps + 1, need)
  }

  /** From `steps` advances on, the loop stops at the first key in round-robin
      order that has room, and it gives up, back at `initial`, only when none
      of the keys still to visit has room. */
  lemma {:induction false} ScanLoopFirstFit(counts: seq<nat>, initial: nat, steps: nat, need: nat)
    requires initial < |counts| && steps < |counts|
    ensures var r := ScanLoop(counts, initial, steps, need);
            && (r.Found? ==> steps <= r.skipped)
            && (r.Found? ==> r.index == Rot(initial, r.skipped, |counts|) && Fits(counts, r.index, need))
            && (r.Found? ==> forall m :: steps <= m < r.skipped ==> !Fits(counts, Rot(initial, m, |counts|), need))
            && (r.Exhausted? ==> r.cursor == initial)
            && (r.Exhausted? ==> forall m :: steps <= m < |counts| ==> !Fits(counts, Rot(initial, m, |counts|), need))
    decreases |counts| - steps
  {
    var n := |counts|;
    var cur := Rot(initial, steps, n);
    if counts[cur] + need > REQUEST_PER_MINUTE && Next(cur, n) != initial {
      ScanLoopFirstFit(counts, initial, steps + 1, need);
    }
  }

  /** One scan from the cursor. */
  function Scan(l: Limiter, need: nat): ScanResult
    requires Valid(l)
  {
    ScanLoop(l.counts, l.cursor, 0, need)
  }

  /** The scan finds the first key, in round-robin order from the cursor,
      whose count plus the batch length stays within the budget; it examines
      each key at most once; and it fails exactly when no key has room,
      leaving the cursor where it started. */
  lemma ScanIsFirstFit(l: Limiter, need: nat)
    requires Valid(l)
    ensures Scan(l, need).Found? ==>
              var r := Scan(l, need);
              && r.index < |l.counts| && Fits(l.counts, r.index, need)
              && r.index == Rot(l.cursor, r.skipped, |l.counts|)
              && (forall m :: 0 <= m < r.skipped ==> !Fits(l.counts, Rot(l.cursor, m, |l.counts|), need))
              && (forall a, b :: 0 <= a < b <= r.skipped ==> Rot(l.cursor, a, |l.counts|) != Rot(l.cursor, b, |l.counts|))
    ensures Scan(l, need).Exhausted? <==> forall i :: 0 <= i < |l.counts| ==> !Fits(l.counts, i, need)
    ensures Scan(l, need).Exhausted? ==> Scan(l, need).cursor == l.cursor
  {
    var n := |l.counts|;
    var r := Scan(l, need);
    ScanLoopFirstFit(l.counts, l.cursor, 0, need);
    if r.Found? {
      forall a, b | 0 <= a < b <= r.skipped
        ensures Rot(l.cursor, a, n) != Rot(l.cursor, b, n)
      {
        RotInjective(l.cursor, a, b, n);
      }
    } else {
      forall i | 0 <= i < n ensures !Fits(l.counts, i, need) {
        var m := RotCovers(l.cursor, i, n);
      }
    }
  }

  /** `requestCounts[assignedKeyIndex] += batchFiles.length` and the cursor
      moved past the assigned key (App.tsx:229-231). */
  function Reserve(l: Limiter, i: nat, need: nat): (r: Limiter)
    requires Valid(l) && i < |l.counts|
    ensures Valid(r) && |r.counts| == |l.counts|
  {
    l.(counts := l.counts[i := l.counts[i] + need], cursor := Next(i, |l.counts|))
  }

  /** The reserved key carries the batch on top of its count, no other count
      moves, the cursor goes to the key after it and the window stays. */
  lemma ReserveEffect(l: Limiter, i: nat, need: nat)
    requires Valid(l) && i < |l.counts|
    ensures var r := Reserve(l, i, need);
            && r.counts[i] == l.counts[i] + need
            && (forall j :: 0 <= j < |l.counts| && j != i ==> r.counts[j] == l.counts[j])
            && r.cursor == (i + 1) % |l.counts| && r.minuteStart == l.minuteStart
  {
  }

  datatype Assignment = Assigned(limiter: Limiter, key: nat, waited: bool) | NeverAssigned

  /** The whole key-assignment loop for one batch of `need` files
      (App.tsx:195-231). `now` is the clock when the loop starts; `wake` is the
      clock when the countdown wait resolves, which happens no earlier than
      `minuteStart + 61000`. After such a wait the window has always rolled
      over, so a second failed round means every later round fails too. */
  function Assign(l: Limiter, now: int, wake: int, need: nat): (r: Assignment)
    requires Valid(l)
    ensures r.Assigned? ==> Valid(r.limiter) && |r.limiter.counts| == |l.counts| && r.key < |l.counts|
  {
    var l1 := Refresh(l, now);
    match Scan(l1, need)
    case Found(i, _) => Assigned(Reserve(l1, i, need), i, false)
    case Exhausted(_) =>
      var l2 := Refresh(l1, WakeTime(l1, wake));
      match Scan(l2, need)
      case Found(i, _) => Assigned(Reserve(l2, i, need), i, true)
      case Exhausted(_) => NeverAssigned
  }

  /** The clock when the countdown wait of App.tsx:212-227 is over. */
  function WakeTime(l: Limiter, wake: int): (t: int)
    ensures t >= l.minuteStart + WAIT_MS && t >= wake
  {
    if wake >= l.minuteStart + WAIT_MS then wake else l.minuteStart + WAIT_MS
  }

  /** Without a wait, the batch goes to the first key with room in round-robin
      order after the window check; after a wait (taken only when no key had
      room), the window has rolled over and the batch goes to the key under the
      unchanged cursor, which then carries exactly this batch. */
  lemma AssignChoosesKey(l: Limiter, now: int, wake: int, need: nat)
    requires Valid(l)
    ensures var r := Assign(l, now, wake, need);
            r.Assigned? && !r.waited ==>
              var l1 := Refresh(l, now);
              && Scan(l1, need).Found? && Scan(l1, need).index == r.key
              && r.limiter == Reserve(l1, r.key, need)
    ensures var r := Assign(l, now, wake, need);
            r.Assigned? && r.waited ==>
              && Scan(Refresh(l, now), need).Exhausted?
              && r.key == l.cursor
              && r.limiter.minuteStart >= Refresh(l, now).minuteStart + WAIT_MS
              && r.limiter.counts[r.key] == need
              && (forall j :: 0 <= j < |l.counts| && j != r.key ==> r.limiter.counts[j] == 0)
  {
    var l1 := Refresh(l, now);
    if Scan(l1, need).Exhausted? {
      var t := WakeTime(l1, wake);
      var l2 := Refresh(l1, t);
      if Scan(l2, need).Found? {
        ScanIsFirstFit(l1, need);
        assert l1.cursor == l.cursor;
        assert Fits(l1.counts, l1.cursor, need) ==> false;
        assert need <= REQUEST_PER_MINUTE by {
          ScanIsFirstFit(l2, need);
        }
        AfterWaitAssignsCursorKey(l1, t, need);
        RefreshWindow(l1, t);
        ReserveEffect(l2, l.cursor, need);
      }
    }
  }

  /** After an assignment the cursor sits on the key after the assigned one,
      so the next batch starts its search there. */
  lemma AssignMovesCursor(l: Limiter, now: int, wake: int, need: nat)
    requires Valid(l)
    ensures var r := Assign(l, now, wake, need);
            r.Assigned? ==> r.limiter.cursor == (r.key + 1) % |l.counts|
  {
    var l1 := Refresh(l, now);
    if Scan(l1, need).Found? {
      ReserveEffect(l1, Scan(l1, need).index, need);
    } else {
      var l2 := Refresh(l1, WakeTime(l1, wake));
      if Scan(l2, need).Found? {
        ReserveEffect(l2, Scan(l2, need).index, need);
      }
    }
  }

  /** Assignment keeps every key within its budget, and it succeeds exactly
      when the batch is no longer than the per-key budget: a longer batch can
      never be assigned, since even a freshly reset key has no room for it. */
  lemma AssignKeepsBudget(l: Limiter, now: int, wake: int, need: nat)
    requires Valid(l)
    ensures WithinBudget(l) && Assign(l, now, wake, need).Assigned? ==> WithinBudget(Assign(l, now, wake, need).limiter)
    ensures Assign(l, now, wake, need).Assigned? <==> need <= REQUEST_PER_MINUTE
  {
    var r := Assign(l, now, wake, need);
    var l1 := Refresh(l, now);
    RefreshWindow(l, now);
    ScanIsFirstFit(l1, need);
    if Scan(l1, need).Found? {
      ReserveEffect(l1, Scan(l1, need).index, need);
    } else {
      var l2 := Refresh(l1, WakeTime(l1, wake));
      RefreshWindow(l1, WakeTime(l1, wake));
      ScanIsFirstFit(l2, need);
      if need <= REQUEST_PER_MINUTE {
        assert Fits(l2.counts, 0, need);
      }
      if Scan(l2, need).Found? {
        ReserveEffect(l2, Scan(l2, need).index, need);
      }
    }
  }

  /** Once the clock has passed the end of the wait, the next round resets
      every key, so any batch within the budget goes to the key under the
      cursor. */
  lemma AfterWaitAssignsCursorKey(l: Limiter, t: int, need: nat)
    requires Valid(l) && t >= l.minuteStart + WAIT_MS && need <= REQUEST_PER_MINUTE
    ensures Scan(Refresh(l, t), need) == Found(l.cursor, 0)
  {
    var l2 := Refresh(l, t);
    RefreshWindow(l, t);
    assert l2.counts[l.cursor] == 0;
    assert Rot(l.cursor, 0, |l.counts|) == l.cursor;
  }
}

=== FILE: results_panel.dfy ===
/** The results panel (components/ResultsPanel.tsx): what one result card
    shows when fields are missing, the counts beside each field, the
    keyword string the copy button puts on the clipboard, the newest-first
    order of the cards and deleting a result from its card. */
module ResultsPanel {

  import opened Wrappers
  import opened Lists
  import opened Text
  import opened Types

  // ---------------------------------------------------------------------
  // One card

  /** A JavaScript string value that is truthy: present and non-empty. */
  predicate Truthy(v: Option<string>) {
    v.Some? && v.value != ""
  }

  /** `v || fallback` for an optional string. */
  function OrElse(v: Option<string>, fallback: string): (r: string)
    ensures Truthy(v) ==> r == v.value
    ensures !Truthy(v) ==> r == fallback
  {
    if Truthy(v) then v.value else fallback
  }

  /** The texts one card shows. */
  datatype CardText = CardText(
    title: string,
    description: string,
    keywords: seq<string>,
    category: string)

  const NO_DESCRIPTION: string := "No description"
  const NO_TITLE: string := "No title"
  const NO_CATEGORY: string := "N/A"

  /** The fallbacks of a result card: a missing or empty description reads
      "No description", a missing or empty category "N/A", missing keywords
      an empty list, and a missing or empty title "No title" for a metadata
      result and the empty text for a prompt result. */
  function CardTextOf(data: GeneratedMetadata): (c: CardText)
    ensures c.description != "" && c.category != ""
    ensures data.mode == Metadata ==> c.title != ""
    ensures data.mode == Metadata && !Truthy(data.title) ==> c.title == NO_TITLE
    ensures c.description == (if Truthy(data.description) then data.description.value else NO_DESCRIPTION)
    ensures c.category == (if Truthy(data.category) then data.category.value else NO_CATEGORY)
    ensures Truthy(data.title) ==> c.title == data.title.value
    ensures data.keywords.Some? ==> c.keywords == data.keywords.value
    ensures data.keywords.None? ==> c.keywords == []
  {
    CardText(
      OrElse(data.title, if data.mode == Metadata then NO_TITLE else ""),
      OrElse(data.description, NO_DESCRIPTION),
      data.keywords.GetOr([]),
      OrElse(data.category, NO_CATEGORY))
  }

  /** A prompt result shows a title only when it has one. */
  lemma PromptTitle(data: GeneratedMetadata)
    requires data.mode == Prompt
    ensures CardTextOf(data).title == data.title.GetOr("")
  {
  }

  /** The count under the description: the whitespace-separated words of
      the text shown, `description.split(/\s+/).filter(Boolean).length`. */
  function WordCount(data: GeneratedMetadata): nat {
    |Words(CardTextOf(data).description)|
  }

  /** The word count agrees with the number of places where a word begins,
      and every word it counts is a non-empty run without white space. */
  lemma WordCountSpec(data: GeneratedMetadata)
    ensures WordCount(data) == WordStarts(CardTextOf(data).description, true)
    ensures forall k :: 0 <= k < |Words(CardTextOf(data).description)| ==>
              IsWord(Words(CardTextOf(data).description)[k])
  {
    WordsCountsWordStarts(CardTextOf(data).description);
  }

  /** Two words with one space between them count as two. */
  lemma TwoWords(a: string, b: string)
    requires IsWord(a) && IsWord(b)
    ensures WordStarts(a + " " + b, true) == 2
  {
    var s := a + " " + b;
    assert s[..|a|] == a;
    WordStartsInsideWord(s, |a|, true);
    assert s[|a|..] == " " + b;
    WordStartsWhitePrefix(" " + b, 1, false);
    assert (" " + b)[1..] == b;
    WordStartsInsideWord(b, |b|, true);
    assert b[|b|..] == "";
  }

  /** A result without a description is counted as two words. */
  lemma MissingDescriptionCount(data: GeneratedMetadata)
    requires !Truthy(data.description)
    ensures WordCount(data) == 2
  {
    var d := CardTextOf(data).description;
    assert d == "No" + " " + "description";
    assert IsWord("No") && IsWord("description");
    TwoWords("No", "description");
    WordsCountsWordStarts(d);
  }

  /** The count beside the keywords. */
  function KeywordCount(data: GeneratedMetadata): nat {
    |CardTextOf(data).keywords|
  }

  /** The text the keyword copy button writes: `keywords.join(', ')`. */
  function KeywordsString(data: GeneratedMetadata): string {
    Join(CardTextOf(data).keywords, ", ")
  }

  /** For a result with keywords none of which holds ", ", the copied text
      splits back into the card's keywords, so the number shown equals the
      number of pieces in the copied text. */
  lemma KeywordCountMatchesCopy(data: GeneratedMetadata)
    requires KeywordCount(data) > 0
    requires forall i :: 0 <= i < KeywordCount(data) ==> NoSeparator(CardTextOf(data).keywords[i])
    ensures SplitList(KeywordsString(data)) == CardTextOf(data).keywords
    ensures |SplitList(KeywordsString(data))| == KeywordCount(data)
  {
    JoinSplitsBack(CardTextOf(data).keywords);
  }

  // ---------------------------------------------------------------------
  // The list of cards

  /** A card and the position in the result list it acts on. */
  datatype Card = Card(index: nat, data: GeneratedMetadata)

  /** `metadata.map((data, index) => <ResultCard index={index} …/>).reverse()`. */
  function Cards(results: seq<GeneratedMetadata>): (cs: seq<Card>)
    ensures |cs| == |results|
    ensures forall k :: 0 <= k < |cs| ==> cs[k].index < |results| && results[cs[k].index] == cs[k].data
  {
    seq(|results|, k requires 0 <= k < |results| => Card(|results| - 1 - k, results[|results| - 1 - k]))
  }

  function CardData(cs: seq<Card>): (r: seq<GeneratedMetadata>)
    ensures |r| == |cs| && forall k :: 0 <= k < |cs| ==> r[k] == cs[k].data
  {
    seq(|cs|, k requires 0 <= k < |cs| => cs[k].data)
  }

  /** The list reversed, written independently of the cards. */
  function Reverse<T>(xs: seq<T>): seq<T>
    decreases |xs|
  {
    if |xs| == 0 then [] else Reverse(xs[1..]) + [xs[0]]
  }

  lemma {:induction false} ReverseAt<T>(xs: seq<T>)
    ensures |Reverse(xs)| == |xs|
    ensures forall k :: 0 <= k < |xs| ==> Reverse(xs)[k] == xs[|xs| - 1 - k]
    decreases |xs|
  {
    if |xs| > 0 {
      ReverseAt(xs[1..]);
    }
  }

  /** The cards show the results newest first, each card pointing at its
      own result, every result on exactly one card. */
  lemma CardsNewestFirst(results: seq<GeneratedMetadata>)
    ensures CardData(Cards(results)) == Reverse(results)
    ensures forall k :: 0 <= k < |results| ==> Cards(results)[k].index == |results| - 1 - k
    ensures forall j, k :: 0 <= j < k < |results| ==> Cards(results)[j].index > Cards(results)[k].index
  {
    ReverseAt(results);
  }

  /** A newly appended result is shown on the first card, and the earlier
      cards follow in the order they had. */
  lemma AppendedResultFirst(results: seq<GeneratedMetadata>, x: GeneratedMetadata)
    ensures CardData(Cards(results + [x])) == [x] + CardData(Cards(results))
  {
  }

  /** `handleDelete`: `prev.filter((_, i) => i !== index)`. */
  function DeleteResult(results: seq<GeneratedMetadata>, index: int): seq<GeneratedMetadata> {
    FilterOutIndex(results, index)
  }

  /** Deleting removes only the result at `index`, the rest keep their
      order; an index outside the list changes nothing. */
  lemma DeleteResultSpec(results: seq<GeneratedMetadata>, index: int)
    ensures 0 <= index < |results| ==> DeleteResult(results, index) == results[..index] + results[index + 1..]
    ensures !(0 <= index < |results|) ==> DeleteResult(results, index) == results
  {
    FilterOutIndexRemovesAt(results, index);
  }

  /** The delete button of the card at position `k` removes that card and
      no other: the remaining cards show the same results in the same
      order. */
  lemma DeleteFromCard(results: seq<GeneratedMetadata>, k: nat)
    requires k < |results|
    ensures var shown := CardData(Cards(results));
            CardData(Cards(DeleteResult(results, Cards(results)[k].index))) == shown[..k] + shown[k + 1..]
  {
    var n := |results|;
    var i := n - 1 - k;
    FilterOutIndexRemovesAt(results, i);
    var after := DeleteResult(results, i);
    var shown := CardData(Cards(results));
    var left := CardData(Cards(after));
    assert |left| == n - 1;
    forall j | 0 <= j < n - 1
      ensures left[j] == (shown[..k] + shown[k + 1..])[j]
    {
      if j < k {
        assert left[j] == after[n - 2 - j] == results[n - 1 - j];
      } else {
        assert left[j] == after[n - 2 - j] == results[n - 2 - j];
      }
    }
  }
}

=== FILE: staged.dfy ===
/** Operations on the list of staged files, all keyed by the file id: the
    `prev.filter(f => f.id !== id)` and `prev.map(f => f.id === id ? … : f)`
    updates that App.tsx and UploadPanel.tsx apply to `stagedFiles`. */
module StagedList {

  import opened Types

  /** The staged files in the `ready` state, in order. */
  function ReadyFiles(staged: seq<StagedFile>): (r: seq<StagedFile>)
    ensures |r| <= |staged|
    ensures forall k :: 0 <= k < |r| ==> r[k].status == Ready && r[k] in staged
    ensures forall f :: f in staged && f.status == Ready ==> f in r
    decreases |staged|
  {
    if |staged| == 0 then []
    else (if staged[0].status == Ready then [staged[0]] else []) + ReadyFiles(staged[1..])
  }

  /** The filter of a concatenation is the concatenation of the filters. With
      `ReadyFilesOne` this pins down the order and the number of copies. */
  lemma {:induction false} ReadyFilesAppend(a: seq<StagedFile>, b: seq<StagedFile>)
    ensures ReadyFiles(a + b) == ReadyFiles(a) + ReadyFiles(b)
    decreases |a|
  {
    if |a| > 0 {
      assert (a + b)[1..] == a[1..] + b;
      ReadyFilesAppend(a[1..], b);
    } else {
      assert a + b == b;
    }
  }

  /** No file is ready in an empty list, and a single file is kept exactly
      when it is ready. */
  lemma ReadyFilesOne(f: StagedFile)
    ensures ReadyFiles([]) == []
    ensures ReadyFiles([f]) == if f.status == Ready then [f] else []
  {
    assert [f][1..] == [];
  }

  lemma {:induction false} ReadyFilesAllReady(staged: seq<StagedFile>)
    requires forall k :: 0 <= k < |staged| ==> staged[k].status == Ready
    ensures ReadyFiles(staged) == staged
    decreases |staged|
  {
    if |staged| > 0 {
      ReadyFilesAllReady(staged[1..]);
      assert [staged[0]] + staged[1..] == staged;
    }
  }

  /** There is no ready file exactly when no staged file is in the `ready` state. */
  lemma NoReadyFiles(staged: seq<StagedFile>)
    ensures |ReadyFiles(staged)| == 0 <==> forall k :: 0 <= k < |staged| ==> staged[k].status != Ready
  {
    if |ReadyFiles(staged)| > 0 {
      var r := ReadyFiles(staged);
      var k :| 0 <= k < |staged| && staged[k] == r[0];
    } else {
      forall k | 0 <= k < |staged| ensures staged[k].status != Ready {
        assert staged[k] in staged;
      }
    }
  }

  /** Removes every entry with the given id; the others keep their order. */
  function RemoveId(staged: seq<StagedFile>, id: FileId): (r: seq<StagedFile>)
    ensures forall k :: 0 <= k < |r| ==> r[k].id != id
    decreases |staged|
  {
    if |staged| == 0 then []
    else (if staged[0].id == id then [] else [staged[0]]) + RemoveId(staged[1..], id)
  }

  /** Sets the status of every entry with the given id; nothing else changes. */
  function SetStatus(staged: seq<StagedFile>, id: FileId, status: FileStatus): (r: seq<StagedFile>)
    ensures |r| == |staged|
    ensures forall k :: 0 <= k < |r| ==> r[k] == if staged[k].id == id then staged[k].(status := status) else staged[k]
  {
    seq(|staged|, k requires 0 <= k < |staged| => if staged[k].id == id then staged[k].(status := status) else staged[k])
  }

  /** Setting a status and then removing the same id is the same as removing it. */
  lemma {:induction false} RemoveAfterSetStatus(staged: seq<StagedFile>, id: FileId, status: FileStatus)
    ensures RemoveId(SetStatus(staged, id, status), id) == RemoveId(staged, id)
    decreases |staged|
  {
    if |staged| > 0 {
      assert SetStatus(staged, id, status)[1..] == SetStatus(staged[1..], id, status);
      RemoveAfterSetStatus(staged[1..], id, status);
    }
  }

  lemma SetStatusTwice(staged: seq<StagedFile>, id: FileId, s1: FileStatus, s2: FileStatus)
    ensures SetStatus(SetStatus(staged, id, s1), id, s2) == SetStatus(staged, id, s2)
  {
  }

  lemma SetStatusConcat(a: seq<StagedFile>, b: seq<StagedFile>, id: FileId, status: FileStatus)
    ensures SetStatus(a + b, id, status) == SetStatus(a, id, status) + SetStatus(b, id, status)
  {
  }

  /** Updates of different ids commute. */
  lemma {:induction false} RemoveCommutesWithSetStatus(staged: seq<StagedFile>, x: FileId, y: FileId, status: FileStatus)
    requires x != y
    ensures RemoveId(SetStatus(staged, y, status), x) == SetStatus(RemoveId(staged, x), y, status)
    decreases |staged|
  {
    if |staged| > 0 {
      var h := staged[0];
      var t := staged[1..];
      var h' := SetStatus([h], y, status);
      assert staged == [h] + t;
      SetStatusConcat([h], t, y, status);
      var st := SetStatus(staged, y, status);
      assert st == h' + SetStatus(t, y, status);
      assert st[0] == h'[0] && st[0].id == h.id;
      assert st[1..] == SetStatus(t, y, status);
      RemoveCommutesWithSetStatus(t, x, y, status);
      var rest := RemoveId(t, x);
      if h.id == x {
        assert RemoveId(staged, x) == rest;
      } else {
        assert RemoveId(staged, x) == [h] + rest;
        SetStatusConcat([h], rest, y, status);
      }
    }
  }

  lemma SetStatusCommutes(staged: seq<StagedFile>, x: FileId, sx: FileStatus, y: FileId, sy: FileStatus)
    requires x != y
    ensures SetStatus(SetStatus(staged, y, sy), x, sx) == SetStatus(SetStatus(staged, x, sx), y, sy)
  {
  }

  /** Entries whose id is not in `ids`, in order: the part of the list an
      update confined to `ids` must leave alone. */
  function Others(staged: seq<StagedFile>, ids: set<FileId>): seq<StagedFile>
    decreases |staged|
  {
    if |staged| == 0 then []
    else (if staged[0].id in ids then [] else [staged[0]]) + Others(staged[1..], ids)
  }

  lemma {:induction false} OthersAfterRemove(staged: seq<StagedFile>, id: FileId, ids: set<FileId>)
    requires id in ids
    ensures Others(RemoveId(staged, id), ids) == Others(staged, ids)
    decreases |staged|
  {
    if |staged| > 0 {
      var h := staged[0];
      OthersAfterRemove(staged[1..], id, ids);
      var rest := RemoveId(staged[1..], id);
      if h.id == id {
        assert RemoveId(staged, id) == rest;
      } else {
        assert RemoveId(staged, id) == [h] + rest;
        assert ([h] + rest)[0] == h;
        assert ([h] + rest)[1..] == rest;
      }
    }
  }

  lemma {:induction false} OthersAfterSetStatus(staged: seq<StagedFile>, id: FileId, status: FileStatus, ids: set<FileId>)
    requires id in ids
    ensures Others(SetStatus(staged, id, status), ids) == Others(staged, ids)
    decreases |staged|
  {
    if |staged| > 0 {
      assert SetStatus(staged, id, status)[1..] == SetStatus(staged[1..], id, status);
      OthersAfterSetStatus(staged[1..], id, status, ids);
    }
  }

  /** The ids of the files, in order. */
  function Ids(fs: seq<StagedFile>): (r: seq<FileId>)
    ensures |r| == |fs|
    ensures forall k :: 0 <= k < |fs| ==> r[k] == fs[k].id
  {
    seq(|fs|, k requires 0 <= k < |fs| => fs[k].id)
  }

  /** No entry carries an id from `ids`. */
  predicate NoneWithId(staged: seq<StagedFile>, ids: set<FileId>) {
    forall k :: 0 <= k < |staged| ==> staged[k].id !in ids
  }

  lemma {:induction false} OthersOfNoneWithId(staged: seq<StagedFile>, ids: set<FileId>)
    requires NoneWithId(staged, ids)
    ensures Others(staged, ids) == staged
    decreases |staged|
  {
    if |staged| > 0 {
      OthersOfNoneWithId(staged[1..], ids);
      assert [staged[0]] + staged[1..] == staged;
    }
  }

  /** Removal never brings back an id that was already gone. */
  lemma {:induction false} RemoveIdKeepsNone(staged: seq<StagedFile>, id: FileId, ids: set<FileId>)
    requires NoneWithId(staged, ids)
    ensures NoneWithId(RemoveId(staged, id), ids + {id})
    decreases |staged|
  {
    if |staged| > 0 {
      RemoveIdKeepsNone(staged[1..], id, ids);
      var rest := RemoveId(staged[1..], id);
      if staged[0].id != id {
        assert RemoveId(staged, id) == [staged[0]] + rest;
      } else {
        assert RemoveId(staged, id) == rest;
      }
    }
  }

  /** The status update that `processFile` applies to each file of a batch
      before any answer arrives (App.tsx:157), for all files in order. */
  function MarkAll(staged: seq<StagedFile>, fs: seq<StagedFile>, status: FileStatus): (r: seq<StagedFile>)
    ensures |r| == |staged|
    decreases |fs|
  {
    if |fs| == 0 then staged else MarkAll(SetStatus(staged, fs[0].id, status), fs[1..], status)
  }

  lemma {:induction false} MarkAllKeepsOthers(staged: seq<StagedFile>, fs: seq<StagedFile>, status: FileStatus, ids: set<FileId>)
    requires forall k :: 0 <= k < |fs| ==> fs[k].id in ids
    ensures Others(MarkAll(staged, fs, status), ids) == Others(staged, ids)
    decreases |fs|
  {
    if |fs| > 0 {
      OthersAfterSetStatus(staged, fs[0].id, status, ids);
      MarkAllKeepsOthers(SetStatus(staged, fs[0].id, status), fs[1..], status, ids);
    }
  }

  lemma {:induction false} MarkAllKeepsNone(staged: seq<StagedFile>, fs: seq<StagedFile>, status: FileStatus, ids: set<FileId>)
    requires NoneWithId(staged, ids)
    ensures NoneWithId(MarkAll(staged, fs, status), ids)
    decreases |fs|
  {
    if |fs| > 0 {
      MarkAllKeepsNone(SetStatus(staged, fs[0].id, status), fs[1..], status, ids);
    }
  }

  /** Removing an id commutes with marking files that carry other ids. */
  lemma {:induction false} RemoveCommutesWithMarkAll(staged: seq<StagedFile>, id: FileId, fs: seq<StagedFile>, status: FileStatus)
    requires id !in Ids(fs)
    ensures RemoveId(MarkAll(staged, fs, status), id) == MarkAll(RemoveId(staged, id), fs, status)
    decreases |fs|
  {
    if |fs| > 0 {
      assert Ids(fs[1..]) == Ids(fs)[1..];
      RemoveCommutesWithSetStatus(staged, id, fs[0].id, status);
      RemoveCommutesWithMarkAll(SetStatus(staged, fs[0].id, status), id, fs[1..], status);
    }
  }

  /** Setting one id's status commutes with marking files that carry other ids. */
  lemma {:induction false} SetStatusCommutesWithMarkAll(staged: seq<StagedFile>, id: FileId, s: FileStatus, fs: seq<StagedFile>, status: FileStatus)
    requires id !in Ids(fs)
    ensures SetStatus(MarkAll(staged, fs, status), id, s) == MarkAll(SetStatus(staged, id, s), fs, status)
    decreases |fs|
  {
    if |fs| > 0 {
      assert Ids(fs[1..]) == Ids(fs)[1..];
      SetStatusCommutes(staged, id, s, fs[0].id, status);
      SetStatusCommutesWithMarkAll(SetStatus(staged, fs[0].id, status), id, s, fs[1..], status);
    }
  }

  /** The set of ids the files carry. */
  function IdSet(fs: seq<StagedFile>): set<FileId> {
    set k | 0 <= k < |fs| :: fs[k].id
  }

  lemma {:induction false} RemoveIdElements(staged: seq<StagedFile>, id: FileId)
    ensures forall e :: e in RemoveId(staged, id) ==> e in staged
    decreases |staged|
  {
    if |staged| > 0 {
      RemoveIdElements(staged[1..], id);
    }
  }
}

=== FILE: text.dfy ===
/** ASCII text helpers shared by the whole model.

    The application runs on JavaScript strings; this model restricts them to
    ASCII and treats the six ASCII white-space characters as the white space
    that `String.prototype.trim` and the `\s` regular-expression class
    recognise. Unicode case mapping is not modelled.
 */
module Text {

  import opened Lists

  /** The ASCII white-space characters: space, tab, line feed, carriage return,
      vertical tab and form feed. */
  predicate IsWhite(c: char) {
    c == ' ' || c == '\t' || c == '\n' || c == '\r' || c == '\U{000B}' || c == '\U{000C}'
  }

  predicate AllWhite(s: string) {
    forall i :: 0 <= i < |s| ==> IsWhite(s[i])
  }

  predicate IsUpperLetter(c: char) { 'A' <= c <= 'Z' }

  predicate IsLowerLetter(c: char) { 'a' <= c <= 'z' }

  function LowerChar(c: char): (r: char)
    ensures IsUpperLetter(c) ==> IsLowerLetter(r) && r as int == c as int + 32
    ensures !IsUpperLetter(c) ==> r == c
  {
    if IsUpperLetter(c) then (c as int + 32) as char else c
  }

  function UpperChar(c: char): (r: char)
    ensures IsLowerLetter(c) ==> IsUpperLetter(r) && r as int == c as int - 32
    ensures !IsLowerLetter(c) ==> r == c
  {
    if IsLowerLetter(c) then (c as int - 32) as char else c
  }

  /** `toLowerCase` on ASCII text: letters are lowered one by one, the rest is kept. */
  function Lower(s: string): (r: string)
    ensures |r| == |s|
    ensures forall i :: 0 <= i < |s| ==> r[i] == LowerChar(s[i])
  {
    seq(|s|, i requires 0 <= i < |s| => LowerChar(s[i]))
  }

  predicate NoUpper(s: string) {
    forall i :: 0 <= i < |s| ==> !IsUpperLetter(s[i])
  }

  lemma LowerHasNoUpper(s: string)
    ensures NoUpper(Lower(s))
  {
  }

  lemma LowerOfNoUpper(s: string)
    requires NoUpper(s)
    ensures Lower(s) == s
  {
  }

  /** The number of white-space characters at the start of `s`. */
  function LeadingWhite(s: string): (n: nat)
    ensures n <= |s|
    decreases |s|
  {
    if |s| > 0 && IsWhite(s[0]) then 1 + LeadingWhite(s[1..]) else 0
  }

  lemma {:induction false} LeadingWhiteSpan(s: string)
    ensures forall i :: 0 <= i < LeadingWhite(s) ==> IsWhite(s[i])
    ensures LeadingWhite(s) < |s| ==> !IsWhite(s[LeadingWhite(s)])
    decreases |s|
  {
    if |s| > 0 && IsWhite(s[0]) {
      LeadingWhiteSpan(s[1..]);
    }
  }

  /** The number of white-space characters at the end of `s`. */
  function TrailingWhite(s: string): (n: nat)
    ensures n <= |s|
    ensures forall i :: |s| - n <= i < |s| ==> IsWhite(s[i])
    ensures n < |s| ==> !IsWhite(s[|s| - 1 - n])
    decreases |s|
  {
    if |s| > 0 && IsWhite(s[|s| - 1]) then 1 + TrailingWhite(s[..|s| - 1]) else 0
  }

  /** `String.prototype.trim`: the white space at both ends is removed, the
      inside is kept as it is. */
  function Trim(s: string): (r: string)
    ensures LeadingWhite(s) + |r| <= |s| && r == s[LeadingWhite(s)..LeadingWhite(s) + |r|]
    ensures forall i :: 0 <= i < LeadingWhite(s) || LeadingWhite(s) + |r| <= i < |s| ==> IsWhite(s[i])
    ensures |r| > 0 ==> !IsWhite(r[0]) && !IsWhite(r[|r| - 1])
    ensures |r| == 0 <==> AllWhite(s)
  {
    LeadingWhiteSpan(s);
    var a := LeadingWhite(s);
    if a == |s| then "" else s[a..|s| - TrailingWhite(s)]
  }

  lemma TrimOfTrimmed(s: string)
    requires |s| > 0 ==> !IsWhite(s[0]) && !IsWhite(s[|s| - 1])
    ensures Trim(s) == s
  {
  }

  /** `Array.prototype.join`: the parts separated by `sep`. */
  function Join(parts: seq<string>, sep: string): string
    decreases |parts|
  {
    if |parts| == 0 then ""
    else if |parts| == 1 then parts[0]
    else parts[0] + sep + Join(parts[1..], sep)
  }

  lemma JoinAppend(parts: seq<string>, p: string, sep: string)
    requires |parts| > 0
    ensures Join(parts + [p], sep) == Join(parts, sep) + sep + p
    decreases |parts|
  {
    if |parts| > 1 {
      assert (parts + [p])[1..] == parts[1..] + [p];
      JoinAppend(parts[1..], p, sep);
    }
  }

  /** `s.split(', ')`: the pieces between the occurrences of ", ", found
      from the left. */
  function SplitList(s: string): (r: seq<string>)
    ensures |r| >= 1
    decreases |s|
  {
    if |s| == 0 then [""]
    else if |s| >= 2 && s[0] == ',' && s[1] == ' ' then [""] + SplitList(s[2..])
    else
      var rest := SplitList(s[1..]);
      [[s[0]] + rest[0]] + rest[1..]
  }

  /** No ", " inside the text. */
  predicate NoSeparator(k: string) {
    forall i :: 0 <= i < |k| - 1 ==> !(k[i] == ',' && k[i + 1] == ' ')
  }

  lemma {:induction false} SplitListPrefix(k: string, t: string)
    requires NoSeparator(k)
    requires |t| == 0 || (|t| >= 2 && t[0] == ',' && t[1] == ' ')
    ensures SplitList(k + t) == [k + SplitList(t)[0]] + SplitList(t)[1..]
    decreases |k|
  {
    if |k| > 0 {
      var s := k + t;
      var tail := k[1..];
      assert s[0] == k[0] && s[1..] == tail + t;
      // The text does not start with the separator.
      if |s| >= 2 && s[0] == ',' {
        if |k| > 1 {
          assert s[1] == k[1];
          assert !(k[0] == ',' && k[1] == ' ');
        } else {
          assert s[1] == t[0];
        }
      }
      assert !(|s| >= 2 && s[0] == ',' && s[1] == ' ');
      assert NoSeparator(tail) by {
        forall i | 0 <= i < |tail| - 1 ensures !(tail[i] == ',' && tail[i + 1] == ' ') {
          assert tail[i] == k[i + 1] && tail[i + 1] == k[i + 2];
        }
      }
      var rest := SplitList(tail + t);
      assert SplitList(s) == [[k[0]] + rest[0]] + rest[1..];
      SplitListPrefix(tail, t);
      assert rest[0] == tail + SplitList(t)[0];
      assert rest[1..] == SplitList(t)[1..];
      assert [k[0]] + (tail + SplitList(t)[0]) == k + SplitList(t)[0];
    } else {
      assert k + t == t;
    }
  }

  /** `split(', ')` undoes `join(', ')` for parts that do not contain the
      separator. */
  lemma {:induction false} JoinSplitsBack(ks: seq<string>)
    requires |ks| > 0
    requires forall i :: 0 <= i < |ks| ==> NoSeparator(ks[i])
    ensures SplitList(Join(ks, ", ")) == ks
    decreases |ks|
  {
    if |ks| == 1 {
      SplitListPrefix(ks[0], "");
      assert ks[0] + "" == ks[0];
    } else {
      var more := Join(ks[1..], ", ");
      JoinSplitsBack(ks[1..]);
      assert Join(ks, ", ") == ks[0] + (", " + more);
      assert (", " + more)[2..] == more;
      SplitListPrefix(ks[0], ", " + more);
      assert SplitList(", " + more) == [""] + ks[1..];
      assert ks[0] + "" == ks[0];
      assert [ks[0]] + ks[1..] == ks;
    }
  }

  function DigitChar(d: nat): (c: char)
    requires d < 10
    ensures '0' <= c <= '9'
  {
    ('0' as int + d) as char
  }

  predicate IsDigit(c: char) { '0' <= c <= '9' }

  /** 2 to the power `n`. */
  function Pow2(n: nat): (r: nat)
    ensures r >= 1
  {
    if n == 0 then 1 else 2 * Pow2(n - 1)
  }

  /** `String(n)` for a natural number: decimal digits without leading zeros. */
  function NatToString(n: nat): (r: string)
    ensures |r| >= 1
    ensures forall i :: 0 <= i < |r| ==> IsDigit(r[i])
    ensures |r| > 1 ==> r[0] != '0'
    decreases n
  {
    if n < 10 then [DigitChar(n)] else NatToString(n / 10) + [DigitChar(n % 10)]
  }

  /** Reads a string of decimal digits back as a number. */
  function ParseNat(s: string): nat
    requires forall i :: 0 <= i < |s| ==> IsDigit(s[i])
    decreases |s|
  {
    if |s| == 0 then 0
    else
      assert IsDigit(s[|s| - 1]);
      10 * ParseNat(s[..|s| - 1]) + (s[|s| - 1] as int - '0' as int)
  }

  lemma {:induction false} ParseNatToString(n: nat)
    ensures ParseNat(NatToString(n)) == n
    decreases n
  {
    if n >= 10 {
      var p := NatToString(n / 10);
      assert (p + [DigitChar(n % 10)])[..|p|] == p;
      ParseNatToString(n / 10);
    }
  }

  /** Distinct numbers print differently. */
  lemma NatToStringInjective(m: nat, n: nat)
    requires NatToString(m) == NatToString(n)
    ensures m == n
  {
    ParseNatToString(m);
    ParseNatToString(n);
  }

  /** Keeps the first occurrence of every element not already in `seen`. */
  function DedupFrom(xs: seq<string>, seen: set<string>): (r: seq<string>)
    ensures forall x :: x in r <==> x in xs && x !in seen
    ensures NoDup(r)
    ensures |r| <= |xs|
    decreases |xs|
  {
    if |xs| == 0 then []
    else if xs[0] in seen then DedupFrom(xs[1..], seen)
    else
      var rest := DedupFrom(xs[1..], seen + {xs[0]});
      assert forall k :: 0 <= k < |rest| ==> rest[k] != xs[0];
      [xs[0]] + rest
  }

  /** `[...new Set(xs)]`: the distinct elements in order of first occurrence. */
  function Dedup(xs: seq<string>): seq<string> {
    DedupFrom(xs, {})
  }

  /** An independent reference for `Dedup`, built from the back: the last
      element survives exactly when it did not occur earlier. */
  function FirstOccurrences(xs: seq<string>): seq<string>
    decreases |xs|
  {
    if |xs| == 0 then []
    else
      var init := xs[..|xs| - 1];
      FirstOccurrences(init) + (if xs[|xs| - 1] in init then [] else [xs[|xs| - 1]])
  }

  lemma {:induction false} DedupFromSnoc(xs: seq<string>, x: string, seen: set<string>)
    ensures DedupFrom(xs + [x], seen) == DedupFrom(xs, seen) + (if x in seen || x in xs then [] else [x])
    decreases |xs|
  {
    if |xs| > 0 {
      var ys := xs + [x];
      assert ys[0] == xs[0] && ys[1..] == xs[1..] + [x];
      var keep := x in seen || x in xs;
      assert keep <==> x in seen || x in xs[1..] || x == xs[0];
      if xs[0] in seen {
        DedupFromSnoc(xs[1..], x, seen);
        assert DedupFrom(ys, seen) == DedupFrom(xs[1..] + [x], seen);
        assert DedupFrom(xs, seen) == DedupFrom(xs[1..], seen);
      } else {
        var seen' := seen + {xs[0]};
        var tail := DedupFrom(xs[1..], seen');
        var extra := if x in seen' || x in xs[1..] then [] else [x];
        DedupFromSnoc(xs[1..], x, seen');
        assert DedupFrom(ys, seen) == [xs[0]] + DedupFrom(xs[1..] + [x], seen');
        assert DedupFrom(xs, seen) == [xs[0]] + tail;
        assert extra == (if keep then [] else [x]);
        assert [xs[0]] + (tail + extra) == ([xs[0]] + tail) + extra;
      }
    }
  }

  /** `Dedup` agrees with the reference: it keeps first occurrences, in order. */
  lemma {:induction false} DedupIsFirstOccurrences(xs: seq<string>)
    ensures Dedup(xs) == FirstOccurrences(xs)
    decreases |xs|
  {
    if |xs| > 0 {
      var init := xs[..|xs| - 1];
      assert xs == init + [xs[|xs| - 1]];
      DedupIsFirstOccurrences(init);
      DedupFromSnoc(init, xs[|xs| - 1], {});
    }
  }

  /** The number of non-white characters at the start of `s`. */
  function WordLength(s: string): (n: nat)
    ensures n <= |s|
    ensures forall i :: 0 <= i < n ==> !IsWhite(s[i])
    ensures n < |s| ==> IsWhite(s[n])
    decreases |s|
  {
    if |s| == 0 || IsWhite(s[0]) then 0 else 1 + WordLength(s[1..])
  }

  /** A non-empty run of non-white characters. */
  predicate IsWord(w: string) {
    |w| > 0 && forall i :: 0 <= i < |w| ==> !IsWhite(w[i])
  }

  /** `s.split(/\s+/).filter(Boolean)`: the maximal runs of non-white characters. */
  function Words(s: string): (ws: seq<string>)
    ensures forall k :: 0 <= k < |ws| ==> IsWord(ws[k])
    decreases |s|
  {
    LeadingWhiteSpan(s);
    var a := LeadingWhite(s);
    if a == |s| then []
    else
      var n := WordLength(s[a..]);
      [s[a..a + n]] + Words(s[a + n..])
  }

  /** Reference for the word count: the number of positions where a run of
      non-white characters begins (`afterWhite` says whether the previous
      character was white or absent). */
  function WordStarts(s: string, afterWhite: bool): nat
    decreases |s|
  {
    if |s| == 0 then 0
    else (if afterWhite && !IsWhite(s[0]) then 1 else 0) + WordStarts(s[1..], IsWhite(s[0]))
  }

  lemma {:induction false} WordStartsWhitePrefix(s: string, k: nat, b: bool)
    requires k <= |s| && (forall i :: 0 <= i < k ==> IsWhite(s[i])) && (k > 0 || b)
    ensures WordStarts(s, b) == WordStarts(s[k..], true)
    decreases k
  {
    if k > 0 {
      WordStartsWhitePrefix(s[1..], k - 1, true);
      assert s[1..][k - 1..] == s[k..];
    }
  }

  lemma {:induction false} WordStartsInsideWord(s: string, k: nat, b: bool)
    requires 0 < k <= |s|
    requires forall i :: 0 <= i < k ==> !IsWhite(s[i])
    ensures WordStarts(s, b) == (if b then 1 else 0) + WordStarts(s[k..], false)
    decreases k
  {
    if k > 1 {
      WordStartsInsideWord(s[1..], k - 1, false);
      assert s[1..][k - 1..] == s[k..];
    } else {
      assert s[1..] == s[k..];
    }
  }

  lemma WordStartsAtWhite(s: string)
    requires |s| == 0 || IsWhite(s[0])
    ensures WordStarts(s, false) == WordStarts(s, true)
  {
  }

  /** The text after the first word, when there is one. */
  function AfterFirstWord(s: string): string
    requires LeadingWhite(s) < |s|
  {
    var a := LeadingWhite(s);
    s[a + WordLength(s[a..])..]
  }

  lemma WordStartsFirstWord(s: string)
    requires LeadingWhite(s) < |s|
    ensures WordStarts(s, true) == 1 + WordStarts(AfterFirstWord(s), true)
  {
    var a := LeadingWhite(s);
    LeadingWhiteSpan(s);
    var t := s[a..];
    var n := WordLength(t);
    assert t[0] == s[a];
    assert t[n..] == AfterFirstWord(s);
    WordStartsWhitePrefix(s, a, true);
    WordStartsInsideWord(t, n, true);
    WordStartsAtWhite(t[n..]);
  }

  lemma WordsFirstWord(s: string)
    requires LeadingWhite(s) < |s|
    ensures |Words(s)| == 1 + |Words(AfterFirstWord(s))|
  {
  }

  lemma WordsNone(s: string)
    requires LeadingWhite(s) == |s|
    ensures |Words(s)| == 0 && WordStarts(s, true) == 0
  {
    LeadingWhiteSpan(s);
    WordStartsWhitePrefix(s, |s|, true);
    assert s[|s|..] == [];
  }

  /** The word count agrees with the count of word starts. */
  lemma {:induction false} WordsCountsWordStarts(s: string)
    ensures |Words(s)| == WordStarts(s, true)
    decreases |s|
  {
    if LeadingWhite(s) == |s| {
      WordsNone(s);
    } else {
      WordStartsFirstWord(s);
      WordsFirstWord(s);
      WordsCountsWordStarts(AfterFirstWord(s));
    }
  }
}

=== FILE: types.dfy ===
/** The application's data model (types.ts) and its constants (constants.ts). */
module Types {

  import opened Wrappers

  /** Requests one API key may carry per one-minute window. */
  const REQUEST_PER_MINUTE: nat := 15

  /** Batch size used when the setting is 0 or missing. */
  const BATCH_SIZE: nat := 3

  /** Gallery tiles shown before the overflow tile takes over. */
  const GALLERY_DISPLAY_LIMIT: nat := 21

  /** The generation mode ("tab"): full stock metadata, or a description-only prompt. */
  datatype Tab = Metadata | Prompt

  /** The life cycle of a staged file. */
  datatype FileStatus = Compressing | Ready | Processing | Error

  /** The compact encoded payload sent to the model. */
  datatype ApiData = ApiData(base64Data: string, mimeType: string)

  /** The parts of a browser `File` the application reads. */
  datatype FileInfo = FileInfo(name: string, mimeType: string, lastModified: int)

  /** The id `file-<Date.now()>-<Math.random()>` that `handleFiles` gives a
      staged file. It is only ever compared for equality, so it stands here
      as a numeric token chosen by the caller. */
  type FileId = nat

  datatype StagedFile = StagedFile(
    file: FileInfo,
    id: FileId,
    status: FileStatus,
    thumbnailDataUrl: string,
    apiData: Option<ApiData>)

  /** The parsed JSON answer of the model. Every field may be absent. */
  datatype Response = Response(
    title: Option<string>,
    description: Option<string>,
    keywords: Option<seq<string>>,
    category: Option<string>)

  /** One result record shown in the results panel and exported to CSV. */
  datatype GeneratedMetadata = GeneratedMetadata(
    title: Option<string>,
    description: Option<string>,
    keywords: Option<seq<string>>,
    category: Option<string>,
    thumbnailUrl: string,
    filename: string,
    mode: Tab,
    apiData: Option<ApiData>)

  datatype AdvanceTitle = AdvanceTitle(transparentBg: bool, whiteBg: bool, vector: bool, illustration: bool)

  datatype CustomPromptSelect = DefaultTemplate | SetCustom

  datatype PromptSwitches = PromptSwitches(silhouette: bool, whiteBg: bool, transparentBg: bool, customPrompt: bool)

  /** The generation options. Sliders hold whole numbers; a missing or zero
      `batchSize` is represented by 0. */
  datatype ControlSettings = ControlSettings(
    activeTab: Tab,
    titleLength: nat,
    descLength: nat,
    keywordsCount: nat,
    batchSize: nat,
    advanceTitle: AdvanceTitle,
    isAdvanceContentHidden: bool,
    customPromptSelect: CustomPromptSelect,
    customPromptEntry: string,
    descWords: nat,
    promptSwitches: PromptSwitches,
    customPromptEntryPrompt: string)

  datatype Settings = Settings(
    themeColor: string,
    selectedStockSite: string,
    fileExtension: string,
    controls: ControlSettings)

  const DEFAULT_SETTINGS: Settings := Settings(
    "#f05a27",
    "General",
    "default",
    ControlSettings(
      Metadata, 60, 150, 30, 3,
      AdvanceTitle(false, false, false, false),
      true, DefaultTemplate, "", 40,
      PromptSwitches(false, false, false, false),
      ""))
}

=== FILE: upload_panel.dfy ===
/** The upload panel's own logic (components/UploadPanel.tsx): which dropped
    files are staged and how their preparation updates the list, when the
    generate button is enabled, which tiles the gallery shows, and the
    removal of one staged file. */
module UploadPanel {

  import opened Wrappers
  import opened Lists
  import opened Types
  import opened StagedList
  import opened Generation

  // ---------------------------------------------------------------------
  // Accepted file types (UploadPanel.tsx:95)

  const IMAGE_SUBTYPES: seq<string> := ["jpeg", "png", "gif", "svg+xml"]
  const VIDEO_SUBTYPES: seq<string> := ["mp4", "quicktime"]
  const APPLICATION_SUBTYPES: seq<string> := ["postscript", "pdf"]

  /** `family\/(a|b|…)` matched against the whole type. */
  predicate MatchesFamily(t: string, family: string, subtypes: seq<string>) {
    && |family| < |t|
    && t[..|family|] == family
    && t[|family|] == '/'
    && t[|family| + 1..] in subtypes
  }

  /** The anchored pattern
      `^(image\/(jpeg|png|gif|svg\+xml)|video\/(mp4|quicktime)|application\/(postscript|pdf))$`. */
  predicate Accepted(mimeType: string) {
    || MatchesFamily(mimeType, "image", IMAGE_SUBTYPES)
    || MatchesFamily(mimeType, "video", VIDEO_SUBTYPES)
    || MatchesFamily(mimeType, "application", APPLICATION_SUBTYPES)
  }

  /** The eight types the panel advertises: JPG, PNG, GIF, SVG, MP4, MOV,
      EPS/AI and PDF. */
  const ACCEPTED_TYPES: seq<string> :=
    ["image/jpeg", "image/png", "image/gif", "image/svg+xml",
     "video/mp4", "video/quicktime", "application/postscript", "application/pdf"]

  /** `family/sub` split back into its family and subtype. */
  lemma MatchesFamilyIsJoin(t: string, family: string, subtypes: seq<string>)
    ensures MatchesFamily(t, family, subtypes)
            <==> exists k :: 0 <= k < |subtypes| && t == family + "/" + subtypes[k]
  {
    if MatchesFamily(t, family, subtypes) {
      var k :| 0 <= k < |subtypes| && t[|family| + 1..] == subtypes[k];
      assert t == t[..|family|] + "/" + t[|family| + 1..];
    }
    if exists k :: 0 <= k < |subtypes| && t == family + "/" + subtypes[k] {
      var k :| 0 <= k < |subtypes| && t == family + "/" + subtypes[k];
      assert t[..|family|] == family;
      assert t[|family| + 1..] == subtypes[k];
    }
  }

  lemma ImageTypes(t: string)
    ensures MatchesFamily(t, "image", IMAGE_SUBTYPES) <==> t == "image/jpeg" || t == "image/png" || t == "image/gif" || t == "image/svg+xml"
  {
    MatchesFamilyIsJoin(t, "image", IMAGE_SUBTYPES);
    assert "image" + "/" + "jpeg" == "image/jpeg";
    assert "image" + "/" + "png" == "image/png";
    assert "image" + "/" + "gif" == "image/gif";
    assert "image" + "/" + "svg+xml" == "image/svg+xml";
  }

  lemma VideoTypes(t: string)
    ensures MatchesFamily(t, "video", VIDEO_SUBTYPES) <==> t == "video/mp4" || t == "video/quicktime"
  {
    MatchesFamilyIsJoin(t, "video", VIDEO_SUBTYPES);
    assert "video" + "/" + "mp4" == "video/mp4";
    assert "video" + "/" + "quicktime" == "video/quicktime";
  }

  lemma ApplicationTypes(t: string)
    ensures MatchesFamily(t, "application", APPLICATION_SUBTYPES) <==> t == "application/postscript" || t == "application/pdf"
  {
    MatchesFamilyIsJoin(t, "application", APPLICATION_SUBTYPES);
    assert "application" + "/" + "postscript" == "application/postscript";
    assert "application" + "/" + "pdf" == "application/pdf";
  }

  /** The pattern accepts exactly the eight types. */
  lemma AcceptedTypes(t: string)
    ensures Accepted(t) <==> t in ACCEPTED_TYPES
  {
    ImageTypes(t);
    VideoTypes(t);
    ApplicationTypes(t);
  }

  // ---------------------------------------------------------------------
  // Staging dropped files (UploadPanel.tsx:89-116)

  /** The grey one-pixel image a new entry shows until its thumbnail is made. */
  const PLACEHOLDER_THUMBNAIL: string :=
    "data:image/gif;base64," + "R0lGODlhAQABAIAAAMLCwgAAACH5" + "BAAAAAAALAAAAAABAAEAAAICRAEAOw=="

  /** Two files are taken to be the same when name and modification time agree. */
  predicate SameFile(a: FileInfo, b: FileInfo) {
    a.name == b.name && a.lastModified == b.lastModified
  }

  predicate AlreadyStaged(staged: seq<StagedFile>, f: FileInfo) {
    exists k :: 0 <= k < |staged| && SameFile(staged[k].file, f)
  }

  /** Whether the `i`-th dropped file gets a new entry. Only the list as it
      was before the drop is consulted, so a file dropped twice at once is
      staged twice. */
  predicate Takes(staged: seq<StagedFile>, f: FileInfo) {
    Accepted(f.mimeType) && !AlreadyStaged(staged, f)
  }

  /** The fresh entry of a dropped file. */
  function Fresh(f: FileInfo, id: FileId): StagedFile {
    StagedFile(f, id, Compressing, PLACEHOLDER_THUMBNAIL, None)
  }

  /** The new entries, in drop order; `ids[i]` is the id drawn for the
      `i`-th dropped file. */
  function NewEntries(files: seq<FileInfo>, staged: seq<StagedFile>, ids: seq<FileId>): seq<StagedFile>
    requires |ids| == |files|
    decreases |files|
  {
    if |files| == 0 then []
    else
      (if Takes(staged, files[0]) then [Fresh(files[0], ids[0])] else [])
      + NewEntries(files[1..], staged, ids[1..])
  }

  /** The names of the dropped files of an unsupported type, one warning each. */
  function Unsupported(files: seq<FileInfo>): seq<string>
    decreases |files|
  {
    if |files| == 0 then []
    else (if Accepted(files[0].mimeType) then [] else [files[0].name]) + Unsupported(files[1..])
  }

  /** What a drop does at once: the new entries go after the staged ones. */
  datatype Drop = Drop(staged: seq<StagedFile>, added: seq<StagedFile>, warnings: seq<string>)

  function HandleFiles(files: seq<FileInfo>, staged: seq<StagedFile>, ids: seq<FileId>): (d: Drop)
    requires |ids| == |files|
    ensures d.staged == staged + d.added
  {
    var added := NewEntries(files, staged, ids);
    Drop(staged + added, added, Unsupported(files))
  }

  /** Every new entry starts compressing, with the placeholder image and no
      payload, and comes from a dropped file that is taken. */
  lemma {:induction false} NewEntriesFresh(files: seq<FileInfo>, staged: seq<StagedFile>, ids: seq<FileId>)
    requires |ids| == |files|
    ensures var added := NewEntries(files, staged, ids);
            && |added| <= |files|
            && (forall e :: e in added ==> exists i :: 0 <= i < |files| && Takes(staged, files[i]) && e == Fresh(files[i], ids[i]))
    decreases |files|
  {
    if |files| > 0 {
      NewEntriesFresh(files[1..], staged, ids[1..]);
      var rest := NewEntries(files[1..], staged, ids[1..]);
      forall e | e in rest
        ensures exists i :: 0 <= i < |files| && Takes(staged, files[i]) && e == Fresh(files[i], ids[i])
      {
        var j :| 0 <= j < |files| - 1 && Takes(staged, files[1..][j]) && e == Fresh(files[1..][j], ids[1..][j]);
        assert files[1..][j] == files[j + 1] && ids[1..][j] == ids[j + 1];
      }
    }
  }

  /** Every dropped file that is taken gets its entry. */
  lemma {:induction false} NewEntriesComplete(files: seq<FileInfo>, staged: seq<StagedFile>, ids: seq<FileId>)
    requires |ids| == |files|
    ensures forall i :: 0 <= i < |files| && Takes(staged, files[i]) ==> Fresh(files[i], ids[i]) in NewEntries(files, staged, ids)
    decreases |files|
  {
    if |files| > 0 {
      NewEntriesComplete(files[1..], staged, ids[1..]);
      forall i | 1 <= i < |files| && Takes(staged, files[i])
        ensures Fresh(files[i], ids[i]) in NewEntries(files, staged, ids)
      {
        assert files[1..][i - 1] == files[i] && ids[1..][i - 1] == ids[i];
      }
    }
  }

  /** Dropping the same files again right after adds nothing. */
  lemma {:induction false} RedropAddsNothing(files: seq<FileInfo>, staged: seq<StagedFile>, ids: seq<FileId>, ids2: seq<FileId>)
    requires |ids| == |files| && |ids2| == |files|
    ensures NewEntries(files, HandleFiles(files, staged, ids).staged, ids2) == []
  {
    var after := HandleFiles(files, staged, ids).staged;
    var added := NewEntries(files, staged, ids);
    NewEntriesComplete(files, staged, ids);
    forall i | 0 <= i < |files| ensures !Takes(after, files[i]) {
      if Accepted(files[i].mimeType) {
        if AlreadyStaged(staged, files[i]) {
          var k :| 0 <= k < |staged| && SameFile(staged[k].file, files[i]);
          assert after[k] == staged[k];
        } else {
          var e := Fresh(files[i], ids[i]);
          assert e in added;
          var k :| 0 <= k < |added| && added[k] == e;
          assert after[|staged| + k] == e;
        }
      }
    }
    NoneTaken(files, after, ids2);
  }

  lemma {:induction false} NoneTaken(files: seq<FileInfo>, staged: seq<StagedFile>, ids: seq<FileId>)
    requires |ids| == |files|
    requires forall i :: 0 <= i < |files| ==> !Takes(staged, files[i])
    ensures NewEntries(files, staged, ids) == []
    decreases |files|
  {
    if |files| > 0 {
      NoneTaken(files[1..], staged, ids[1..]);
    }
  }

  /** One warning per dropped file of an unsupported type, in drop order. */
  lemma {:induction false} UnsupportedSpec(files: seq<FileInfo>)
    ensures |Unsupported(files)| <= |files|
    ensures forall i :: 0 <= i < |files| && !Accepted(files[i].mimeType) ==> files[i].name in Unsupported(files)
    ensures (forall i :: 0 <= i < |files| ==> Accepted(files[i].mimeType)) ==> Unsupported(files) == []
    decreases |files|
  {
    if |files| > 0 {
      UnsupportedSpec(files[1..]);
      forall i | 1 <= i < |files| && !Accepted(files[i].mimeType)
        ensures files[i].name in Unsupported(files)
      {
        assert files[1..][i - 1] == files[i];
      }
      if forall i :: 0 <= i < |files| ==> Accepted(files[i].mimeType) {
        assert forall i :: 0 <= i < |files| - 1 ==> Accepted(files[1..][i].mimeType) by {
          forall i | 0 <= i < |files| - 1 ensures Accepted(files[1..][i].mimeType) {
            assert files[1..][i] == files[i + 1];
          }
        }
      }
    }
  }

  // ---------------------------------------------------------------------
  // Preparing the new entries (UploadPanel.tsx:122-142)

  /** How the preparation of one file went: both steps done; the thumbnail
      failed; or the thumbnail was made and the payload failed. */
  datatype Preparation =
    | Prepared(thumbnail: string, data: ApiData)
    | ThumbnailFailed
    | PayloadFailed(thumbnail: string)

  /** The entry with the given id after its preparation. */
  function Prepare(e: StagedFile, p: Preparation): StagedFile {
    match p
    case Prepared(t, d) => e.(thumbnailDataUrl := t, apiData := Some(d), status := Ready)
    case ThumbnailFailed => e.(status := Error)
    case PayloadFailed(t) => e.(thumbnailDataUrl := t, status := Error)
  }

  /** `prev.map(f => f.id === id ? … : f)` for the preparation of `id`. */
  function PrepareId(staged: seq<StagedFile>, id: FileId, p: Preparation): (r: seq<StagedFile>)
    ensures |r| == |staged|
    ensures forall k :: 0 <= k < |r| ==> r[k] == if staged[k].id == id then Prepare(staged[k], p) else staged[k]
  {
    seq(|staged|, k requires 0 <= k < |staged| => if staged[k].id == id then Prepare(staged[k], p) else staged[k])
  }

  /** The new entries prepared one after another, each with its outcome. */
  function PrepareAll(staged: seq<StagedFile>, added: seq<StagedFile>, outcomes: seq<Preparation>): seq<StagedFile>
    requires |outcomes| == |added|
    decreases |added|
  {
    if |added| == 0 then staged
    else PrepareAll(PrepareId(staged, added[0].id, outcomes[0]), added[1..], outcomes[1..])
  }

  /** After the preparation every entry of a new file is ready with its
      payload or in error, keeping its file and id; all other entries are
      untouched. The ids drawn for one drop are taken to be distinct. */
  lemma {:induction false} PrepareAllSpec(staged: seq<StagedFile>, added: seq<StagedFile>, outcomes: seq<Preparation>)
    requires |outcomes| == |added|
    requires NoDup(Ids(added))
    ensures var r := PrepareAll(staged, added, outcomes);
            && |r| == |staged|
            && (forall k :: 0 <= k < |r| && staged[k].id !in IdSet(added) ==> r[k] == staged[k])
            && (forall k, j :: 0 <= k < |r| && 0 <= j < |added| && staged[k].id == added[j].id ==>
                  r[k] == Prepare(staged[k], outcomes[j]))
    decreases |added|
  {
    if |added| > 0 {
      var s1 := PrepareId(staged, added[0].id, outcomes[0]);
      assert NoDup(Ids(added[1..])) by {
        forall a, b | 0 <= a < b < |added| - 1 ensures Ids(added[1..])[a] != Ids(added[1..])[b] {
          assert Ids(added)[a + 1] != Ids(added)[b + 1];
        }
      }
      PrepareAllSpec(s1, added[1..], outcomes[1..]);
      forall k, j | 0 <= k < |staged| && 0 <= j < |added| && staged[k].id == added[j].id
        ensures PrepareAll(staged, added, outcomes)[k] == Prepare(staged[k], outcomes[j])
      {
        if j == 0 {
          assert s1[k] == Prepare(staged[k], outcomes[0]);
          assert forall i :: 0 <= i < |added| - 1 ==> added[1..][i].id != added[0].id by {
            forall i | 0 <= i < |added| - 1 ensures added[1..][i].id != added[0].id {
              assert Ids(added)[i + 1] != Ids(added)[0];
            }
          }
          assert s1[k].id !in IdSet(added[1..]);
        } else {
          assert Ids(added)[0] != Ids(added)[j];
          assert s1[k] == staged[k];
          assert added[1..][j - 1] == added[j];
        }
      }
      forall k | 0 <= k < |staged| && staged[k].id !in IdSet(added)
        ensures PrepareAll(staged, added, outcomes)[k] == staged[k]
      {
        assert staged[k].id != added[0].id;
        assert IdSet(added[1..]) <= IdSet(added) by {
          forall x | x in IdSet(added[1..]) ensures x in IdSet(added) {
            var i :| 0 <= i < |added| - 1 && added[1..][i].id == x;
            assert added[i + 1].id == x;
          }
        }
      }
    }
  }

  /** A prepared entry is ready with a payload exactly when both steps
      succeeded, and in error otherwise. */
  lemma PrepareOutcome(e: StagedFile, p: Preparation)
    ensures Prepare(e, p).file == e.file && Prepare(e, p).id == e.id
    ensures Prepare(e, p).status == Ready <==> p.Prepared?
    ensures Prepare(e, p).status != Ready ==> Prepare(e, p).status == Error
    ensures p.Prepared? ==> Prepare(e, p).apiData == Some(p.data)
  {
  }

  // ---------------------------------------------------------------------
  // Buttons and gallery (UploadPanel.tsx:81-87, 157-159)

  /** `isGenerateDisabled`. */
  predicate IsGenerateDisabled(isGenerating: bool, staged: seq<StagedFile>) {
    isGenerating || |staged| == 0 || |ReadyFiles(staged)| != |staged|
  }

  /** The button is enabled exactly when no run is active and every one of
      the (at least one) staged files is ready; then a run takes all of them. */
  lemma GenerateEnabled(isGenerating: bool, staged: seq<StagedFile>)
    ensures !IsGenerateDisabled(isGenerating, staged)
            <==> !isGenerating && |staged| > 0 && forall k :: 0 <= k < |staged| ==> staged[k].status == Ready
    ensures !IsGenerateDisabled(isGenerating, staged) ==> ReadyFiles(staged) == staged
  {
    if forall k :: 0 <= k < |staged| ==> staged[k].status == Ready {
      ReadyFilesAllReady(staged);
    } else {
      var k :| 0 <= k < |staged| && staged[k].status != Ready;
      ReadyFilesExcludes(staged, k);
    }
  }

  lemma {:induction false} ReadyFilesExcludes(staged: seq<StagedFile>, k: nat)
    requires k < |staged| && staged[k].status != Ready
    ensures |ReadyFiles(staged)| < |staged|
    decreases |staged|
  {
    if k > 0 {
      ReadyFilesExcludes(staged[1..], k - 1);
    }
  }

  /** With the button enabled and a first API key, starting a run is never
      refused. */
  lemma EnabledStartIsNotRefused(app: App, keys: seq<string>, controls: ControlSettings, env: Env)
    requires !IsGenerateDisabled(app.isGenerating, app.staged) && HasFirstKey(keys)
    ensures !StartGeneration(app, keys, controls, env).Refused?
  {
    GenerateEnabled(app.isGenerating, app.staged);
  }

  /** The tiles of the gallery: the files shown and, past the limit, the
      number written on the overflow tile. */
  function Gallery(staged: seq<StagedFile>): (seq<StagedFile>, Option<nat>) {
    if |staged| > GALLERY_DISPLAY_LIMIT then (staged[..GALLERY_DISPLAY_LIMIT - 1], Some(|staged| - (GALLERY_DISPLAY_LIMIT - 1)))
    else (staged, None)
  }

  /** The gallery shows at most 21 tiles; the files shown come first in the
      list and, with the overflow count, account for every staged file. */
  lemma GallerySpec(staged: seq<StagedFile>)
    ensures var (shown, more) := Gallery(staged);
            && shown <= staged
            && |shown| + (if more.Some? then 1 else 0) <= GALLERY_DISPLAY_LIMIT
            && |shown| + more.GetOr(0) == |staged|
            && (more.Some? <==> |staged| > GALLERY_DISPLAY_LIMIT)
            && (more.Some? ==> more.value >= 2)
  {
  }

  /** `removeStagedFile(id)`. */
  function RemoveStagedFile(staged: seq<StagedFile>, id: FileId): seq<StagedFile> {
    RemoveId(staged, id)
  }

  /** Removal drops exactly the entries with that id: everything else stays,
      in order. */
  lemma {:induction false} RemoveStagedFileSpec(staged: seq<StagedFile>, id: FileId)
    ensures forall e :: e in RemoveStagedFile(staged, id) <==> e in staged && e.id != id
    ensures (forall k :: 0 <= k < |staged| ==> staged[k].id != id) ==> RemoveStagedFile(staged, id) == staged
    decreases |staged|
  {
    if |staged| > 0 {
      RemoveStagedFileSpec(staged[1..], id);
      if forall k :: 0 <= k < |staged| ==> staged[k].id != id {
        assert forall k :: 0 <= k < |staged| - 1 ==> staged[1..][k].id != id by {
          forall k | 0 <= k < |staged| - 1 ensures staged[1..][k].id != id {
            assert staged[1..][k] == staged[k + 1];
          }
        }
        assert [staged[0]] + staged[1..] == staged;
      }
    }
  }
}

=== FILE: wrappers.dfy ===
/** Optional values: the model's rendering of JavaScript `undefined` fields
    and of "nothing found" results. */
module Wrappers {

  datatype Option<+T> = None | Some(value: T) {

    /** The value, or `default` when there is none (`x ?? default`). */
    function GetOr(default: T): T {
      match this
      case Some(v) => v
      case None => default
    }
  }
}
